=== FILE: README.md ===
# checkin-gate in Dafny

A model of the decision logic of checkin-gate. That is the Go service in which administrators create events and activities, attendees check in to activities, and finishing an event turns every check-in into a certificate job. The jobs go onto a Redis list, and a worker pops them, renders a PDF and e-mails it. Around that pipeline the model also covers:

- the input validators for CPF numbers and postal codes (CEP);
- client-address resolution;
- the user and session entities of the identity side;
- refresh-token rotation;
- the transaction helpers;
- the two HTTP handlers that turn use-case errors into status codes.

Every use case is a pure function, taking the abstract store, the oracle inputs and a record of injected faults, and returning the result together with the store afterwards:

- **The store.** Sequences of events, activities, check-ins, users and sessions, where a look-up takes the first match.
- **The oracle inputs.** The clock reading `now`, the ID generator's outcomes, the token service's answers, the PDF renderer and the mail sender are parameters.
- **The faults.** For each repository call, `None` when it succeeds or `Some(message)` when it fails.

Go errors are their message strings, and `fmt.Errorf("ctx: %w", e)` is `Wrap(ctx, e)`. Instants and durations are integer nanoseconds.

The older copies of several use cases and entities are modelled beside the newer ones, and lemmas relate the versions:

- internal/events/usecases;
- internal/events/domain;
- internal/identity/usecases;
- internal/identity/domain.

Files, one module each:

- **Shared helpers**
  - wrappers.dfy: `Option`, `Result`, `Outcome` (nil or an error), `Call` (returned or panicked), and `Wrap`.
  - text.dfy: the Go string functions used (`strings.Split`, `strings.TrimSpace`, `strings.ReplaceAll`, `strconv`).
  - clock.dfy: instants, `Before`/`After`, `Sub`, the RFC 3339 year range.
  - rfc3339.dfy: the RFC 3339 text of a timestamp as `time.Time` writes and reads it in JSON, over the proleptic Gregorian calendar in UTC.
- **Validators and client address**
  - cpf.dfy, postal_code.dfy: the two validators, with the findings below.
  - client_ip.dfy: `GetClientIP` and `net.SplitHostPort`.
- **Entities**
  - event_entity.dfy, activity_entity.dfy, check_in.dfy, legacy_event.dfy: the events domain.
  - identity.dfy: users and sessions, for both copies of user.go and session.go.
- **Certificate jobs, queue and worker**
  - certificate_job.dfy: the job record and `NewCertificateJob`.
  - job_codec.dfy: the job's JSON form as a value tree, with encoding and decoding; timestamps are JSON strings holding RFC 3339 text.
  - certificate_queue.dfy: the Redis list.
  - worker.dfy: the certificate worker.
- **Use cases**
  - user_authorization.dfy: the authorization adapter over the user store.
  - events_store.dfy: the events database and its repository queries.
  - checkin_activity.dfy, finish_event.dfy, create_activities.dfy, create_event.dfy: the events use cases.
  - refresh_token.dfy: session rotation.
- **Infrastructure**
  - tx.dfy: `WithTx`, `WithTxResult`, `Transact`.
  - handlers.dfy: the two HTTP status tables.

## Model

| member | source | states |
|---|---|---|
| Cpf.ValidateCPF | internal/shared/lib/validate_cpf.go:15-73 | Valid exactly when the text left after dropping '.', '-' and ' ' is eleven digits, not all the same digit, whose last two agree with the two mod-11 check digits. A wrong length or any non-digit gives no cleaned number. Eleven digits, valid or not (equal digits or a wrong check digit), report the cleaned number. A valid result always carries it. |
| Cpf.CheckDigit | internal/shared/lib/validate_cpf.go:51-55 | A check digit always lies in 0..9. |
| Cpf.CheckDigitIsTextbook | internal/shared/lib/validate_cpf.go:46-66 | The remainder rule (0 below 2, else 11 minus the remainder) agrees on every sum with the textbook rule (10·sum mod 11 mod 10). |
| Cpf.SeparatorsIgnored | internal/shared/lib/validate_cpf.go:16-18 | Inserting a '.', '-' or ' ' anywhere in the input never changes the result. |
| Cpf.FormattedExample | internal/shared/lib/validate_cpf.go:16-72 | "123.456.789-09" and "12345678909" get the same verdict, and it is valid with cleaned number "12345678909". |
| Cpf.ValidateCpfAsWritten | internal/shared/lib/validate_cpf.go:20-34 | As written, every input whose cleaned form is eleven bytes long in UTF-8 (Go's `len`) panics when the back-reference pattern is compiled. Every other input returns the intended verdict. |
| Cpf.AsWrittenPanicsOnValidCpf | internal/shared/lib/validate_cpf.go:28 | A valid number panics as written, while the intended validator accepts it. |
| Cpf.AsWrittenCountsBytes | internal/shared/lib/validate_cpf.go:20-28 | The panic follows the byte count: "123456789é" (ten characters, eleven bytes) panics, and "1234567890é" (eleven characters, twelve bytes) returns invalid with no cleaned number. |
| PostalCode.ValidateBrazilPostalCode | internal/shared/lib/validate_brazil_postal_code.go:18-50 | Valid exactly when the input, trimmed and with every '-' removed, is eight digits that are not all the same. A valid result carries that cleaned code, and every rejection carries none. |
| PostalCode.PaddingAndHyphenIgnored | internal/shared/lib/validate_brazil_postal_code.go:19-20 | Surrounding white space and a hyphen between two runs of digits do not change the verdict. |
| PostalCode.InnerSpaceRejected | internal/shared/lib/validate_brazil_postal_code.go:19-36 | A space between digits survives cleaning, so the code is rejected with no cleaned code. |
| PostalCode.ValidateBrazilPostalCodeAsWritten | internal/shared/lib/validate_brazil_postal_code.go:13-16 | As written, the package-level compile of the back-reference pattern panics, so no call returns. |
| PostalCode.AsWrittenPanicsOnValidCode | internal/shared/lib/validate_brazil_postal_code.go:14 | "01310-100" panics as written, while the intended validator accepts it as "01310100". |
| ClientIp.GetClientIP | internal/shared/lib/http.go:30-56 | The first non-empty source wins: the X-Forwarded-For first element (trimmed), then CF-Connecting-IP, then X-Real-IP, then the host of RemoteAddr (or RemoteAddr itself when it does not split). |
| ClientIp.ForwardedChainFirstHop | internal/shared/lib/http.go:32-37 | For a proxy chain "first,rest" the answer is the trimmed first hop, whatever follows. |
| ClientIp.BlankFirstHopNoFallthrough | internal/shared/lib/http.go:33-36 | A blank first element gives "", and the other headers are not consulted. |
| ClientIp.SplitPlainHostPort | internal/shared/lib/http.go:50 | "host:port" splits at its colon into host and port. |
| ClientIp.SplitBracketedHostPort | internal/shared/lib/http.go:50 | "[host]:port" yields the text inside the brackets as the host. |
| ClientIp.RemoteAddrHost | internal/shared/lib/http.go:50-55 | Without proxy headers, "host:port" gives the host. |
| ClientIp.RemoteAddrWithoutPort | internal/shared/lib/http.go:50-53 | Without proxy headers, an address with no colon is returned unchanged. |
| EventEntity.NewEvent | internal/events/domain/entity/event.go:42-64 | An ID failure is wrapped. Otherwise the event carries the fresh ID and the given fields, with a nil domain list read as empty, status draft and no update time. |
| EventEntity.ExtractDomain | internal/events/domain/entity/event.go:102-108 | An address without exactly one '@' has the empty domain, and no domain contains '@'. |
| EventEntity.ExtractDomainOfAddress | internal/events/domain/entity/event.go:102-108 | The domain of "local@domain" is what follows the '@'. |
| EventEntity.IsAllowedDomain | internal/events/domain/entity/event.go:73-85 | An empty list admits every address. Otherwise an address is admitted exactly when its extracted domain is in the list. |
| EventEntity.AllowedDomainOfAddress | internal/events/domain/entity/event.go:78-84 | With a non-empty list, "local@domain" is admitted exactly when `domain` is listed verbatim. There is no case folding and no sub-domain match. |
| EventEntity.MalformedAddressRejected | internal/events/domain/entity/event.go:78-84 | With a non-empty list that lacks "", an address with no '@' or several is rejected. |
| EventEntity.WindowExcludesBoundaries | internal/events/domain/entity/event.go:88-90 | The check-in window is the open interval, so the start and end instants are outside. |
| EventEntity.DateOrderPredicatesAgree | internal/events/domain/entity/event.go:93-100 | Start-before-end and end-after-start always agree. |
| ActivityEntity.NewActivity | internal/events/domain/entity/activity.go:29-45 | An ID failure is wrapped. Otherwise the activity carries the fresh ID and the given fields, created now, never updated. |
| ActivityEntity.Update | internal/events/domain/entity/activity.go:52-59 | Name, description and both dates take the new values, the update time is stamped, and the returned error is always nil. |
| ActivityEntity.UpdateKeepsIdentity | internal/events/domain/entity/activity.go:52-59 | An update never changes the ID, the owning event or the creation time, whatever event the parameters name. |
| ActivityEntity.DateOrderPredicatesAgree | internal/events/domain/entity/activity.go:62-69 | Start-before-end and end-after-start always agree. |
| ActivityEntity.EndedIsStrictAndMonotone | internal/events/domain/entity/activity.go:75-77 | An activity has ended exactly when its end lies strictly before now. It has not ended at its own end instant, and once ended it stays ended. |
| ActivityEntity.CheckInAllowedIgnoresArgument | internal/events/domain/entity/activity.go:79-81 | The check-in instant passed in makes no difference: the answer is start < now <= end. |
| CheckInEntity.NewCheckIn | internal/events/domain/entity/check_in.go:22-34 | The only failure is the ID generator's, which is wrapped. A check-in carries the fresh ID, the given pair and the construction instant. |
| LegacyEvent.NewEvent | internal/events/domain/event.go:29-45 | An ID failure is an error. A nil domain list makes the constructor panic. Otherwise the event carries the given fields, created now. |
| CertificateJobs.NewCertificateJob | internal/events/domain/queue/certificate_job.go:42-56 | The result is nil exactly when the ID generator fails, because that error is dropped. Otherwise the job carries the fresh ID and the given parts unchanged. |
| JobCodec.Encode | internal/events/infra/queue/redis_certificate_queue.go:27-30 | Marshalling fails exactly when one of the job's timestamps lies outside years 0 to 9999. A marshalled job is an object of five members. |
| JobCodec.IntoString | internal/events/infra/queue/redis_certificate_queue.go:84 | A string field keeps its value for null and takes the text of any JSON string, a timestamp's text included. Every other value is an error. |
| JobCodec.IntoTime | internal/events/domain/queue/certificate_job.go:19-21 | A `time.Time` field keeps its value for null. A JSON string decodes exactly when `Time.UnmarshalJSON`'s readers accept its text (the strict reader, and failing that the layout reader), to the instant it names. Every other value is an error. |
| JobCodec.IntoTimeReadsLayout | internal/events/domain/queue/certificate_job.go:19-21 | A JSON string decodes exactly when `time.Parse` with the RFC 3339 layout reads its text, to the instant it names. |
| JobCodec.TimeRoundTrip | internal/events/domain/queue/certificate_job.go:19-21 | A timestamp the encoder writes decodes back to the same instant. |
| JobCodec.Decode | internal/events/infra/queue/redis_certificate_queue.go:83-86 | null and {} decode to the zero job, and any payload that is not an object or null is an error. |
| JobCodec.UnknownFieldIgnored | internal/events/infra/queue/redis_certificate_queue.go:84 | A member whose key is not a tag of the job changes nothing in the decoded job. |
| JobCodec.EventInfoRoundTrip | internal/events/domain/queue/certificate_job.go:24-27 | The encoded event part decodes back to itself. |
| JobCodec.UserInfoRoundTrip | internal/events/domain/queue/certificate_job.go:10-14 | The encoded user part decodes back to itself. |
| JobCodec.ActivityInfoRoundTrip | internal/events/domain/queue/certificate_job.go:16-22 | The encoded activity part decodes back to itself when its timestamps are writable. |
| JobCodec.RoundTrip | internal/events/domain/queue/certificate_job.go:10-34 | Every writable job decodes from its own payload unchanged. |
| JobCodec.EncodeInjective | internal/events/domain/queue/certificate_job.go:29-34 | Two writable jobs with equal payloads are equal. |
| Rfc3339.StampOfNamesInstant | internal/events/domain/queue/certificate_job.go:19-21 | The UTC calendar reading of every instant in years 0 to 9999 is a valid date (day within its month, leap years by the Gregorian rule) and time of day, and it names that instant. |
| Rfc3339.DateOfDayCounts | internal/events/domain/queue/certificate_job.go:19-21 | Every day of the years 0 to 9999 gets a valid date that counts back to it. |
| Rfc3339.ParseFormat | internal/events/domain/queue/certificate_job.go:19-21 | The RFC 3339 text written for any instant in years 0 to 9999 reads back as that instant. |
| Rfc3339.LayoutClock | internal/events/domain/queue/certificate_job.go:19-21 | The date and time of day that `time.Parse` with the RFC 3339 layout reads are valid: the day is checked against its month, and the hour, minute and second are within range. |
| Rfc3339.LayoutAgreesWithStrict | internal/events/domain/queue/certificate_job.go:19-21 | Wherever the strict reader succeeds, the layout reader names the same instant. |
| Rfc3339.DecodeTimeIsLayout | internal/events/domain/queue/certificate_job.go:19-21 | Taken together, the two readers accept exactly what the layout reader accepts, with the same instant. |
| Rfc3339.OneDigitHourAccepted | internal/events/domain/queue/certificate_job.go:19-21 | The layout reader reads a one-digit hour as the same hour with a leading zero. |
| Rfc3339.StrictRefusesOneDigitHour | internal/events/domain/queue/certificate_job.go:19-21 | The strict reader refuses such a text. |
| Rfc3339.CommaFractionAccepted | internal/events/domain/queue/certificate_job.go:19-21 | The layout reader reads a ',' fraction as the same fraction after '.'. |
| Rfc3339.StrictRefusesCommaFraction | internal/events/domain/queue/certificate_job.go:19-21 | The strict reader refuses a ',' after the seconds. |
| Rfc3339.WiderOffsetAccepted | internal/events/domain/queue/certificate_job.go:19-21 | The layout reader takes offsets up to 24 hours and 60 minutes. The strict reader takes one exactly when its hours are at most 23 and its minutes at most 59. |
| Rfc3339.OffsetShifts | internal/events/domain/queue/certificate_job.go:19-21 | A text ending in "+hh:mm" names the instant hh hours and mm minutes before the same date and time ending in "Z". |
| CertificateQueue.PushAllDelivery | internal/events/infra/queue/redis_certificate_queue.go:47-53 | Payloads pushed one by one are delivered after everything already queued, in the order pushed (first in, first out). |
| CertificateQueue.Enqueue | internal/events/infra/queue/redis_certificate_queue.go:26-37 | An unwritable job gives a marshal error and a failed push gives an enqueue error, both leaving the list alone. Success happens exactly otherwise, and the payload is then delivered after everything already queued. |
| CertificateQueue.EncodeAll | internal/events/infra/queue/redis_certificate_queue.go:47-51 | The batch encodes exactly when every job is writable, element by element in order. |
| CertificateQueue.EnqueueBatch | internal/events/infra/queue/redis_certificate_queue.go:40-61 | An empty batch is a no-op. A marshal failure returns before anything is pushed. A successful Exec delivers the batch, in order, after the existing list. A failed Exec is wrapped. Success happens exactly in the first and third cases. |
| CertificateQueue.BatchDeliversInOrder | internal/events/infra/queue/redis_certificate_queue.go:47-58 | After a successful batch, the delivered payload at the job's position decodes to that job. |
| CertificateQueue.DequeueWithTimeout | internal/events/infra/queue/redis_certificate_queue.go:69-89 | A connection error is wrapped with the list untouched. An empty list times out to (nil, nil), or blocks for a zero timeout. Otherwise the last payload is removed whatever happens next: a short reply or an undecodable payload is an error, and a good one returns its job. |
| CertificateQueue.Dequeue | internal/events/infra/queue/redis_certificate_queue.go:64-66 | With no timeout an empty list blocks, and a successful reply always holds a job. |
| CertificateQueue.Len | internal/events/infra/queue/redis_certificate_queue.go:92-98 | The length of the list, or the wrapped error. |
| CertificateQueue.EnqueueThenDequeue | internal/events/infra/queue/redis_certificate_queue.go:26-88 | A job enqueued on an empty list comes out of the next healthy dequeue unchanged, leaving the list empty. |
| CertificateQueue.MalformedPayloadConsumed | internal/events/infra/queue/redis_certificate_queue.go:79-86 | An undecodable payload is reported and removed, and the rest keep their delivery order. |
| Worker.HoursAndMinutes | internal/events/infra/worker/certificate_worker.go:132-134 | The whole hours and leftover whole minutes of a non-negative length bracket it to within a minute. |
| Worker.WorkloadParts | internal/events/infra/worker/certificate_worker.go:132-134 | With Go's truncating division, the parts of a non-negative length are its whole hours and its whole minutes mod 60. |
| Worker.WorkloadPhraseRoundTrip | internal/events/infra/worker/certificate_worker.go:136-160 | For non-negative counts the phrase is in the phrase grammar and reads back to its hours and minutes. In that grammar each unit is singular exactly for a count of 1. A zero count of minutes is never written, and a zero count of hours is written only alone. |
| Worker.WorkloadUnitRule | internal/events/infra/worker/certificate_worker.go:136-160 | For all non-negative counts: "hora" appears exactly for one hour, and "horas" for any other count of hours that is written. "minuto" appears exactly for one minute, "minutos" for more. "e" appears exactly when both counts are non-zero. |
| Worker.ReadCount | internal/events/infra/worker/certificate_worker.go:140-160 | A count is read only when it is spelled exactly as `%d` prints a non-negative number. |
| Worker.ParseWorkloadWordsExact | internal/events/infra/worker/certificate_worker.go:136-160 | Any word list the grammar accepts is the list printed for the counts it reads. |
| Worker.ParseWorkloadExact | internal/events/infra/worker/certificate_worker.go:136-160 | Any text the grammar accepts is the phrase printed for the counts it reads. No sign, leading zero or other spelling gets through. |
| Worker.BracketUnique | internal/events/infra/worker/certificate_worker.go:132-134 | Only one reading of hours and minutes under 60 brackets a length to within a minute. |
| Worker.WorkloadDetermined | internal/events/infra/worker/certificate_worker.go:131-161 | For an activity that does not end before it starts, the only grammatical phrase whose reading brackets its length is the one `calculateWorkload` writes. |
| Worker.CalculateWorkload | internal/events/infra/worker/certificate_worker.go:131-161 | For an activity that does not end before it starts, the phrase is in the phrase grammar, so its units agree with their counts and zero parts are left out. It names hours h and minutes m < 60 with h·1h + m·1min <= length < h·1h + (m+1)·1min. |
| Worker.ZeroWorkload | internal/events/infra/worker/certificate_worker.go:136-141 | A zero-length activity reads "0 horas". |
| Worker.MixedWorkload | internal/events/infra/worker/certificate_worker.go:150-160 | Ninety minutes read "1 hora e 30 minutos". |
| Worker.SecondsDropped | internal/events/infra/worker/certificate_worker.go:132-141 | Two hours and 59 seconds read "2 horas": seconds are dropped. |
| Worker.MonthNumberName | internal/events/infra/worker/certificate_worker.go:165-169 | Every month number 1..12 has a name that reads back to it. |
| Worker.FormatDateRoundTrip | internal/events/infra/worker/certificate_worker.go:164-170 | "<day> de <month> de <year>" reads back to the same date. |
| Worker.ProcessJob | internal/events/infra/worker/certificate_worker.go:62-128 | The certificate names the recipient, the event, the activity date, the workload, the two fixed signatories and today. No e-mail is attempted exactly when rendering fails. Otherwise exactly one e-mail is sent, to the user's address, with subject "Certificado - <event>" and the one attachment "certificado-<job ID>.pdf" of type application/pdf. |
| Worker.WorkerStep | internal/events/infra/worker/certificate_worker.go:38-58 | A cancelled context stops the loop. A dequeue error continues unless the context is cancelled by then. An empty list continues with nothing handled. A well-formed last payload is removed and its job handled exactly once. |
| Worker.Drain | internal/events/infra/worker/certificate_worker.go:35-60 | Looping on a healthy connection handles at most one job per payload. |
| Worker.DrainStep | internal/events/infra/worker/certificate_worker.go:44-57 | A turn on a well-formed last payload handles exactly that job, then the rest. |
| Worker.DrainFollowsDeliveryOrder | internal/events/infra/worker/certificate_worker.go:35-60 | When every payload is well formed, draining handles each exactly once, in delivery order. |
| Worker.BatchHandledInOrder | internal/events/infra/worker/certificate_worker.go:35-60 | A batch enqueued on an empty list is handled job by job in batch order. |
| UserAuthorization.ToUserInfo | internal/events/infra/service/user_authorization_adapter.go:28-34 | The record copies ID, names and e-mail, and marks admin exactly when the role is "admin". |
| UserAuthorization.GetUserByID | internal/events/infra/service/user_authorization_adapter.go:20-35 | A repository error passes through unchanged, and an unknown user is nil. Otherwise the stored user's details are returned. |
| UserAuthorization.IsUserAdmin | internal/events/infra/service/user_authorization_adapter.go:37-46 | An unknown user is not an admin, and "true" implies a stored admin with that ID. Errors pass through. |
| UserAuthorization.GetUserEmail | internal/events/infra/service/user_authorization_adapter.go:48-57 | An unknown user has the empty address. Otherwise the stored address is returned, and errors pass through. |
| UserAuthorization.GetUserInfoBatch | internal/events/infra/service/user_authorization_adapter.go:59-75 | One record per user the repository returns, in the same order, none filtered out. Each is for a requested ID. |
| UserAuthorization.LookupsAgree | internal/events/infra/service/user_authorization_adapter.go:20-57 | The three single-user look-ups agree: unknown to one means unknown to all, and a known user's admin flag and address match. |
| CheckInActivity.Execute | internal/events/application/usecase/checkin_activity/usecase.go:36-77 | Guards run in the order existence, duplicate, window, ID, save, and the first failing one decides the error. A failure writes nothing. A success appends exactly the new check-in for the pair at now. |
| CheckInActivity.AdmittedIff | internal/events/application/usecase/checkin_activity/usecase.go:37-59 | Admitted exactly when the activity exists, the pair has no check-in, start <= now <= end (both boundaries inside) and no call fails. |
| CheckInActivity.PreservesUniquePairs | internal/events/application/usecase/checkin_activity/usecase.go:46-76 | For serialized requests, admission never stores a second check-in for the same user and activity. |
| CheckInActivity.SecondCheckInRejected | internal/events/application/usecase/checkin_activity/usecase.go:46-53 | After a success, the same pair is turned away as "user already checked in", at any later time. |
| FinishEvent.Dedup | internal/events/application/usecase/finish_event/usecase.go:109-119 | The result has no duplicates and exactly the same elements as the input. |
| FinishEvent.DedupKeepsFirstOccurrenceOrder | internal/events/application/usecase/finish_event/usecase.go:109-119 | The kept IDs appear in the order of their first occurrences. |
| FinishEvent.UniqueUserIds | internal/events/application/usecase/finish_event/usecase.go:110-119 | The loop with a seen-set computes the first-occurrence de-duplication of the check-ins' user IDs. |
| FinishEvent.UserIndex | internal/events/application/usecase/finish_event/usecase.go:130-134 | The index has an entry exactly for each user ID in the batch, and each entry is a batch record with that ID. |
| FinishEvent.ActivityIndex | internal/events/application/usecase/finish_event/usecase.go:136-140 | The index has an entry exactly for each activity ID, and each entry is that activity. |
| FinishEvent.BuildJobs | internal/events/application/usecase/finish_event/usecase.go:142-180 | On success, one job per check-in in order, each with its own fresh ID and built from the indexed user and activity. A failure means some check-in's user or activity is not indexed, or its ID failed. |
| FinishEvent.EnqueueJobs | internal/events/application/usecase/finish_event/usecase.go:130-187 | A job that cannot be built fails the run with its message and leaves the queue alone. Otherwise the built batch is the one handed to EnqueueBatch, the queue is what that leaves, and an enqueue failure is wrapped. |
| FinishEvent.Enqueue | internal/events/application/usecase/finish_event/usecase.go:121-187 | A failed user-batch look-up is wrapped as "failed to get user info batch". An empty batch fails with "no users found for check-ins". Both leave the queue alone. Otherwise the jobs are built and enqueued from that batch's index. When the batch is reached, it is the one built from the indices. |
| FinishEvent.ExecuteForEvent | internal/events/application/usecase/finish_event/usecase.go:86-107 | With the event found, the checks run in order: no activities, an activity not ended, a failed check-in look-up (wrapped), and no check-ins. Each gives its own error and leaves the queue alone. Only when none applies are the check-ins' jobs enqueued. |
| FinishEvent.ExecuteAsAdmin | internal/events/application/usecase/finish_event/usecase.go:53-84 | For an admin caller, a failed event look-up is wrapped as "failed to find event by ID", and is reported before a failed activity look-up ("failed to find activities by event ID"). A missing event gives "event not found". Otherwise the run goes on with the event and its activities. The batch is reached only when every later check passes. |
| FinishEvent.Execute | internal/events/application/usecase/finish_event/usecase.go:38-188 | The caller is checked first: a failed look-up, an unknown user or a non-admin stops the run. For an admin the run continues as ExecuteAsAdmin. The batch is reached only when the event exists, has activities, all have ended and some check-ins exist, and then it holds one job per check-in. Every failure except a failed pipeline leaves the queue alone. Success appends the batch to the delivery order. |
| FinishEvent.UnendedActivityStops | internal/events/application/usecase/finish_event/usecase.go:90-96 | If any activity is still running, the answer is "activity has not ended", whatever the check-ins, users or queue, and the queue is untouched. |
| FinishEvent.CheckInActivitiesIndexed | internal/events/application/usecase/finish_event/usecase.go:151-154 | Every check-in the query returns has its activity in the index, so "activity not found: <id>" cannot happen. |
| FinishEvent.IndexedUserIsStored | internal/events/application/usecase/finish_event/usecase.go:130-134 | Every user-index entry describes a stored user. |
| FinishEvent.BuiltJobsDescribe | internal/events/application/usecase/finish_event/usecase.go:142-180 | A built batch describes its check-ins in terms of the stored users and activities. |
| FinishEvent.StoredUsersIndexed | internal/events/application/usecase/finish_event/usecase.go:109-134 | Every checked-in user who is stored has an entry in the index built from the user batch. |
| FinishEvent.IndexedUsersStored | internal/events/application/usecase/finish_event/usecase.go:121-134 | Every checked-in user with an index entry is stored. |
| FinishEvent.BuildJobsSucceeds | internal/events/application/usecase/finish_event/usecase.go:142-180 | The jobs are built when every check-in's user and activity are indexed and every job ID is generated. |
| FinishEvent.EnqueueReachedOnlyIf | internal/events/application/usecase/finish_event/usecase.go:121-180 | Reaching the enqueue needs a user batch without fault and, for every check-in, a stored user and a generated job ID. |
| FinishEvent.BatchReachedOnlyIf | internal/events/application/usecase/finish_event/usecase.go:38-180 | Reaching the batch needs an admin caller, no fault, a found event whose activities exist and have all ended, some check-ins, a stored user for each and every job ID generated. |
| FinishEvent.BatchReachedIf | internal/events/application/usecase/finish_event/usecase.go:38-180 | Those conditions together reach the batch. |
| FinishEvent.BatchReachedIff | internal/events/application/usecase/finish_event/usecase.go:38-188 | The batch is reached exactly when those conditions hold. The run then succeeds exactly when the batch encodes and the pipeline runs. |
| FinishEvent.BatchIsOneJobPerCheckIn | internal/events/application/usecase/finish_event/usecase.go:142-180 | The batch holds one job per check-in, in check-in order. Each job names the event and the stored user (first and last name joined by a space), has the activity's start as both date and start time and its end as end time, and carries the check-in instant. |
| CreateActivities.FirstRepeat | internal/events/application/usecase/create_activities/usecase.go:63-73 | No name is reported exactly when the names are pairwise distinct. |
| CreateActivities.FirstRepeatIsFirst | internal/events/application/usecase/create_activities/usecase.go:63-73 | The reported name is the first position to repeat an earlier one, and the names before it are distinct. |
| CreateActivities.FirstRepeatStable | internal/events/application/usecase/create_activities/usecase.go:63-73 | Names after the first repeat never change the report. |
| CreateActivities.CheckNames | internal/events/application/usecase/create_activities/usecase.go:63-73 | The early-exit loop with a seen-set reports exactly the first repeated name, and otherwise collects every name in order. |
| CreateActivities.Build | internal/events/application/usecase/create_activities/usecase.go:84-98 | Succeeds exactly when every ID is generated, giving one activity per input in order, in the input's event. Otherwise it gives the first ID failure, wrapped. |
| CreateActivities.Create | internal/events/application/usecase/create_activities/usecase.go:63-107 | Checks in order: repeated input name, name query failure, names already in the event, ID failure, save failure. The first failure is reported and nothing is written. Success stores exactly the built batch. |
| CreateActivities.Execute | internal/events/application/usecase/create_activities/usecase.go:48-108 | More than ten activities are refused before any look-up. A look-up error passes through, and a caller who is not a known admin is "not an admin". Otherwise the batch is created. |
| CreateActivities.ExecuteLegacy | internal/events/usecases/create-activities.go:32-96 | The same cap, then "user not found" for an unknown user and "not an admin" for a role other than "admin". Each activity's own event ID is replaced by the input's. |
| CreateActivities.CreatedIff | internal/events/application/usecase/create_activities/usecase.go:48-108 | A batch is stored exactly when it has at most ten activities, the caller is a known admin, its names are distinct and new to the event, every ID is generated and no call fails. |
| CreateActivities.PreservesUniqueNames | internal/events/application/usecase/create_activities/usecase.go:63-107 | For serialized requests, no event ever holds two activities with the same name. |
| CreateActivities.LegacyAgrees | internal/events/usecases/create-activities.go:39-88 | The two versions agree for a known user. For an unknown one the older says "user not found" and the newer "user is not an admin". |
| CreateEvent.Execute | internal/events/application/usecase/create_event/usecase.go:38-80 | The checks run in order: caller look-up, known user, admin, ID, strict start < end, save. A failure writes nothing. Success stores exactly the new draft event. |
| CreateEvent.CreatedIff | internal/events/application/usecase/create_event/usecase.go:38-80 | An event is created exactly when the caller is a known admin, the ID is generated, the start is strictly before the end and no call fails. It is then a draft carrying the input. |
| CreateEvent.EndDateErrorUnreachable | internal/events/application/usecase/create_event/usecase.go:64-70 | "end date must be after start date" is never the answer unless the store itself says so. |
| CreateEvent.ExecuteLegacy | internal/events/usecases/create-event.go:30-59 | There is no caller check. A nil domain list panics. Only a start after the end is refused, and anything that passes is saved. |
| CreateEvent.VersionsDisagree | internal/events/usecases/create-event.go:45-47 | Equal start and end are refused by the newer version and stored by the older. A nil domain list is an empty allow-list in the newer version and a panic in the older. |
| CreateEvent.LegacyEndDateErrorUnreachable | internal/events/usecases/create-event.go:45-51 | The older second date check is unreachable too. |
| Identity.NewUser | internal/identity/domain/entity/user.go:29-39 | A new user has the given identity, role "user", no update time, and is not an admin. |
| Identity.PromoteToAdmin | internal/identity/domain/entity/user.go:45-48 | A promoted user is an admin with the update stamped, and every other field is kept. |
| Identity.PromoteIdempotent | internal/identity/domain/entity/user.go:45-53 | Promoting twice is promoting once, up to the update time. |
| Identity.NewSession | internal/identity/domain/entity/session.go:15-25 | A session carries the six arguments and is created at the construction instant. |
| Identity.ExpiryMonotone | internal/identity/domain/entity/session.go:27-29 | A session is still valid at its expiry instant, and once expired stays expired. |
| RefreshToken.Rotated | internal/identity/application/usecase/refresh_token/usecase.go:98-105 | The replacement session has the new ID and token, belongs to the same user, is created now and expires one lifetime later. |
| RefreshToken.Execute | internal/identity/application/usecase/refresh_token/usecase.go:48-115 | An unknown token is "invalid refresh token" with the sessions untouched. An expired session is deleted and "session expired" answered, or the deletion's error instead. A missing user is "invalid refresh token". A token or ID failure changes nothing, as does a failed rotation delete. A failed save leaves the old session deleted and no new one. Success replaces the old session with exactly one new session and returns both tokens. |
| RefreshToken.ExecuteLegacy | internal/identity/usecases/refresh-token.go:48-112 | Without deletion faults it behaves as the newer version. Its answer is always the one the newer version gives when deletion succeeds, so a failed `Delete` never changes it: an expired session answers "session expired", and a rotation still succeeds. With a failed deletion, a failure leaves the sessions as they were, and a rotation keeps the old session and appends the renewed one. |
| RefreshToken.ExpiredNeverRefreshed | internal/identity/application/usecase/refresh_token/usecase.go:59-64 | Neither version refreshes an expired session. |
| RefreshToken.RotationRetiresOldToken | internal/identity/application/usecase/refresh_token/usecase.go:93-114 | After a successful rotation the presented token finds nothing. The new token finds a session of the same user that expires one lifetime after now, and tokens stay unique. |
| RefreshToken.LegacyReplaysToken | internal/identity/usecases/refresh-token.go:92-106 | When the older version's deletion fails but rotation succeeds, the presented token still finds a session. The newer version refuses to rotate then. |
| Transactions.RollbackFailed | internal/shared/tx.go:37-39 | The combined message begins "tx error: " followed by the work's error and ends with the rollback's error. |
| Transactions.WithTxResult | internal/shared/tx.go:51-72 | A begin failure returns the zero result and a wrapped error without running the work. Otherwise the work runs once: its error triggers a rollback (its own error returned, or the combined one), and its success triggers a commit. Only a successful commit keeps the work's writes. |
| Transactions.WithTx | internal/shared/tx.go:30-48 | The same protocol for work that returns only an error. |
| Transactions.Transact | internal/events/infra/persistence/postgres_transaction_provider.go:20-44 | Writes made through the three repositories either all land (nil error) or all vanish. |
| Transactions.AllOrNothing | internal/shared/tx.go:51-72 | The run succeeds exactly when begin, the work and the commit all succeed. Then the database is what the work left, and otherwise it is untouched. |
| Transactions.OneEnding | internal/shared/tx.go:31-47 | The work runs only after a successful begin. Each begun transaction ends in exactly one commit or one rollback, a commit exactly when the work succeeded. |
| Transactions.WorkErrorPassesThrough | internal/shared/tx.go:60-64 | With a successful rollback the work's error and result reach the caller unchanged. |
| Transactions.WithTxIsResultless | internal/shared/tx.go:30-72 | `WithTx` is `WithTxResult` with a result that carries nothing. |
| Handlers.CheckInStatus | internal/events/infra/http/handler/checkin_activity.go:52-59 | 404 exactly for "activity not found", 400 exactly for the duplicate and window messages, 500 for every other message. |
| Handlers.HandleCheckIn | internal/events/infra/http/handler/checkin_activity.go:41-71 | 201 exactly when the use case admits. The body then copies the saved check-in's ID, user, activity and instant. Otherwise the body is the error's message under the status its table gives. |
| Handlers.CheckInCreatedIff | internal/events/infra/http/handler/checkin_activity.go:50-70 | 201 exactly when the activity exists, the pair is new, the instant is inside the closed window and no call fails. |
| Handlers.CheckInFaultsAreServerErrors | internal/events/infra/http/handler/checkin_activity.go:57-58 | A failing activity or duplicate query is a 500, never mistaken for a client error. |
| Handlers.RepeatCheckInIsBadRequest | internal/events/infra/http/handler/checkin_activity.go:55-56 | A second check-in for the same pair is a 400 "user already checked in". |
| Handlers.FinishStatus | internal/events/infra/http/handler/finish_event.go:47-56 | 404 exactly for an unknown user or event, 403 exactly for a non-admin, 400 exactly for the three precondition messages, 500 for every other message (including "no users found for check-ins"). |
| Handlers.HandleFinish | internal/events/infra/http/handler/finish_event.go:33-63 | 202 with "certificate jobs enqueued" exactly when the use case succeeds. Otherwise the error's message under the status its table gives, and the queue is what the use case left. |
| Handlers.FinishCallerStatus | internal/events/infra/http/handler/finish_event.go:44-56 | A failed user look-up is a 500, an unknown user a 404, a non-admin a 403, and the queue is untouched in all three. |
| Handlers.FinishTooEarlyIsBadRequest | internal/events/infra/http/handler/finish_event.go:52-53 | Asking before every activity has ended is a 400 and enqueues nothing. |

## Left out

- **Repositories and infrastructure.** The SQL repositories are sequences with first-match look-ups. A query's failure is a fault parameter, and fields the database fills on insert are not modelled: the saved record is the one built. The SQL result order of the list queries is the stored order.
- **Oracles.** `time.Now`, `lib.GenerateID` (its UUID/CUID2 type switch included), the JWT service, the PDF renderer and the mail sender are parameters, and their internals are not modelled.
- **OAuth.** The OAuth use cases, the Google provider and the routes and wiring are not part of this model.
- **JSON.** The JSON text syntax, key case-insensitivity and escaping are not modelled: a payload is a value tree. A timestamp is a JSON string holding its RFC 3339 text. Instants carry no location, so the encoder writes them in UTC (ending in "Z"); the decoder accepts a numeric offset of up to 24 hours and 60 minutes, as `time.Parse` does.
- **HTTP responses.** `lib.RespondJSON`'s own marshal failure is not modelled. The handlers write the body they build.
- **Time zones.** The calendar reading of an instant (time zone, day, month, year) is a parameter of `formatDate`'s caller.
- **Unused job timestamp.** The job's `EnqueuedAt`, read only by a log line, is not modelled.
- **Logging and the e-mail body.** Logging and the HTML e-mail body are left out.
- **The finish-event fan-out.** The errgroup runs the event and activity look-ups concurrently. The model runs them one after the other and reports the event's error when both fail.
- **Redis pipelines.** A failed pipeline may have applied a prefix of the pushes; the model takes the number applied as a parameter. Blocking waits and the timing of cancellation are reduced to booleans given to each loop turn.
- **Concurrent requests.** Requests are taken to be serialized. The check-in and activity-creation use cases read and then write with no transaction, and the schema has no unique constraint. Two concurrent requests may therefore both pass the duplicate check (internal/events/application/usecase/checkin_activity/usecase.go:47-71, internal/events/application/usecase/create_activities/usecase.go:76-100). The uniqueness lemmas hold for one request at a time.
- **Commit failures.** The database after a failed commit is taken to be the one before the transaction.
- **Source inconsistencies.** The use case builds jobs with `StartTime`, `EndTime` and `CheckedAt` and expects `(job, err)` from `NewCertificateJob`. internal/events/domain/queue/certificate_job.go declares `ActivityStartDate`/`ActivityEndDate`, no check-in instant, and a single result. The model follows the record the use case builds and the worker reads. Likewise:
  - the worker's getters are not declared;
  - the routes pass more constructor arguments than the use cases take;
  - the check-in repository interface lacks `FindByActivityIDs`.

  The model follows the `Execute` bodies.
- **Byte and character lengths.** The validators count bytes (Go's `len`). The models of `ValidateCPF` and `ValidateBrazilPostalCode` count characters. Any non-ASCII character is rejected either way, so their verdicts are the same. Cpf.ValidateCpfAsWritten counts UTF-8 bytes, because there the count decides whether the call panics. Strings that are not valid UTF-8 are not modelled.
- **net.SplitHostPort.** It follows Go's splitting rules for the shapes it accepts and rejects. Its distinct error messages are not modelled, because `GetClientIP` discards them.
- Worker.CalculateWorkload: stated only for activities that do not end before they start. Go computes the parts as `int(d.Hours())` and `int(d.Minutes()) % 60`, through float64. The model truncates exact integers, which agree with Go below 4096 hours. From 4096 hours on, the float64 sum can round up to the next whole hour. For example, 4096 h + 3599.999999999 s is "4097 horas e 59 minutos" in Go and "4096 horas e 59 minutos" in the model. Minutes round the same way from 262144 minutes on. The model does not follow that rounding.
- Worker.WorkloadPhraseRoundTrip: the phrase grammar covers non-negative counts only. A negative length gives Go phrases such as "-1 hora e -30 minuto", which lie outside it.
- JobCodec.Decode: for a payload with several errors, the model reports the first in member order. `encoding/json` reads on past a type mismatch and may report a later error instead. Whether decoding fails is the same either way. The wording of the time-parsing error is shortened to its first part.
- UserAuthorization.IsUserAdmin: Go's `(false, err)` is the model's `Err(err)`. The boolean returned next to an error is not modelled.
- CertificateQueue.Dequeue: its contract states only the blocking and non-nil-job facts; the rest follows from `DequeueWithTimeout` with a zero timeout.

## Findings

| source | as written | input that shows it | evidently intended | confidence | as-written member | corrected member |
|---|---|---|---|---|---|---|
| internal/shared/lib/validate_cpf.go:28 | `regexp.MustCompile` of `^(\d)\1{10}$`, compiled after the length check; Go's RE2 syntax has no back-references, so it panics | "123.456.789-09" (eleven bytes after cleaning) panics instead of being accepted | reject a number made of one digit repeated eleven times, otherwise apply the check digits | not executed | Cpf.ValidateCpfAsWritten, Cpf.AsWrittenPanicsOnValidCpf | Cpf.ValidateCPF |
| internal/shared/lib/validate_brazil_postal_code.go:14 | package-level `regexp.MustCompile` of `^(\d)\1{7}$`; the back-reference makes it panic when the package is initialised | "01310-100": no call can return, while the code is valid | reject eight repetitions of one digit, accept other eight-digit codes | not executed | PostalCode.ValidateBrazilPostalCodeAsWritten, PostalCode.AsWrittenPanicsOnValidCode | PostalCode.ValidateBrazilPostalCode |

=== FILE: activity_entity.dfy ===
/** The Activity entity, after internal/events/domain/entity/activity.go.
    The older internal/events/domain/activity.go declares the same fields,
    constructor and `Update`, and is modelled by the same definitions.
 */
module ActivityEntity {

  import opened Wrappers
  import opened Clock

  datatype Activity = Activity(
    id: string,
    name: string,
    eventId: string,
    description: Option<string>,
    startDate: Instant,
    endDate: Instant,
    createdAt: Instant,
    updatedAt: Option<Instant>)

  datatype NewActivityParams = NewActivityParams(
    name: string,
    eventId: string,
    description: Option<string>,
    startDate: Instant,
    endDate: Instant)

  /** `NewActivity`: `newId` is the ID generator's outcome, `now` the clock. */
  function NewActivity(params: NewActivityParams, newId: Result<string>, now: Instant): (r: Result<Activity>)
    ensures newId.Err? ==> r == Err(Wrap("failed to generate activity ID", newId.msg))
    ensures newId.Ok? ==> r.Ok? && r.value.id == newId.value
    ensures r.Ok? ==>
      && r.value.name == params.name
      && r.value.eventId == params.eventId
      && r.value.description == params.description
      && r.value.startDate == params.startDate
      && r.value.endDate == params.endDate
      && r.value.createdAt == now
      && r.value.updatedAt == None
  {
    match newId
    case Err(e) => Err(Wrap("failed to generate activity ID", e))
    case Ok(id) =>
      Ok(Activity(id, params.name, params.eventId, params.description,
                  params.startDate, params.endDate, now, None))
  }

  /** `Update`: the mutated activity and the returned error (always nil). The
      `EventID` in the parameters is ignored. */
  function Update(a: Activity, params: NewActivityParams, now: Instant): (r: (Activity, Outcome))
    ensures r.1 == Pass
    ensures r.0.name == params.name && r.0.description == params.description
    ensures r.0.startDate == params.startDate && r.0.endDate == params.endDate
    ensures r.0.updatedAt == Some(now)
  {
    (a.(name := params.name, description := params.description,
        startDate := params.startDate, endDate := params.endDate,
        updatedAt := Some(now)), Pass)
  }

  /** An update never touches the identity, the owning event or the creation
      time, whatever `EventID` the parameters carry. */
  lemma UpdateKeepsIdentity(a: Activity, params: NewActivityParams, now: Instant)
    ensures var u := Update(a, params, now).0;
      u.id == a.id && u.eventId == a.eventId && u.createdAt == a.createdAt
  {
  }

  predicate IsStartDateBeforeEndDate(a: Activity) { Before(a.startDate, a.endDate) }
  predicate IsEndDateAfterStartDate(a: Activity) { After(a.endDate, a.startDate) }

  lemma DateOrderPredicatesAgree(a: Activity)
    ensures IsStartDateBeforeEndDate(a) <==> IsEndDateAfterStartDate(a)
  {
  }

  /** `HasStarted` / `HasEnded`, with `time.Now()` as the parameter `now`. */
  predicate HasStarted(a: Activity, now: Instant) { Before(a.startDate, now) }
  predicate HasEnded(a: Activity, now: Instant) { Before(a.endDate, now) }

  /** `IsCheckInAllowed`: its argument is never read; it asks the clock. */
  predicate IsCheckInAllowed(a: Activity, checkInTime: Instant, now: Instant) {
    HasStarted(a, now) && !HasEnded(a, now)
  }

  /** The ended test is strict, and once ended an activity stays ended. */
  lemma EndedIsStrictAndMonotone(a: Activity, now: Instant, later: Instant)
    requires now <= later
    ensures !HasEnded(a, a.endDate)
    ensures HasEnded(a, now) ==> HasEnded(a, later)
    ensures HasEnded(a, now) <==> a.endDate < now
  {
  }

  /** The argument of IsCheckInAllowed makes no difference. */
  lemma CheckInAllowedIgnoresArgument(a: Activity, t1: Instant, t2: Instant, now: Instant)
    ensures IsCheckInAllowed(a, t1, now) == IsCheckInAllowed(a, t2, now)
    ensures IsCheckInAllowed(a, t1, now) <==> a.startDate < now <= a.endDate
  {
  }
}

=== FILE: certificate_job.dfy ===
/** The certificate job, after internal/events/domain/queue/certificate_job.go.

    The record is the one the finish-event use case builds and the worker
    reads: its activity part carries the activity's start and end instants
    (`StartTime`, `EndTime`) and the job carries the check-in instant
    (`CheckedAt`), fields the declaration in certificate_job.go does not have
    under those names.
 */
module CertificateJobs {

  import opened Wrappers
  import opened Clock

  datatype EventInfo = EventInfo(eventId: string, eventName: string)

  datatype UserInfo = UserInfo(userId: string, userName: string, userEmail: string)

  datatype ActivityInfo = ActivityInfo(
    activityId: string,
    activityName: string,
    activityDate: Instant,
    startTime: Instant,
    endTime: Instant)

  datatype CertificateJob = CertificateJob(
    jobId: string,
    eventInfo: EventInfo,
    userInfo: UserInfo,
    activityInfo: ActivityInfo,
    checkedAt: Instant)

  datatype NewCertificateJobParams = NewCertificateJobParams(
    eventInfo: EventInfo,
    userInfo: UserInfo,
    activityInfo: ActivityInfo,
    checkedAt: Instant)

  /** The zero values a freshly declared Go variable holds. */
  const ZeroEventInfo := EventInfo("", "")
  const ZeroUserInfo := UserInfo("", "", "")
  const ZeroActivityInfo := ActivityInfo("", "", ZeroTime, ZeroTime, ZeroTime)
  const ZeroJob := CertificateJob("", ZeroEventInfo, ZeroUserInfo, ZeroActivityInfo, ZeroTime)

  /** `NewCertificateJob`: the ID generator's outcome is a parameter. On
      failure the error is built and dropped and the result is nil (`None`). */
  function NewCertificateJob(params: NewCertificateJobParams, newId: Result<string>): (r: Option<CertificateJob>)
    ensures r.None? <==> newId.Err?
    ensures r.Some? ==>
      && r.value.jobId == newId.value
      && r.value.eventInfo == params.eventInfo
      && r.value.userInfo == params.userInfo
      && r.value.activityInfo == params.activityInfo
      && r.value.checkedAt == params.checkedAt
  {
    match newId
    case Err(_) => None
    case Ok(id) => Some(CertificateJob(id, params.eventInfo, params.userInfo, params.activityInfo, params.checkedAt))
  }
}

=== FILE: certificate_queue.dfy ===
/** The Redis certificate queue, after
    internal/events/infra/queue/redis_certificate_queue.go.

    The list stored under `certificate:jobs` is a sequence of payloads whose
    index 0 is the head: `LPUSH` adds there and `BRPOP` removes the last
    element, so the list is delivered from the end back to the start.
    Transport failures enter as parameters.
 */
module CertificateQueue {

  import opened Wrappers
  import opened Clock
  import opened CertificateJobs
  import opened JobCodec

  const QueueKey := "certificate:jobs"

  type Queue = seq<Json>

  /** `LPUSH key payload`. */
  function Push(q: Queue, p: Json): (r: Queue)
    ensures |r| == |q| + 1 && r[0] == p && r[1..] == q
  {
    [p] + q
  }

  /** One `LPUSH` per payload, in the order given. */
  function PushAll(q: Queue, ps: seq<Json>): (r: Queue)
    ensures |r| == |q| + |ps|
    decreases |ps|
  {
    if |ps| == 0 then q else PushAll(Push(q, ps[0]), ps[1..])
  }

  function Reverse<T>(s: seq<T>): (r: seq<T>)
    ensures |r| == |s|
    ensures forall i :: 0 <= i < |s| ==> r[i] == s[|s| - 1 - i]
  {
    if |s| == 0 then [] else Reverse(s[1..]) + [s[0]]
  }

  /** The order in which repeated `BRPOP`s hand the payloads out. */
  function DeliveryOrder(q: Queue): seq<Json> { Reverse(q) }

  lemma ReverseAppend<T>(a: seq<T>, b: seq<T>)
    ensures Reverse(a + b) == Reverse(b) + Reverse(a)
  {
  }

  /** Payloads pushed one by one are handed out after everything already
      queued, in the order they were pushed: the queue is first in, first out. */
  lemma {:induction false} PushAllDelivery(q: Queue, ps: seq<Json>)
    ensures DeliveryOrder(PushAll(q, ps)) == DeliveryOrder(q) + ps
    decreases |ps|
  {
    if |ps| > 0 {
      PushAllDelivery(Push(q, ps[0]), ps[1..]);
      assert Reverse([ps[0]] + q) == Reverse(q) + [ps[0]];
      assert ps == [ps[0]] + ps[1..];
    }
  }

  // ---------------------------------------------------------------- Enqueue

  /** `Enqueue`: `pushFault` is the error `LPUSH` reports, if any. */
  function Enqueue(q: Queue, job: CertificateJob, pushFault: Option<string>): (r: (Outcome, Queue))
    ensures !JobEncodable(job) ==> r == (Fail(Wrap("failed to marshal job", TimeRangeError)), q)
    ensures JobEncodable(job) && pushFault.Some? ==> r == (Fail(Wrap("failed to enqueue job", pushFault.value)), q)
    ensures r.0 == Pass <==> JobEncodable(job) && pushFault.None?
    ensures r.0 == Pass ==> DeliveryOrder(r.1) == DeliveryOrder(q) + [Encode(job).value]
  {
    match Encode(job)
    case Err(e) => (Fail(Wrap("failed to marshal job", e)), q)
    case Ok(p) =>
      if pushFault.Some? then (Fail(Wrap("failed to enqueue job", pushFault.value)), q)
      else
        assert PushAll(q, [p]) == Push(q, p);
        PushAllDelivery(q, [p]);
        (Pass, Push(q, p))
  }

  // ----------------------------------------------------------- EnqueueBatch

  /** What `pipe.Exec` reports: every queued `LPUSH` ran, or the batch failed
      after the first `applied` of them had run. */
  datatype ExecOutcome = ExecOk | ExecFailed(err: string, applied: nat)

  /** Every job of the batch encoded, in order. The loop stops at the first
      job that cannot be encoded, and every such failure has the same
      message, so the batch fails exactly when some job does. */
  function EncodeAll(jobs: seq<CertificateJob>): (r: Result<seq<Json>>)
    ensures r.Ok? <==> forall i :: 0 <= i < |jobs| ==> JobEncodable(jobs[i])
    ensures r.Ok? ==> |r.value| == |jobs| && forall i :: 0 <= i < |jobs| ==> r.value[i] == Encode(jobs[i]).value
    ensures r.Err? ==> r.msg == TimeRangeError
  {
    if forall i :: 0 <= i < |jobs| ==> JobEncodable(jobs[i]) then
      Ok(seq(|jobs|, i requires 0 <= i < |jobs| => Encode(jobs[i]).value))
    else Err(TimeRangeError)
  }

  /** `EnqueueBatch`. */
  function EnqueueBatch(q: Queue, jobs: seq<CertificateJob>, exec: ExecOutcome): (r: (Outcome, Queue))
    ensures |jobs| == 0 ==> r == (Pass, q)
    ensures EncodeAll(jobs).Err? ==> r == (Fail(Wrap("failed to marshal job", TimeRangeError)), q)
    ensures |jobs| > 0 && EncodeAll(jobs).Ok? && exec.ExecOk? ==>
      r.0 == Pass && DeliveryOrder(r.1) == DeliveryOrder(q) + EncodeAll(jobs).value
    ensures |jobs| > 0 && EncodeAll(jobs).Ok? && exec.ExecFailed? ==>
      r.0 == Fail(Wrap("failed to execute batch enqueue", exec.err))
    ensures r.0 == Pass <==> |jobs| == 0 || (EncodeAll(jobs).Ok? && exec.ExecOk?)
  {
    if |jobs| == 0 then (Pass, q)
    else
      match EncodeAll(jobs)
      case Err(e) => (Fail(Wrap("failed to marshal job", e)), q)
      case Ok(ps) =>
        match exec
        case ExecOk =>
          PushAllDelivery(q, ps);
          (Pass, PushAll(q, ps))
        case ExecFailed(err, applied) =>
          var landed := if applied < |ps| then applied else |ps|;
          (Fail(Wrap("failed to execute batch enqueue", err)), PushAll(q, ps[..landed]))
  }

  /** A successful batch delivers its jobs in the order they were given, and
      each delivered payload decodes to its job. */
  lemma BatchDeliversInOrder(q: Queue, jobs: seq<CertificateJob>, i: nat)
    requires |jobs| > 0 && EncodeAll(jobs).Ok?
    requires i < |jobs|
    ensures var d := DeliveryOrder(EnqueueBatch(q, jobs, ExecOk).1);
      |d| == |q| + |jobs| && Decode(d[|q| + i]) == Ok(jobs[i])
  {
    RoundTrip(jobs[i]);
  }

  // ---------------------------------------------------------------- Dequeue

  /** The connection as `BRPOP` sees it: healthy, failing with an error
      (including cancellation of the context), or answering with a reply of
      fewer than two elements whose printed form is `reply`. */
  datatype Link = Healthy | Broken(err: string) | Truncated(reply: string)

  /** The call returns a job or nil with an error or nil, and the list after
      the call; with no payload and no timeout it never returns. */
  datatype Dequeued = Reply(result: Result<Option<CertificateJob>>, rest: Queue) | Blocks

  /** `DequeueWithTimeout`; a `timeout` of 0 blocks indefinitely. */
  function DequeueWithTimeout(q: Queue, timeout: nat, link: Link): (r: Dequeued)
    ensures link.Broken? ==> r == Reply(Err(Wrap("failed to dequeue job", link.err)), q)
    ensures !link.Broken? && |q| == 0 ==> (if timeout > 0 then r == Reply(Ok(None), q) else r.Blocks?)
    ensures !link.Broken? && |q| > 0 ==> r.Reply? && r.rest == q[..|q| - 1]
    ensures link.Truncated? && |q| > 0 ==> r.result == Err("unexpected BRPop result: " + link.reply)
    ensures link.Healthy? && |q| > 0 ==>
      r.result == (match Decode(q[|q| - 1])
                   case Ok(j) => Ok(Some(j))
                   case Err(e) => Err(Wrap("failed to unmarshal job", e)))
  {
    if link.Broken? then Reply(Err(Wrap("failed to dequeue job", link.err)), q)
    else if |q| == 0 then (if timeout > 0 then Reply(Ok(None), q) else Blocks)
    else
      var payload := q[|q| - 1];
      var rest := q[..|q| - 1];
      match link
      case Truncated(reply) => Reply(Err("unexpected BRPop result: " + reply), rest)
      case Healthy =>
        match Decode(payload)
        case Ok(j) => Reply(Ok(Some(j)), rest)
        case Err(e) => Reply(Err(Wrap("failed to unmarshal job", e)), rest)
  }

  /** `Dequeue`. */
  function Dequeue(q: Queue, link: Link): (r: Dequeued)
    ensures |q| == 0 && !link.Broken? ==> r.Blocks?
    ensures r.Reply? ==> r.result.Ok? ==> r.result.value.Some?
  {
    DequeueWithTimeout(q, 0, link)
  }

  /** `Len`: `fault` is the error `LLEN` reports, if any. */
  function Len(q: Queue, fault: Option<string>): (r: Result<int>)
    ensures fault.None? ==> r == Ok(|q|)
    ensures fault.Some? ==> r == Err(Wrap("failed to get queue length", fault.value))
  {
    if fault.Some? then Err(Wrap("failed to get queue length", fault.value)) else Ok(|q|)
  }

  /** A job that went in with `Enqueue` onto an empty list comes out of the
      next healthy `DequeueWithTimeout` unchanged, and the list is empty again. */
  lemma EnqueueThenDequeue(job: CertificateJob, timeout: nat)
    requires JobEncodable(job)
    ensures var q := Enqueue([], job, None).1;
      DequeueWithTimeout(q, timeout, Healthy) == Reply(Ok(Some(job)), [])
  {
    RoundTrip(job);
  }

  /** A malformed payload is consumed: the error is reported and the payload
      is gone from the list, while the rest stays in order. */
  lemma MalformedPayloadConsumed(q: Queue, timeout: nat)
    requires |q| > 0 && Decode(q[|q| - 1]).Err?
    ensures var r := DequeueWithTimeout(q, timeout, Healthy);
      r.Reply? && r.result.Err? && |r.rest| == |q| - 1 && DeliveryOrder(q) == [q[|q| - 1]] + DeliveryOrder(r.rest)
  {
    assert q == q[..|q| - 1] + [q[|q| - 1]];
    ReverseAppend(q[..|q| - 1], [q[|q| - 1]]);
  }
}

=== FILE: check_in.dfy ===
/** The CheckIn record, after internal/events/domain/entity/check_in.go. */
module CheckInEntity {

  import opened Wrappers
  import opened Clock

  datatype CheckIn = CheckIn(id: string, userId: string, activityId: string, checkedAt: Instant)

  datatype NewCheckInParams = NewCheckInParams(userId: string, activityId: string)

  /** `NewCheckIn`: a fresh identifier and the construction instant; the only
      failure is the identifier generator's. */
  function NewCheckIn(params: NewCheckInParams, newId: Result<string>, now: Instant): (r: Result<CheckIn>)
    ensures newId.Err? ==> r == Err(Wrap("failed to generate check-in ID", newId.msg))
    ensures newId.Ok? ==> r == Ok(CheckIn(newId.value, params.userId, params.activityId, now))
  {
    match newId
    case Err(e) => Err(Wrap("failed to generate check-in ID", e))
    case Ok(id) => Ok(CheckIn(id, params.userId, params.activityId, now))
  }
}

=== FILE: checkin_activity.dfy ===
/** Check-in admission, after
    internal/events/application/usecase/checkin_activity/usecase.go: a
    chain of guards (the activity exists, the user has not checked in yet,
    the clock is inside the activity) and then a single insert.
 */
module CheckInActivity {

  import opened Wrappers
  import opened Clock
  import opened ActivityEntity
  import opened CheckInEntity
  import opened EventsStore

  datatype Input = Input(userId: string, activityId: string)

  /** Which repository calls fail, and with what error. */
  datatype Faults = Faults(findActivity: Option<string>, findExisting: Option<string>, save: Option<string>)

  const NoFaults := Faults(None, None, None)

  const ErrActivityNotFound := "activity not found"
  const ErrAlreadyCheckedIn := "user already checked in"
  const ErrOutsideActivityTime := "check-in not allowed outside activity time"

  /** The admission window is closed: both the start and the end instant
      are inside. */
  predicate InsideActivity(a: Activity, now: Instant) {
    !(Before(now, a.startDate) || After(now, a.endDate))
  }

  /** At most one check-in per (user, activity) pair. */
  predicate UniquePairs(checkIns: seq<CheckIn>) {
    forall i, j :: 0 <= i < j < |checkIns| ==>
      !(checkIns[i].userId == checkIns[j].userId && checkIns[i].activityId == checkIns[j].activityId)
  }

  /** `Execute`: the result and the store afterwards. */
  function Execute(store: Store, input: Input, now: Instant, newId: Result<string>, faults: Faults): (r: (Result<CheckIn>, Store))
    // the first failing guard decides the error
    ensures faults.findActivity.Some? ==>
      r.0 == Err(Wrap("failed to find activity", faults.findActivity.value))
    ensures faults.findActivity.None? && FindActivity(store.activities, input.activityId).None? ==>
      r.0 == Err(ErrActivityNotFound)
    ensures faults.findActivity.None? && FindActivity(store.activities, input.activityId).Some? ==>
      if faults.findExisting.Some? then r.0 == Err(Wrap("failed to check existing check-in", faults.findExisting.value))
      else if FindCheckIn(store.checkIns, input.userId, input.activityId).Some? then r.0 == Err(ErrAlreadyCheckedIn)
      else if !InsideActivity(FindActivity(store.activities, input.activityId).value, now) then r.0 == Err(ErrOutsideActivityTime)
      else if newId.Err? then r.0 == Err(Wrap("failed to generate check-in ID", newId.msg))
      else if faults.save.Some? then r.0 == Err(Wrap("failed to save check-in", faults.save.value))
      else r.0.Ok?
    // a failure writes nothing; a success writes exactly the new check-in
    ensures r.0.Err? ==> r.1 == store
    ensures r.0.Ok? ==>
      && r.1 == store.(checkIns := store.checkIns + [r.0.value])
      && r.0.value == CheckIn(newId.value, input.userId, input.activityId, now)
  {
    if faults.findActivity.Some? then (Err(Wrap("failed to find activity", faults.findActivity.value)), store)
    else match FindActivity(store.activities, input.activityId)
      case None => (Err(ErrActivityNotFound), store)
      case Some(activity) =>
        if faults.findExisting.Some? then (Err(Wrap("failed to check existing check-in", faults.findExisting.value)), store)
        else if FindCheckIn(store.checkIns, input.userId, input.activityId).Some? then (Err(ErrAlreadyCheckedIn), store)
        else if !InsideActivity(activity, now) then (Err(ErrOutsideActivityTime), store)
        else match NewCheckIn(NewCheckInParams(input.userId, input.activityId), newId, now)
          case Err(e) => (Err(e), store)
          case Ok(checkIn) =>
            if faults.save.Some? then (Err(Wrap("failed to save check-in", faults.save.value)), store)
            else (Ok(checkIn), store.(checkIns := store.checkIns + [checkIn]))
  }

  /** Admission succeeds exactly when the activity exists, the pair has no
      check-in yet, the instant lies in the closed window, and no call fails. */
  lemma AdmittedIff(store: Store, input: Input, now: Instant, newId: Result<string>, faults: Faults)
    ensures Execute(store, input, now, newId, faults).0.Ok? <==>
      && faults == NoFaults && newId.Ok?
      && FindActivity(store.activities, input.activityId).Some?
      && FindCheckIn(store.checkIns, input.userId, input.activityId).None?
      && var a := FindActivity(store.activities, input.activityId).value;
         a.startDate <= now <= a.endDate
  {
  }

  /** Admission never creates a second check-in for a pair. */
  lemma PreservesUniquePairs(store: Store, input: Input, now: Instant, newId: Result<string>, faults: Faults)
    requires UniquePairs(store.checkIns)
    ensures UniquePairs(Execute(store, input, now, newId, faults).1.checkIns)
  {
    var r := Execute(store, input, now, newId, faults);
    if r.0.Ok? {
      var cs := r.1.checkIns;
      var c := r.0.value;
      assert FindCheckIn(store.checkIns, input.userId, input.activityId).None?;
      forall i, j | 0 <= i < j < |cs|
        ensures !(cs[i].userId == cs[j].userId && cs[i].activityId == cs[j].activityId)
      {
        if j == |cs| - 1 {
          assert cs[i] in store.checkIns;
        }
      }
    }
  }

  /** Once admitted, the same user is turned away from the same activity,
      whatever the clock says. */
  lemma SecondCheckInRejected(store: Store, input: Input, now: Instant, later: Instant,
                              id1: Result<string>, id2: Result<string>, faults: Faults)
    requires Execute(store, input, now, id1, NoFaults).0.Ok?
    requires faults.findActivity.None? && faults.findExisting.None?
    ensures Execute(Execute(store, input, now, id1, NoFaults).1, input, later, id2, faults).0 == Err(ErrAlreadyCheckedIn)
  {
    var s1 := Execute(store, input, now, id1, NoFaults).1;
    var c := Execute(store, input, now, id1, NoFaults).0.value;
    assert c in s1.checkIns;
  }
}

=== FILE: client_ip.dfy ===
/** Client address resolution for rate limiting and session records, after
    `GetClientIP` in internal/shared/lib/http.go. A request's proxy headers
    are consulted in a fixed order before its socket address.
 */
module ClientIp {

  import opened Wrappers
  import opened Text

  /** The request fields `GetClientIP` reads. A header value is the first
      value for that name, or "" when the header is absent (`Header.Get`). */
  datatype Request = Request(
    forwardedFor: string,    // X-Forwarded-For
    cfConnectingIp: string,  // CF-Connecting-IP
    realIp: string,          // X-Real-IP
    remoteAddr: string)

  function LastIndexOf(s: string, c: char): (i: int)
    ensures -1 <= i < |s|
    ensures i >= 0 ==> s[i] == c && c !in s[i + 1..]
    ensures i < 0 ==> c !in s
  {
    if |s| == 0 then -1
    else if s[|s| - 1] == c then |s| - 1
    else
      var i := LastIndexOf(s[..|s| - 1], c);
      assert s[i + 1..] == s[..|s| - 1][i + 1..] + [s[|s| - 1]];
      i
  }

  function IndexOf(s: string, c: char): (i: int)
    ensures -1 <= i < |s|
    ensures i >= 0 ==> s[i] == c && c !in s[..i]
    ensures i < 0 ==> c !in s
  {
    if |s| == 0 then -1
    else if s[0] == c then 0
    else
      var i := IndexOf(s[1..], c);
      if i < 0 then -1
      else
        assert s[..i + 1] == [s[0]] + s[1..][..i];
        i + 1
  }

  /** Go's `net.SplitHostPort`: "host:port" or "[host]:port" gives `Some`
      (host, port); any other shape is an address error (`None`). */
  function SplitHostPort(hostport: string): (r: Option<(string, string)>)
    ensures r.Some? ==> ':' !in r.value.1 && '[' !in r.value.0 && ']' !in r.value.0
  {
    var i := LastIndexOf(hostport, ':');
    if i < 0 then None
    else
      var bracketed := hostport[0] == '[';
      var end := IndexOf(hostport, ']');
      if bracketed && end < 0 then None
      else if bracketed && end + 1 != i then None
      else
        var j := if bracketed then 1 else 0;
        var k := if bracketed then end + 1 else 0;
        var host := if bracketed then hostport[1..end] else hostport[..i];
        if !bracketed && ':' in host then None
        else if '[' in hostport[j..] then None
        else if ']' in hostport[k..] then None
        else
          assert bracketed ==> host == hostport[j..][..end - 1];
          assert !bracketed ==> host == hostport[j..][..i] && host == hostport[k..][..i];
          Some((host, hostport[i + 1..]))
  }

  /** Plain "host:port" splits at the colon. */
  lemma SplitPlainHostPort(host: string, port: string)
    requires ':' !in host && ':' !in port
    requires '[' !in host + port && ']' !in host + port
    ensures SplitHostPort(host + ":" + port) == Some((host, port))
  {
    var s := host + ":" + port;
    assert s[|host|] == ':' && s[|host| + 1..] == port;
    assert LastIndexOf(s, ':') == |host|;
    if |host| > 0 {
      assert s[0] == host[0];
    } else {
      assert s[0] == ':';
    }
    assert s[..|host|] == host;
    assert s[0..] == s;
  }

  /** A bracketed IPv6 literal "[host]:port" yields the text inside the brackets. */
  lemma SplitBracketedHostPort(host: string, port: string)
    requires ':' !in port
    requires '[' !in host + port && ']' !in host + port
    ensures SplitHostPort("[" + host + "]:" + port) == Some((host, port))
  {
    var s := "[" + host + "]:" + port;
    var end := |host| + 1;
    assert s[end] == ']' && s[end + 1] == ':';
    assert s[end + 2..] == port;
    assert IndexOf(s, ']') == end;
    assert LastIndexOf(s, ':') == end + 1;
    assert s[1..end] == host;
    assert s[1..] == host + "]:" + port;
    assert '[' !in host + "]:" + port by {
      forall c | c in host + "]:" + port ensures c != '[' {
        assert c in host || c == ']' || c == ':' || c in port;
      }
    }
  }

  /** The first comma-separated element of X-Forwarded-For, trimmed. */
  function FirstForwarded(xff: string): string {
    TrimSpace(SplitOn(xff, ',')[0])
  }

  /** `GetClientIP`: X-Forwarded-For, then CF-Connecting-IP, then X-Real-IP,
      then the host part of the socket address. */
  function GetClientIP(r: Request): (ip: string)
    ensures r.forwardedFor != "" ==> ip == FirstForwarded(r.forwardedFor)
    ensures r.forwardedFor == "" && r.cfConnectingIp != "" ==> ip == r.cfConnectingIp
    ensures r.forwardedFor == "" && r.cfConnectingIp == "" && r.realIp != "" ==> ip == r.realIp
    ensures r.forwardedFor == "" && r.cfConnectingIp == "" && r.realIp == "" ==>
      ip == (match SplitHostPort(r.remoteAddr) case Some(hp) => hp.0 case None => r.remoteAddr)
  {
    if r.forwardedFor != "" then
      // `strings.Split` always yields at least one element, so the
      // `len(ips) > 0` test always holds.
      var ips := SplitOn(r.forwardedFor, ',');
      TrimSpace(ips[0])
    else if r.cfConnectingIp != "" then r.cfConnectingIp
    else if r.realIp != "" then r.realIp
    else
      match SplitHostPort(r.remoteAddr)
      case Some(hp) => hp.0
      case None => r.remoteAddr
  }

  /** The first hop of a proxy chain wins, whatever follows it. */
  lemma ForwardedChainFirstHop(first: string, rest: string, r: Request)
    requires ',' !in first
    requires r.forwardedFor == first + "," + rest
    ensures GetClientIP(r) == TrimSpace(first)
  {
    SplitOnConcat(first, rest, ',');
    assert first + "," + rest == first + [','] + rest;
    SplitOnAbsent(first, ',');
  }

  /** A blank first element gives "" and the other headers are not consulted. */
  lemma BlankFirstHopNoFallthrough(rest: string, r: Request)
    requires r.forwardedFor == ", " + rest
    ensures GetClientIP(r) == ""
  {
    assert ", " + rest == "" + "," + (" " + rest);
    ForwardedChainFirstHop("", " " + rest, r);
  }

  /** Without proxy headers, "host:port" gives the host. */
  lemma RemoteAddrHost(host: string, port: string, r: Request)
    requires r.forwardedFor == "" && r.cfConnectingIp == "" && r.realIp == ""
    requires r.remoteAddr == host + ":" + port
    requires ':' !in host && ':' !in port
    requires '[' !in host + port && ']' !in host + port
    ensures GetClientIP(r) == host
  {
    SplitPlainHostPort(host, port);
  }

  /** Without proxy headers, an address with no port is returned unchanged. */
  lemma RemoteAddrWithoutPort(r: Request)
    requires r.forwardedFor == "" && r.cfConnectingIp == "" && r.realIp == ""
    requires ':' !in r.remoteAddr
    ensures GetClientIP(r) == r.remoteAddr
  {
  }
}

=== FILE: clock.dfy ===
/** Go's `time.Time` and `time.Duration`, reduced to what the modelled code
    observes: an instant is a count of nanoseconds since the Unix epoch
    (the monotonic clock reading and the location are not modelled), a
    duration is a signed count of nanoseconds. `time.Now()` never appears:
    the current instant is always a parameter.
 */
module Clock {

  type Instant = int
  type Duration = int

  const Nanosecond: Duration := 1
  const Second: Duration := 1_000_000_000
  const Minute: Duration := 60 * Second
  const Hour: Duration := 60 * Minute

  /** `time.Duration` is an int64; `Time.Sub` saturates at its bounds. */
  const MaxDuration: Duration := 0x7fff_ffff_ffff_ffff
  const MinDuration: Duration := -0x8000_0000_0000_0000

  /** `t.Before(u)` / `t.After(u)`. */
  predicate Before(t: Instant, u: Instant) { t < u }
  predicate After(t: Instant, u: Instant) { t > u }

  /** `end.Sub(start)`, saturating as Go does when the difference does not fit. */
  function Sub(end: Instant, start: Instant): (d: Duration)
    ensures MinDuration <= d <= MaxDuration
    ensures MinDuration <= end - start <= MaxDuration ==> d == end - start
    ensures start <= end ==> d >= 0
  {
    var diff := end - start;
    if diff > MaxDuration then MaxDuration
    else if diff < MinDuration then MinDuration
    else diff
  }

  /** `t.Add(d)`. */
  function Add(t: Instant, d: Duration): Instant { t + d }

  /** The zero `time.Time` (January 1, year 1, 00:00:00 UTC). */
  const ZeroTime: Instant := -62_135_596_800 * Second

  /** `time.Time.MarshalJSON` refuses years outside [0, 9999]; in UTC these are
      the instants from 0000-01-01T00:00:00Z up to, not including,
      10000-01-01T00:00:00Z. */
  const FirstEncodable: Instant := -62_167_219_200 * Second
  const PastLastEncodable: Instant := 253_402_300_800 * Second

  predicate Encodable(t: Instant) {
    FirstEncodable <= t < PastLastEncodable
  }

  /** A calendar date as `t.Year()`, `t.Month()`, `t.Day()` report it. */
  datatype CivilDate = CivilDate(year: int, month: int, day: int)

  predicate ValidCivilDate(d: CivilDate) {
    1 <= d.month <= 12 && 1 <= d.day <= 31
  }

  /** A date a `time.Time` can report. */
  type Date = d: CivilDate | ValidCivilDate(d) witness CivilDate(1, 1, 1)
}

=== FILE: cpf.dfy ===
/** Brazilian individual taxpayer number (CPF) check, after
    internal/shared/lib/validate_cpf.go.

    A CPF has eleven digits; the last two are check digits computed with the
    mod-11 scheme from the first nine (weights 10..2) and the first ten
    (weights 11..2). Punctuation ('.', '-', ' ') is removed first.
 */
module Cpf {

  import opened Wrappers
  import opened Text

  /** `CPFValidationResult`: the verdict and, when the input got far enough,
      the cleaned number (Go's `*string`, `None` for `nil`). */
  datatype CpfResult = CpfResult(valid: bool, cleaned: Option<string>)

  /** The three `strings.ReplaceAll` calls: drop '.', then '-', then ' '. */
  function Clean(cpf: string): string {
    RemoveAll(RemoveAll(RemoveAll(cpf, '.'), '-'), ' ')
  }

  /** What the pattern `^(\d)\1{10}$` is meant to match: one digit eleven times. */
  predicate RepeatedDigit(s: string) {
    |s| == 11 && IsDigit(s[0]) && forall i :: 0 <= i < |s| ==> s[i] == s[0]
  }

  /** sum of d[i] * (top - i) for i < n. */
  function WeightedSum(d: string, n: nat, top: int): int
    requires n <= |d| && AllDigits(d)
  {
    if n == 0 then 0 else WeightedSum(d, n - 1, top) + DigitValue(d[n - 1]) * (top - (n - 1))
  }

  /** The validator's rule: 0 when the remainder is below 2, else 11 - remainder. */
  function CheckDigit(sum: int): (dv: nat)
    ensures dv < 10
  {
    var remainder := sum % 11;
    if remainder >= 2 then 11 - remainder else 0
  }

  /** The usual textbook statement of the same rule: ten times the sum, mod 11,
      mod 10. */
  function TextbookCheckDigit(sum: int): nat {
    (sum * 10) % 11 % 10
  }

  lemma CheckDigitIsTextbook(sum: int)
    ensures CheckDigit(sum) == TextbookCheckDigit(sum)
  {
    var r := sum % 11;
    assert sum == 11 * (sum / 11) + r;
    assert sum * 10 == 11 * (10 * (sum / 11)) + 10 * r;
    assert (sum * 10) % 11 == (10 * r) % 11;
    if r == 0 {
    } else if r == 1 {
    } else {
      assert 10 * r == 11 * (r - 1) + (11 - r);
    }
  }

  /** Reference definition of a well-formed CPF number, independent of the
      order of the checks in the validator. */
  predicate IsCpfNumber(s: string) {
    && |s| == 11
    && AllDigits(s)
    && !RepeatedDigit(s)
    && DigitValue(s[9]) == TextbookCheckDigit(WeightedSum(s, 9, 10))
    && DigitValue(s[10]) == TextbookCheckDigit(WeightedSum(s, 10, 11))
  }

  /** `ValidateCPF`, with the repeated-digit pattern given the meaning its
      comment states (see the finding in README: as written it cannot compile). */
  function ValidateCPF(cpf: string): (r: CpfResult)
    ensures r.valid <==> IsCpfNumber(Clean(cpf))
    ensures |Clean(cpf)| != 11 ==> r == CpfResult(false, None)
    ensures RepeatedDigit(Clean(cpf)) ==> r == CpfResult(false, Some(Clean(cpf)))
    ensures !AllDigits(Clean(cpf)) ==> r == CpfResult(false, None)
    ensures r.cleaned.Some? ==> r.cleaned.value == Clean(cpf) && |r.cleaned.value| == 11 && AllDigits(r.cleaned.value)
    // eleven digits are handed back even when a check digit is wrong
    ensures |Clean(cpf)| == 11 && AllDigits(Clean(cpf)) ==> r.cleaned == Some(Clean(cpf))
    ensures r.valid ==> r.cleaned.Some?
  {
    Verdict(Clean(cpf))
  }

  /** The checks, in this order, on the cleaned text: the length, one digit
      repeated, a non-digit, then the two check digits. */
  function Verdict(c: string): (r: CpfResult)
    ensures r.valid <==> IsCpfNumber(c)
    ensures r.cleaned.Some? ==> r.cleaned.value == c
  {
    if |c| != 11 then CpfResult(false, None)
    else if RepeatedDigit(c) then CpfResult(false, Some(c))
    else if !AllDigits(c) then CpfResult(false, None)
    else
      var first := CheckDigit(WeightedSum(c, 9, 10));
      var second := CheckDigit(WeightedSum(c, 10, 11));
      CheckDigitIsTextbook(WeightedSum(c, 9, 10));
      CheckDigitIsTextbook(WeightedSum(c, 10, 11));
      if DigitValue(c[9]) != first || DigitValue(c[10]) != second then CpfResult(false, Some(c))
      else CpfResult(true, Some(c))
  }

  predicate IsSeparator(c: char) {
    c == '.' || c == '-' || c == ' '
  }

  lemma CleanAppend(a: string, b: string)
    ensures Clean(a + b) == Clean(a) + Clean(b)
  {
    RemoveAllAppend(a, b, '.');
    RemoveAllAppend(RemoveAll(a, '.'), RemoveAll(b, '.'), '-');
    RemoveAllAppend(RemoveAll(RemoveAll(a, '.'), '-'), RemoveAll(RemoveAll(b, '.'), '-'), ' ');
  }

  /** Punctuation is ignored wherever it appears: inserting a '.', '-' or ' '
      anywhere never changes the result. */
  lemma SeparatorsIgnored(a: string, sep: char, b: string)
    requires IsSeparator(sep)
    ensures ValidateCPF(a + [sep] + b) == ValidateCPF(a + b)
  {
    CleanAppend(a + [sep], b);
    CleanAppend(a, [sep]);
    CleanAppend(a, b);
    assert Clean([sep]) == "";
    assert Clean(a + [sep] + b) == Clean(a + b);
  }

  /** An illustration of `SeparatorsIgnored` on one number: a formatted and a
      bare spelling get the same verdict, and that verdict is "valid". */
  lemma FormattedExample()
    ensures ValidateCPF("123.456.789-09") == ValidateCPF("12345678909")
    ensures ValidateCPF("12345678909") == CpfResult(true, Some("12345678909"))
  {
    FirstDotIgnored();
    SecondDotIgnored();
    HyphenIgnored();
    ValidBareExample();
  }

  lemma FirstDotIgnored()
    ensures ValidateCPF("123.456.789-09") == ValidateCPF("123456.789-09")
  {
    SeparatorsIgnored("123", '.', "456.789-09");
    assert "123" + ['.'] + "456.789-09" == "123.456.789-09";
    assert "123" + "456.789-09" == "123456.789-09";
  }

  lemma SecondDotIgnored()
    ensures ValidateCPF("123456.789-09") == ValidateCPF("123456789-09")
  {
    SeparatorsIgnored("123456", '.', "789-09");
    assert "123456" + ['.'] + "789-09" == "123456.789-09";
    assert "123456" + "789-09" == "123456789-09";
  }

  lemma HyphenIgnored()
    ensures ValidateCPF("123456789-09") == ValidateCPF("12345678909")
  {
    SeparatorsIgnored("123456789", '-', "09");
    assert "123456789" + ['-'] + "09" == "123456789-09";
    assert "123456789" + "09" == "12345678909";
  }

  lemma ValidBareExample()
    ensures ValidateCPF("12345678909") == CpfResult(true, Some("12345678909"))
  {
    BareExampleClean();
    BareExampleVerdict();
  }

  lemma BareExampleClean()
    ensures Clean("12345678909") == "12345678909"
  {
    BareExampleSums();
    NoSeparators("12345678909");
  }

  lemma BareExampleVerdict()
    ensures Verdict("12345678909") == CpfResult(true, Some("12345678909"))
  {
    var s := "12345678909";
    BareExampleSums();
    assert s[1] != s[0];
    assert !RepeatedDigit(s);
    assert CheckDigit(210) == 0 && DigitValue(s[9]) == 0;
    assert CheckDigit(255) == 9 && DigitValue(s[10]) == 9;
  }

  lemma BareExampleSums()
    ensures AllDigits("12345678909")
    ensures WeightedSum("12345678909", 9, 10) == 210
    ensures WeightedSum("12345678909", 10, 11) == 255
  {
    var s := "12345678909";
    assert AllDigits(s);
    assert WeightedSum(s, 1, 10) == 10;
    assert WeightedSum(s, 2, 10) == 28;
    assert WeightedSum(s, 3, 10) == 52;
    assert WeightedSum(s, 4, 10) == 80;
    assert WeightedSum(s, 5, 10) == 110;
    assert WeightedSum(s, 6, 10) == 140;
    assert WeightedSum(s, 7, 10) == 168;
    assert WeightedSum(s, 8, 10) == 192;
    assert WeightedSum(s, 9, 10) == 210;
    assert WeightedSum(s, 1, 11) == 11;
    assert WeightedSum(s, 2, 11) == 31;
    assert WeightedSum(s, 3, 11) == 58;
    assert WeightedSum(s, 4, 11) == 90;
    assert WeightedSum(s, 5, 11) == 125;
    assert WeightedSum(s, 6, 11) == 161;
    assert WeightedSum(s, 7, 11) == 196;
    assert WeightedSum(s, 8, 11) == 228;
    assert WeightedSum(s, 9, 11) == 255;
    assert WeightedSum(s, 10, 11) == 255;
  }

  lemma NoSeparators(s: string)
    requires AllDigits(s)
    ensures Clean(s) == s
  {
    assert '.' !in s && '-' !in s && ' ' !in s by {
      forall i | 0 <= i < |s| ensures !IsSeparator(s[i]) {
        assert IsDigit(s[i]);
      }
    }
    RemoveAllAbsent(s, '.');
    RemoveAllAbsent(s, '-');
    RemoveAllAbsent(s, ' ');
  }

  // ------------------------------------------------------ as written (finding)

  /** What Go's `regexp.MustCompile` does with the repeated-digit pattern: RE2 has
      no back-references, so `\1` is a syntax error and MustCompile panics. */
  const RepeatPatternPanic := "regexp: Compile(`^(\\d)\\1{10}$`): error parsing regexp: invalid escape sequence: `\\1`"

  /** `ValidateCPF` exactly as written: the pattern is compiled inside the
      function, after the length check, so every input whose cleaned form is
      eleven bytes long (Go's `len`) panics there. */
  function ValidateCpfAsWritten(cpf: string): (r: Call<CpfResult>)
    ensures Utf8Length(Clean(cpf)) != 11 ==> r == Returned(ValidateCPF(cpf))
    ensures Utf8Length(Clean(cpf)) == 11 ==> r.Panicked?
  {
    if Utf8Length(Clean(cpf)) != 11 then
      NonAsciiRejected(Clean(cpf));
      Returned(CpfResult(false, None))
    else Panicked(RepeatPatternPanic)
  }

  /** Text whose byte and character counts differ holds a non-digit. */
  lemma NonAsciiRejected(c: string)
    ensures Utf8Length(c) != |c| ==> !AllDigits(c)
  {
    if AllDigits(c) {
      DigitsAreAscii(c);
    }
  }

  /** The panic follows the byte count, not the character count: ten
      characters of which one takes two bytes panic, eleven such characters
      return. */
  lemma AsWrittenCountsBytes()
    ensures ValidateCpfAsWritten("123456789\U{e9}").Panicked?
    ensures ValidateCpfAsWritten("1234567890\U{e9}") == Returned(CpfResult(false, None))
  {
    NineDigitsAndAccentPanic();
    TenDigitsAndAccentReturn();
  }

  /** Ten characters, eleven bytes: the code as written reaches the pattern. */
  lemma NineDigitsAndAccentPanic()
    ensures ValidateCpfAsWritten("123456789\U{e9}").Panicked?
  {
    var e := "\U{e9}";
    assert Utf8Length(e) == 2;
    var short := "123456789" + e;
    assert short == "123456789\U{e9}";
    NoSeparatorsBefore("123456789", e);
    assert Utf8Length(Clean(short)) == 11;
  }

  /** Eleven characters, twelve bytes: the code as written rejects the text
      on its length although it has eleven characters. */
  lemma TenDigitsAndAccentReturn()
    ensures ValidateCpfAsWritten("1234567890\U{e9}") == Returned(CpfResult(false, None))
  {
    var e := "\U{e9}";
    assert Utf8Length(e) == 2;
    var long := "1234567890" + e;
    assert long == "1234567890\U{e9}";
    NoSeparatorsBefore("1234567890", e);
    assert Utf8Length(Clean(long)) == 12;
  }

  /** Digits followed by a character that is no separator are already clean,
      and take one byte each. */
  lemma NoSeparatorsBefore(digits: string, tail: string)
    requires AllDigits(digits) && |tail| == 1 && !IsSeparator(tail[0])
    ensures Clean(digits + tail) == digits + tail
    ensures Utf8Length(digits + tail) == |digits| + Utf8Length(tail)
  {
    var s := digits + tail;
    assert forall i :: 0 <= i < |s| ==> !IsSeparator(s[i]) by {
      forall i | 0 <= i < |s| ensures !IsSeparator(s[i]) {
        if i < |digits| { assert s[i] == digits[i] && IsDigit(digits[i]); }
        else { assert s[i] == tail[0]; }
      }
    }
    RemoveAllAbsent(s, '.');
    RemoveAllAbsent(s, '-');
    RemoveAllAbsent(s, ' ');
    Utf8LengthAppend(digits, tail);
    DigitsAreAscii(digits);
  }

  /** The discrepancy on a concrete input: a valid number makes the code as
      written panic, while the intended validator accepts it. */
  lemma AsWrittenPanicsOnValidCpf()
    ensures ValidateCpfAsWritten("123.456.789-09").Panicked?
    ensures ValidateCPF("123.456.789-09").valid
  {
    FormattedExample();
    assert ValidateCPF("123.456.789-09").cleaned == Some("12345678909");
  }
}

=== FILE: create_activities.dfy ===
/** Creating a batch of activities for an event, after
    internal/events/application/usecase/create_activities/usecase.go and the
    older internal/events/usecases/create-activities.go. Both cap the batch
    at ten, check that the caller is an admin, reject a name that repeats
    within the batch or already exists in the event, build every activity
    and store the batch with one `SaveAll`. They differ only in how the
    admin check reads the user.
 */
module CreateActivities {

  import opened Wrappers
  import opened Clock
  import opened Text
  import opened Identity
  import opened ActivityEntity
  import opened EventsStore
  import Auth = UserAuthorization

  const MaxActivities := 10

  const ErrTooMany := "only 10 activities at a time"
  const ErrNotAdmin := "user is not an admin"
  const ErrUserNotFound := "user not found"

  datatype ActivityInput = ActivityInput(
    name: string,
    description: Option<string>,
    startDate: Instant,
    endDate: Instant)

  datatype Input = Input(userId: string, eventId: string, activities: seq<ActivityInput>)

  /** The older use case takes full `NewActivityParams`, whose `EventID` it
      overwrites with the input's. */
  datatype LegacyInput = LegacyInput(userId: string, eventId: string, activities: seq<NewActivityParams>)

  /** Which calls fail, and with what error: the user look-up (through the
      authorization service or the user repository), the name query and the
      batch insert. */
  datatype Faults = Faults(user: Option<string>, findByNames: Option<string>, saveAll: Option<string>)

  const NoFaults := Faults(None, None, None)

  function NamesOf(acts: seq<ActivityInput>): (names: seq<string>)
    ensures |names| == |acts|
    ensures forall i :: 0 <= i < |acts| ==> names[i] == acts[i].name
  {
    if |acts| == 0 then [] else [acts[0].name] + NamesOf(acts[1..])
  }

  // ------------------------------------------------------ duplicate names

  /** The name the duplicate check reports: the first name that repeats an
      earlier one, or None when every name is distinct. */
  function FirstRepeat(names: seq<string>): (r: Option<string>)
    ensures r.None? <==> NoDuplicates(names)
    decreases |names|
  {
    if |names| == 0 then None
    else
      var init := names[..|names| - 1];
      var last := names[|names| - 1];
      match FirstRepeat(init)
      case Some(n) => Some(n)
      case None => if last in init then Some(last) else None
  }

  /** The reported name is the first one that repeats: it sits at some
      position `j`, an earlier position holds it too, and no two positions
      before `j` hold the same name. */
  lemma {:induction false} FirstRepeatIsFirst(names: seq<string>)
    requires FirstRepeat(names).Some?
    ensures exists j :: 0 <= j < |names| && names[j] == FirstRepeat(names).value
                        && names[j] in names[..j] && NoDuplicates(names[..j])
    decreases |names|
  {
    var init := names[..|names| - 1];
    if FirstRepeat(init).Some? {
      FirstRepeatIsFirst(init);
      var j :| 0 <= j < |init| && init[j] == FirstRepeat(init).value
               && init[j] in init[..j] && NoDuplicates(init[..j]);
      assert names[..j] == init[..j];
      assert names[j] == init[j];
    } else {
      var j := |names| - 1;
      assert names[..j] == init;
    }
  }

  /** One more name after a repeat does not change the report. */
  lemma FirstRepeatStep(names: seq<string>, x: string)
    requires FirstRepeat(names).Some?
    ensures FirstRepeat(names + [x]) == FirstRepeat(names)
  {
    assert (names + [x])[..|names|] == names;
  }

  /** Once a repeat has been seen, later names do not change the report. */
  lemma {:induction false} FirstRepeatStable(names: seq<string>, more: seq<string>)
    requires FirstRepeat(names).Some?
    ensures FirstRepeat(names + more) == FirstRepeat(names)
    decreases |more|
  {
    if |more| == 0 {
      assert names + more == names;
    } else {
      var longer := names + more[..|more| - 1];
      FirstRepeatStable(names, more[..|more| - 1]);
      FirstRepeatStep(longer, more[|more| - 1]);
      assert longer + [more[|more| - 1]] == names + more;
    }
  }

  /** The check as the use case makes it: one pass with a set of the names
      seen so far, stopping at the first name already in the set. */
  method CheckNames(acts: seq<ActivityInput>) returns (names: seq<string>, dup: Option<string>)
    ensures dup == FirstRepeat(NamesOf(acts))
    ensures dup.None? ==> names == NamesOf(acts)
  {
    var all := NamesOf(acts);
    var seen: set<string> := {};
    names := [];
    var k := 0;
    while k < |acts|
      invariant 0 <= k <= |acts|
      invariant names == all[..k]
      invariant seen == set x | x in names
      invariant FirstRepeat(names).None?
    {
      var name := acts[k].name;
      assert all[..k + 1] == names + [name];
      assert (names + [name])[..|names|] == names;
      if name in seen {
        assert FirstRepeat(all[..k + 1]) == Some(name);
        FirstRepeatStable(all[..k + 1], all[k + 1..]);
        assert all[..k + 1] + all[k + 1..] == all;
        dup := Some(name);
        return;
      }
      seen := seen + {name};
      names := names + [name];
      k := k + 1;
    }
    assert all[..k] == all;
    dup := None;
  }

  // ---------------------------------------------------------- the batch

  function ParamsFor(eventId: string, a: ActivityInput): NewActivityParams {
    NewActivityParams(a.name, eventId, a.description, a.startDate, a.endDate)
  }

  /** The created activity `c` is the one asked for by `a`, in event
      `eventId`, with identifier `id`. */
  predicate Describes(c: Activity, a: ActivityInput, eventId: string, id: string, now: Instant) {
    && c.id == id && c.name == a.name && c.eventId == eventId
    && c.description == a.description && c.startDate == a.startDate && c.endDate == a.endDate
    && c.createdAt == now && c.updatedAt == None
  }

  /** The construction loop from position `k` on: `newIds(i)` is the ID
      generator's outcome for the i-th activity, and the first failure stops
      the loop. */
  function Build(eventId: string, acts: seq<ActivityInput>, newIds: nat -> Result<string>,
                 now: Instant, k: nat): (r: Result<seq<Activity>>)
    requires k <= |acts|
    ensures r.Ok? <==> forall i :: k <= i < |acts| ==> newIds(i).Ok?
    ensures r.Ok? ==>
      && |r.value| == |acts| - k
      && forall i :: 0 <= i < |r.value| ==>
           Describes(r.value[i], acts[k + i], eventId, newIds(k + i).value, now)
    ensures r.Err? ==>
      exists i :: k <= i < |acts| && newIds(i).Err?
                  && r.msg == Wrap("failed to generate activity ID", newIds(i).msg)
                  && forall p :: k <= p < i ==> newIds(p).Ok?
    decreases |acts| - k
  {
    if k == |acts| then Ok([])
    else match NewActivity(ParamsFor(eventId, acts[k]), newIds(k), now)
      case Err(e) => Err(e)
      case Ok(a) =>
        match Build(eventId, acts, newIds, now, k + 1)
        case Err(e) => Err(e)
        case Ok(rest) => Ok([a] + rest)
  }

  /** Everything after the admin check, shared by both use cases. */
  function Create(store: Store, eventId: string, acts: seq<ActivityInput>,
                  newIds: nat -> Result<string>, now: Instant, faults: Faults): (r: (Result<seq<Activity>>, Store))
    ensures FirstRepeat(NamesOf(acts)).Some? ==>
      r.0 == Err("duplicate activity name in input: " + FirstRepeat(NamesOf(acts)).value)
    ensures FirstRepeat(NamesOf(acts)).None? ==>
      var existing := ActivitiesNamed(store.activities, eventId, NamesOf(acts));
      if faults.findByNames.Some? then
        r.0 == Err(Wrap("failed to find activities by event ID and names", faults.findByNames.value))
      else if |existing| > 0 then
        r.0 == Err("activities with the same names already exist for this event: " + existing[0].name)
      else if Build(eventId, acts, newIds, now, 0).Err? then
        r.0 == Build(eventId, acts, newIds, now, 0)
      else if faults.saveAll.Some? then
        r.0 == Err(faults.saveAll.value)
      else r.0.Ok?
    ensures r.0.Err? ==> r.1 == store
    ensures r.0.Ok? ==>
      && |r.0.value| == |acts|
      && (forall i :: 0 <= i < |acts| ==> Describes(r.0.value[i], acts[i], eventId, newIds(i).value, now))
      && r.1 == store.(activities := store.activities + r.0.value)
  {
    var names := NamesOf(acts);
    match FirstRepeat(names)
    case Some(n) => (Err("duplicate activity name in input: " + n), store)
    case None =>
      if faults.findByNames.Some? then
        (Err(Wrap("failed to find activities by event ID and names", faults.findByNames.value)), store)
      else
        var existing := ActivitiesNamed(store.activities, eventId, names);
        if |existing| > 0 then
          (Err("activities with the same names already exist for this event: " + existing[0].name), store)
        else match Build(eventId, acts, newIds, now, 0)
          case Err(e) => (Err(e), store)
          case Ok(created) =>
            if faults.saveAll.Some? then (Err(faults.saveAll.value), store)
            else (Ok(created), store.(activities := store.activities + created))
  }

  /** `Execute`: the result and the events store afterwards. */
  function Execute(store: Store, users: Auth.UserStore, input: Input,
                   newIds: nat -> Result<string>, now: Instant, faults: Faults): (r: (Result<seq<Activity>>, Store))
    // the cap comes before any look-up
    ensures |input.activities| > MaxActivities ==> r.0 == Err(ErrTooMany)
    ensures |input.activities| <= MaxActivities ==>
      match Auth.IsUserAdmin(users, input.userId, faults.user)
      case Err(e) => r.0 == Err(e)
      case Ok(false) => r.0 == Err(ErrNotAdmin)
      case Ok(true) => r == Create(store, input.eventId, input.activities, newIds, now, faults)
    ensures r.0.Err? ==> r.1 == store
  {
    if |input.activities| > MaxActivities then (Err(ErrTooMany), store)
    else match Auth.IsUserAdmin(users, input.userId, faults.user)
      case Err(e) => (Err(e), store)
      case Ok(isAdmin) =>
        if !isAdmin then (Err(ErrNotAdmin), store)
        else Create(store, input.eventId, input.activities, newIds, now, faults)
  }

  function ToActivityInput(p: NewActivityParams): ActivityInput {
    ActivityInput(p.name, p.description, p.startDate, p.endDate)
  }

  function ToActivityInputs(ps: seq<NewActivityParams>): (r: seq<ActivityInput>)
    ensures |r| == |ps|
    ensures forall i :: 0 <= i < |ps| ==> r[i] == ToActivityInput(ps[i])
  {
    if |ps| == 0 then [] else [ToActivityInput(ps[0])] + ToActivityInputs(ps[1..])
  }

  /** The older use case: it reads the user repository itself, so an
      unknown user is "user not found" rather than "not an admin". */
  function ExecuteLegacy(store: Store, users: Auth.UserStore, input: LegacyInput,
                         newIds: nat -> Result<string>, now: Instant, faults: Faults): (r: (Result<seq<Activity>>, Store))
    ensures |input.activities| > MaxActivities ==> r.0 == Err(ErrTooMany)
    ensures |input.activities| <= MaxActivities ==>
      if faults.user.Some? then r.0 == Err(faults.user.value)
      else if Auth.FindUser(users, input.userId).None? then r.0 == Err(ErrUserNotFound)
      else if Auth.FindUser(users, input.userId).value.role != RoleAdmin then r.0 == Err(ErrNotAdmin)
      else r == Create(store, input.eventId, ToActivityInputs(input.activities), newIds, now, faults)
    ensures r.0.Err? ==> r.1 == store
  {
    if |input.activities| > MaxActivities then (Err(ErrTooMany), store)
    else if faults.user.Some? then (Err(faults.user.value), store)
    else match Auth.FindUser(users, input.userId)
      case None => (Err(ErrUserNotFound), store)
      case Some(u) =>
        if u.role != RoleAdmin then (Err(ErrNotAdmin), store)
        else Create(store, input.eventId, ToActivityInputs(input.activities), newIds, now, faults)
  }

  // ---------------------------------------------------------- properties

  /** No event holds two activities with the same name. */
  predicate UniqueNamesPerEvent(activities: seq<Activity>) {
    forall i, j :: 0 <= i < j < |activities| ==>
      !(activities[i].eventId == activities[j].eventId && activities[i].name == activities[j].name)
  }

  /** A batch is stored exactly when it is small enough, the caller is an
      admin, its names are distinct and new to the event, every ID is
      generated and no call fails. */
  lemma CreatedIff(store: Store, users: Auth.UserStore, input: Input,
                   newIds: nat -> Result<string>, now: Instant, faults: Faults)
    ensures Execute(store, users, input, newIds, now, faults).0.Ok? <==>
      && |input.activities| <= MaxActivities
      && faults == NoFaults
      && Auth.FindUser(users, input.userId).Some?
      && IsAdmin(Auth.FindUser(users, input.userId).value)
      && NoDuplicates(NamesOf(input.activities))
      && (forall a :: a in store.activities && a.eventId == input.eventId ==> a.name !in NamesOf(input.activities))
      && (forall i :: 0 <= i < |input.activities| ==> newIds(i).Ok?)
  {
    var existing := ActivitiesNamed(store.activities, input.eventId, NamesOf(input.activities));
    if |existing| > 0 {
      assert existing[0] in existing;
    }
  }

  /** A successful batch keeps names unique within every event. */
  lemma PreservesUniqueNames(store: Store, users: Auth.UserStore, input: Input,
                             newIds: nat -> Result<string>, now: Instant, faults: Faults)
    requires UniqueNamesPerEvent(store.activities)
    ensures UniqueNamesPerEvent(Execute(store, users, input, newIds, now, faults).1.activities)
  {
    var r := Execute(store, users, input, newIds, now, faults);
    if r.0.Ok? {
      var names := NamesOf(input.activities);
      var created := r.0.value;
      assert r.1.activities == store.activities + created;
      assert NoDuplicates(names);
      assert |ActivitiesNamed(store.activities, input.eventId, names)| == 0;
      AppendKeepsUnique(store.activities, created, input.eventId, names);
    }
  }

  /** Appending activities of one event whose names are distinct and new to
      that event keeps names unique within every event. */
  lemma AppendKeepsUnique(before: seq<Activity>, created: seq<Activity>, eventId: string, names: seq<string>)
    requires UniqueNamesPerEvent(before) && NoDuplicates(names) && |created| == |names|
    requires forall k :: 0 <= k < |created| ==> created[k].eventId == eventId && created[k].name == names[k]
    requires forall a :: a in before ==> !(a.eventId == eventId && a.name in names)
    ensures UniqueNamesPerEvent(before + created)
  {
    var after := before + created;
    forall i, j | 0 <= i < j < |after|
      ensures !(after[i].eventId == after[j].eventId && after[i].name == after[j].name)
    {
      if j >= |before| {
        assert after[j] == created[j - |before|];
        if i < |before| {
          assert after[i] in before;
        } else {
          assert after[i] == created[i - |before|];
        }
      }
    }
  }

  /** The two versions agree once the user is known; for an unknown user
      the older one says "user not found" where the newer says "not an
      admin". The `EventID` each older input carries never matters. */
  lemma LegacyAgrees(store: Store, users: Auth.UserStore, input: Input, legacy: LegacyInput,
                     newIds: nat -> Result<string>, now: Instant, faults: Faults)
    requires legacy.userId == input.userId && legacy.eventId == input.eventId
    requires ToActivityInputs(legacy.activities) == input.activities
    requires |input.activities| <= MaxActivities && faults.user.None?
    ensures Auth.FindUser(users, input.userId).Some? ==>
      ExecuteLegacy(store, users, legacy, newIds, now, faults) == Execute(store, users, input, newIds, now, faults)
    ensures Auth.FindUser(users, input.userId).None? ==>
      && ExecuteLegacy(store, users, legacy, newIds, now, faults).0 == Err(ErrUserNotFound)
      && Execute(store, users, input, newIds, now, faults).0 == Err(ErrNotAdmin)
  {
  }
}

=== FILE: create_event.dfy ===
/** Creating an event, after
    internal/events/application/usecase/create_event/usecase.go (an admin
    creates a draft event whose start lies strictly before its end) and the
    older internal/events/usecases/create-event.go (no caller check, equal
    dates accepted, and a constructor that panics without a domain list).
 */
module CreateEvent {

  import opened Wrappers
  import opened Clock
  import opened EventEntity
  import opened EventsStore
  import Auth = UserAuthorization
  import Legacy = LegacyEvent
  import Identity

  const ErrUserNotFound := "user not found"
  const ErrNotAdmin := "user is not an admin"
  const ErrStartNotBeforeEnd := "start date must be before end date"
  const ErrEndNotAfterStart := "end date must be after start date"

  datatype Input = Input(
    userId: string,
    name: string,
    allowedDomains: Option<seq<string>>,
    description: Option<string>,
    startDate: Instant,
    endDate: Instant)

  /** Which calls fail, and with what error. */
  datatype Faults = Faults(getUser: Option<string>, save: Option<string>)

  const NoFaults := Faults(None, None)

  function ParamsOf(input: Input): NewEventParams {
    NewEventParams(input.name, input.allowedDomains, input.description, input.startDate, input.endDate)
  }

  /** `Execute`: the result and the events store afterwards. */
  function Execute(store: Store, users: Auth.UserStore, input: Input, newId: Result<string>,
                   now: Instant, faults: Faults): (r: (Result<Event>, Store))
    ensures faults.getUser.Some? ==> r.0 == Err(Wrap("failed to get user by ID", faults.getUser.value))
    ensures faults.getUser.None? ==>
      if Auth.FindUser(users, input.userId).None? then r.0 == Err(ErrUserNotFound)
      else if !Identity.IsAdmin(Auth.FindUser(users, input.userId).value) then r.0 == Err(ErrNotAdmin)
      else if newId.Err? then r.0 == Err(Wrap("failed to generate event ID", newId.msg))
      else if !(input.startDate < input.endDate) then r.0 == Err(ErrStartNotBeforeEnd)
      else if faults.save.Some? then r.0 == Err(faults.save.value)
      else r.0 == NewEvent(ParamsOf(input), newId, now)
    ensures r.0.Err? ==> r.1 == store
    ensures r.0.Ok? ==> r.1 == store.(events := store.events + [r.0.value])
  {
    match Auth.GetUserByID(users, input.userId, faults.getUser)
    case Err(e) => (Err(Wrap("failed to get user by ID", e)), store)
    case Ok(None) => (Err(ErrUserNotFound), store)
    case Ok(Some(user)) =>
      if !user.isAdmin then (Err(ErrNotAdmin), store)
      else match NewEvent(ParamsOf(input), newId, now)
        case Err(e) => (Err(e), store)
        case Ok(event) =>
          if !IsStartDateBeforeEndDate(event) then (Err(ErrStartNotBeforeEnd), store)
          else if !IsEndDateAfterStartDate(event) then (Err(ErrEndNotAfterStart), store)
          else if faults.save.Some? then (Err(faults.save.value), store)
          else (Ok(event), store.(events := store.events + [event]))
  }

  /** An event is created exactly when the caller is a known admin, the ID
      is generated, the start is strictly before the end and the calls
      succeed; it is then a draft carrying the input's fields. */
  lemma CreatedIff(store: Store, users: Auth.UserStore, input: Input, newId: Result<string>,
                   now: Instant, faults: Faults)
    ensures Execute(store, users, input, newId, now, faults).0.Ok? <==>
      && faults == NoFaults && newId.Ok?
      && Auth.FindUser(users, input.userId).Some?
      && Identity.IsAdmin(Auth.FindUser(users, input.userId).value)
      && input.startDate < input.endDate
    ensures Execute(store, users, input, newId, now, faults).0.Ok? ==>
      var e := Execute(store, users, input, newId, now, faults).0.value;
      && e.id == newId.value && e.status == Draft && e.name == input.name
      && e.startDate == input.startDate && e.endDate == input.endDate
      && e.startDate < e.endDate
  {
  }

  /** The second date check repeats the first, so its error comes back only
      as the store's own message. */
  lemma EndDateErrorUnreachable(store: Store, users: Auth.UserStore, input: Input, newId: Result<string>,
                                now: Instant, faults: Faults)
    requires faults.save != Some(ErrEndNotAfterStart)
    ensures Execute(store, users, input, newId, now, faults).0 != Err(ErrEndNotAfterStart)
  {
    if faults.getUser.Some? {
      WrapDiffers("failed to get user by ID", faults.getUser.value, ErrEndNotAfterStart);
    }
    if newId.Err? {
      WrapDiffers("failed to generate event ID", newId.msg, ErrEndNotAfterStart);
    }
  }

  // ------------------------------------------------------ older version

  /** The older use case: the result, which may be a panic, and the list of
      stored events afterwards. */
  function ExecuteLegacy(events: seq<Legacy.Event>, input: Input, newId: Result<string>,
                         now: Instant, saveFault: Option<string>): (r: (Call<Result<Legacy.Event>>, seq<Legacy.Event>))
    ensures newId.Err? ==> r.0 == Returned(Err(Wrap("failed to generate event ID", newId.msg)))
    ensures newId.Ok? && input.allowedDomains.None? ==> r.0.Panicked?
    ensures newId.Ok? && input.allowedDomains.Some? ==>
      if input.startDate > input.endDate then r.0 == Returned(Err(ErrStartNotBeforeEnd))
      else if saveFault.Some? then r.0 == Returned(Err(saveFault.value))
      else r.0.Returned? && r.0.value.Ok? && r.0.value.value.id == newId.value
    ensures r.0.Returned? && r.0.value.Ok? ==> r.1 == events + [r.0.value.value]
    ensures !(r.0.Returned? && r.0.value.Ok?) ==> r.1 == events
  {
    var params := Legacy.NewEventParams(input.name, input.allowedDomains, input.description,
                                        input.startDate, input.endDate);
    match Legacy.NewEvent(params, newId, now)
    case Panicked(reason) => (Panicked(reason), events)
    case Returned(Err(e)) => (Returned(Err(e)), events)
    case Returned(Ok(event)) =>
      if After(event.startDate, event.endDate) then (Returned(Err(ErrStartNotBeforeEnd)), events)
      else if Before(event.endDate, event.startDate) then (Returned(Err(ErrEndNotAfterStart)), events)
      else if saveFault.Some? then (Returned(Err(saveFault.value)), events)
      else (Returned(Ok(event)), events + [event])
  }

  /** An illustration on two inputs of where the versions part: an event whose start equals its end
      is rejected by the newer one and stored by the older, and an input
      without a domain list is a draft with no domains in the newer one and
      a panic in the older. */
  lemma VersionsDisagree(store: Store, users: Auth.UserStore, input: Input, id: string, now: Instant)
    requires Auth.FindUser(users, input.userId).Some?
    requires Identity.IsAdmin(Auth.FindUser(users, input.userId).value)
    ensures input.startDate == input.endDate ==>
      && Execute(store, users, input, Ok(id), now, NoFaults).0 == Err(ErrStartNotBeforeEnd)
      && (input.allowedDomains.Some? ==> ExecuteLegacy([], input, Ok(id), now, None).0.value.Ok?)
    ensures input.allowedDomains.None? ==>
      && ExecuteLegacy([], input, Ok(id), now, None).0.Panicked?
      && (input.startDate < input.endDate ==>
            Execute(store, users, input, Ok(id), now, NoFaults).0.value.allowedDomains == [])
  {
  }

  /** The older version's date check also never reports its second error. */
  lemma LegacyEndDateErrorUnreachable(events: seq<Legacy.Event>, input: Input, newId: Result<string>,
                                      now: Instant, saveFault: Option<string>)
    requires saveFault != Some(ErrEndNotAfterStart)
    ensures ExecuteLegacy(events, input, newId, now, saveFault).0 != Returned(Err(ErrEndNotAfterStart))
  {
    if newId.Err? {
      WrapDiffers("failed to generate event ID", newId.msg, ErrEndNotAfterStart);
    }
  }
}

=== FILE: event_entity.dfy ===
/** The Event aggregate, after internal/events/domain/entity/event.go. */
module EventEntity {

  import opened Wrappers
  import opened Text
  import opened Clock

  datatype EventStatus = Draft | Published | Cancelled | Completed

  datatype Event = Event(
    id: string,
    name: string,
    allowedDomains: seq<string>,   // empty = every domain admitted
    description: Option<string>,
    startDate: Instant,
    endDate: Instant,
    createdAt: Instant,
    updatedAt: Option<Instant>,
    status: EventStatus)

  datatype NewEventParams = NewEventParams(
    name: string,
    allowedDomains: Option<seq<string>>,   // Go's *[]string
    description: Option<string>,
    startDate: Instant,
    endDate: Instant)

  /** `NewEvent`: `newId` is the outcome of `lib.GenerateID(lib.UUID)` and
      `now` the value of `time.Now()`. A nil domain list becomes empty. */
  function NewEvent(params: NewEventParams, newId: Result<string>, now: Instant): (r: Result<Event>)
    ensures newId.Err? ==> r == Err(Wrap("failed to generate event ID", newId.msg))
    ensures newId.Ok? ==> r.Ok? && r.value.id == newId.value
    ensures r.Ok? ==>
      && r.value.name == params.name
      && r.value.description == params.description
      && r.value.startDate == params.startDate
      && r.value.endDate == params.endDate
      && r.value.allowedDomains == (if params.allowedDomains.Some? then params.allowedDomains.value else [])
      && r.value.createdAt == now
      && r.value.updatedAt == None
      && r.value.status == Draft
  {
    match newId
    case Err(e) => Err(Wrap("failed to generate event ID", e))
    case Ok(id) =>
      var domains := match params.allowedDomains
        case Some(ds) => ds
        case None => [];
      Ok(Event(id, params.name, domains, params.description, params.startDate,
               params.endDate, now, None, Draft))
  }

  /** `extractDomain`: the text after the '@' when there is exactly one. */
  function ExtractDomain(email: string): (domain: string)
    ensures Count(email, '@') != 1 ==> domain == ""
    ensures '@' !in domain
  {
    var parts := SplitOn(email, '@');
    if |parts| != 2 then "" else parts[1]
  }

  /** For an address "local@domain" the domain is what follows the '@'. */
  lemma ExtractDomainOfAddress(local: string, domain: string)
    requires '@' !in local && '@' !in domain
    ensures ExtractDomain(local + "@" + domain) == domain
  {
    assert local + "@" + domain == local + ['@'] + domain;
    SplitOnConcat(local, domain, '@');
    SplitOnAbsent(local, '@');
    SplitOnAbsent(domain, '@');
  }

  /** `IsAllowedDomain`: every address is admitted when the list is empty;
      otherwise exactly those whose extracted domain is listed verbatim. */
  function IsAllowedDomain(e: Event, email: string): (allowed: bool)
    ensures |e.allowedDomains| == 0 ==> allowed
    ensures |e.allowedDomains| > 0 ==> (allowed <==> ExtractDomain(email) in e.allowedDomains)
  {
    if |e.allowedDomains| == 0 then true
    else exists i :: 0 <= i < |e.allowedDomains| && e.allowedDomains[i] == ExtractDomain(email)
  }

  /** With a non-empty list, "local@domain" is admitted iff `domain` is listed
      exactly: no case folding, no sub-domain match. */
  lemma AllowedDomainOfAddress(e: Event, local: string, domain: string)
    requires |e.allowedDomains| > 0
    requires '@' !in local && '@' !in domain
    ensures IsAllowedDomain(e, local + "@" + domain) <==> domain in e.allowedDomains
  {
    ExtractDomainOfAddress(local, domain);
  }

  /** With a non-empty list, an address with no '@' or several is rejected
      unless the empty domain is itself listed. */
  lemma MalformedAddressRejected(e: Event, email: string)
    requires |e.allowedDomains| > 0 && "" !in e.allowedDomains
    requires Count(email, '@') != 1
    ensures !IsAllowedDomain(e, email)
  {
  }

  /** `IsCheckInWithinEventTime`: strictly after the start and strictly
      before the end, so both boundary instants are outside. */
  predicate IsCheckInWithinEventTime(e: Event, checkInTime: Instant) {
    After(checkInTime, e.startDate) && Before(checkInTime, e.endDate)
  }

  lemma WindowExcludesBoundaries(e: Event, t: Instant)
    ensures IsCheckInWithinEventTime(e, t) <==> e.startDate < t < e.endDate
    ensures !IsCheckInWithinEventTime(e, e.startDate) && !IsCheckInWithinEventTime(e, e.endDate)
  {
  }

  predicate IsStartDateBeforeEndDate(e: Event) { Before(e.startDate, e.endDate) }
  predicate IsEndDateAfterStartDate(e: Event) { After(e.endDate, e.startDate) }

  /** The two date-order predicates are the same test written twice. */
  lemma DateOrderPredicatesAgree(e: Event)
    ensures IsStartDateBeforeEndDate(e) <==> IsEndDateAfterStartDate(e)
  {
  }
}

=== FILE: events_store.dfy ===
/** The events database as the use cases read and write it: events,
    activities and check-ins, each in the order they were stored. A query
    with no match gives nil (or an empty list); a failing query is modelled
    by the caller's fault parameters, not here.
 */
module EventsStore {

  import opened Wrappers
  import opened EventEntity
  import opened ActivityEntity
  import opened CheckInEntity

  datatype Store = Store(events: seq<Event>, activities: seq<Activity>, checkIns: seq<CheckIn>)

  /** The event repository's `FindByID`. */
  function FindEvent(events: seq<Event>, id: string): (r: Option<Event>)
    ensures r.Some? ==> r.value in events && r.value.id == id
    ensures r.None? ==> forall e :: e in events ==> e.id != id
  {
    if |events| == 0 then None
    else if events[0].id == id then Some(events[0])
    else FindEvent(events[1..], id)
  }

  /** The activity repository's `FindByID`. */
  function FindActivity(activities: seq<Activity>, id: string): (r: Option<Activity>)
    ensures r.Some? ==> r.value in activities && r.value.id == id
    ensures r.None? ==> forall a :: a in activities ==> a.id != id
  {
    if |activities| == 0 then None
    else if activities[0].id == id then Some(activities[0])
    else FindActivity(activities[1..], id)
  }

  /** The activity repository's `FindByEventID`. */
  function ActivitiesOfEvent(activities: seq<Activity>, eventId: string): (r: seq<Activity>)
    ensures forall a :: a in r <==> a in activities && a.eventId == eventId
  {
    if |activities| == 0 then []
    else (if activities[0].eventId == eventId then [activities[0]] else [])
         + ActivitiesOfEvent(activities[1..], eventId)
  }

  /** The activity repository's `FindByEventIDAndNames`. */
  function ActivitiesNamed(activities: seq<Activity>, eventId: string, names: seq<string>): (r: seq<Activity>)
    ensures forall a :: a in r <==> a in activities && a.eventId == eventId && a.name in names
  {
    if |activities| == 0 then []
    else (if activities[0].eventId == eventId && activities[0].name in names then [activities[0]] else [])
         + ActivitiesNamed(activities[1..], eventId, names)
  }

  /** The check-in repository's `FindByUserAndActivity`. */
  function FindCheckIn(checkIns: seq<CheckIn>, userId: string, activityId: string): (r: Option<CheckIn>)
    ensures r.Some? ==> r.value in checkIns && r.value.userId == userId && r.value.activityId == activityId
    ensures r.None? <==> forall c :: c in checkIns ==> !(c.userId == userId && c.activityId == activityId)
  {
    if |checkIns| == 0 then None
    else if checkIns[0].userId == userId && checkIns[0].activityId == activityId then Some(checkIns[0])
    else FindCheckIn(checkIns[1..], userId, activityId)
  }

  /** The check-in repository's `FindByActivityIDs`. */
  function CheckInsOfActivities(checkIns: seq<CheckIn>, activityIds: seq<string>): (r: seq<CheckIn>)
    ensures forall c :: c in r <==> c in checkIns && c.activityId in activityIds
    ensures |r| <= |checkIns|
  {
    if |checkIns| == 0 then []
    else (if checkIns[0].activityId in activityIds then [checkIns[0]] else [])
         + CheckInsOfActivities(checkIns[1..], activityIds)
  }
}

=== FILE: finish_event.dfy ===
/** Finishing an event, after
    internal/events/application/usecase/finish_event/usecase.go: an admin
    asks for certificates; once every activity of the event has ended, one
    certificate job per check-in is built and the whole batch is handed to
    the queue in a single `EnqueueBatch`.

    The two look-ups Go runs concurrently (the event and its
    activities) are made one after the other; when both fail, the event's
    error is the one reported.
 */
module FinishEvent {

  import opened Wrappers
  import opened Clock
  import opened EventEntity
  import opened ActivityEntity
  import opened CheckInEntity
  import opened EventsStore
  import opened Identity
  import Auth = UserAuthorization
  import opened CertificateJobs
  import opened JobCodec
  import opened CertificateQueue
  import opened Text

  datatype Input = Input(eventId: string, userId: string)

  /** Which calls fail, and with what error. */
  datatype Faults = Faults(
    getUser: Option<string>,
    findEvent: Option<string>,
    findActivities: Option<string>,
    findCheckIns: Option<string>,
    userBatch: Option<string>)

  const NoFaults := Faults(None, None, None, None, None)

  const ErrUserNotFound := "user not found"
  const ErrNotAdmin := "user is not an admin"
  const ErrEventNotFound := "event not found"
  const ErrNoActivities := "no activities found for event"
  const ErrActivityNotEnded := "activity has not ended"
  const ErrNoCheckIns := "no check-ins found for activities"
  const ErrNoUsers := "no users found for check-ins"

  // ------------------------------------------------------ de-duplication

  function UserIdsOf(checkIns: seq<CheckIn>): (ids: seq<string>)
    ensures |ids| == |checkIns|
    ensures forall i :: 0 <= i < |checkIns| ==> ids[i] == checkIns[i].userId
  {
    if |checkIns| == 0 then [] else [checkIns[0].userId] + UserIdsOf(checkIns[1..])
  }

  /** The position of the first occurrence of `x` in `s`. */
  function FirstIndex(s: seq<string>, x: string): (i: nat)
    requires x in s
    ensures i < |s| && s[i] == x && x !in s[..i]
  {
    if s[0] == x then 0 else 1 + FirstIndex(s[1..], x)
  }

  /** The distinct elements in order of first occurrence. */
  function Dedup(s: seq<string>): (r: seq<string>)
    ensures NoDuplicates(r)
    ensures forall x :: x in r <==> x in s
    ensures |r| <= |s|
  {
    if |s| == 0 then []
    else
      var r := Dedup(s[..|s| - 1]);
      if s[|s| - 1] in r then r else r + [s[|s| - 1]]
  }

  lemma FirstIndexPrefix(s: seq<string>, n: nat, x: string)
    requires n <= |s| && x in s[..n]
    ensures x in s && FirstIndex(s, x) == FirstIndex(s[..n], x)
  {
    var k := FirstIndex(s[..n], x);
    assert s[..n][..k] == s[..k];
  }

  lemma DedupPairStep(s: seq<string>, i: nat, j: nat)
    requires |s| > 0
    requires i < j < |Dedup(s)|
    requires var rp := Dedup(s[..|s| - 1]);
      j < |rp| ==> FirstIndex(s[..|s| - 1], rp[i]) < FirstIndex(s[..|s| - 1], rp[j])
    ensures FirstIndex(s, Dedup(s)[i]) < FirstIndex(s, Dedup(s)[j])
  {
    var p := s[..|s| - 1];
    var last := s[|s| - 1];
    var rp := Dedup(p);
    var r := Dedup(s);
    assert r[i] == rp[i] && rp[i] in p;
    FirstIndexPrefix(s, |s| - 1, r[i]);
    if j < |rp| {
      assert r[j] == rp[j] && rp[j] in p;
      FirstIndexPrefix(s, |s| - 1, r[j]);
    } else {
      assert r[j] == last && last !in p;
      assert FirstIndex(s, last) == |s| - 1;
    }
  }

  /** The kept elements appear in the order of their first occurrences. */
  lemma {:induction false} DedupKeepsFirstOccurrenceOrder(s: seq<string>)
    ensures var r := Dedup(s);
      forall i, j :: 0 <= i < j < |r| ==> FirstIndex(s, r[i]) < FirstIndex(s, r[j])
    decreases |s|
  {
    if |s| > 0 {
      DedupKeepsFirstOccurrenceOrder(s[..|s| - 1]);
      forall i, j | 0 <= i < j < |Dedup(s)|
        ensures FirstIndex(s, Dedup(s)[i]) < FirstIndex(s, Dedup(s)[j])
      {
        DedupPairStep(s, i, j);
      }
    }
  }

  /** The de-duplication loop: walk the check-ins, keeping a set of the IDs
      already seen, and append each unseen one. */
  method UniqueUserIds(checkIns: seq<CheckIn>) returns (userIds: seq<string>)
    ensures userIds == Dedup(UserIdsOf(checkIns))
  {
    var all := UserIdsOf(checkIns);
    var seen: set<string> := {};
    userIds := [];
    var k := 0;
    while k < |checkIns|
      invariant 0 <= k <= |checkIns|
      invariant userIds == Dedup(all[..k])
      invariant seen == set x | x in userIds
    {
      assert all[..k + 1][..k] == all[..k];
      if checkIns[k].userId !in seen {
        seen := seen + {checkIns[k].userId};
        userIds := userIds + [checkIns[k].userId];
      }
      k := k + 1;
    }
    assert all[..|checkIns|] == all;
  }

  // ------------------------------------------------------------- indexing

  function UserIndex(users: seq<Auth.UserInfo>): (m: map<string, Auth.UserInfo>)
    ensures forall id :: id in m <==> exists u :: u in users && u.id == id
    ensures forall id :: id in m ==> m[id] in users && m[id].id == id
  {
    if |users| == 0 then map[]
    else
      var last := users[|users| - 1];
      var prior := users[..|users| - 1];
      assert forall u :: u in prior ==> u in users;
      UserIndex(prior)[last.id := last]
  }

  function ActivityIndex(activities: seq<Activity>): (m: map<string, Activity>)
    ensures forall id :: id in m <==> exists a :: a in activities && a.id == id
    ensures forall id :: id in m ==> m[id] in activities && m[id].id == id
  {
    if |activities| == 0 then map[]
    else
      var last := activities[|activities| - 1];
      var prior := activities[..|activities| - 1];
      assert forall a :: a in prior ==> a in activities;
      ActivityIndex(prior)[last.id := last]
  }

  function ActivityIds(activities: seq<Activity>): (ids: seq<string>)
    ensures |ids| == |activities|
    ensures forall i :: 0 <= i < |activities| ==> ids[i] == activities[i].id
  {
    if |activities| == 0 then [] else [activities[0].id] + ActivityIds(activities[1..])
  }

  // ------------------------------------------------------------------ jobs

  /** The job the use case builds for one check-in. */
  predicate IsJobFor(j: CertificateJob, e: Event, u: Auth.UserInfo, a: Activity, c: CheckIn) {
    && j.eventInfo == EventInfo(e.id, e.name)
    && j.userInfo == UserInfo(u.id, u.firstName + " " + u.lastName, u.email)
    && j.activityInfo == ActivityInfo(a.id, a.name, a.startDate, a.startDate, a.endDate)
    && j.checkedAt == c.checkedAt
  }

  /** One job per check-in, in check-in order; `newJobId(k)` is the ID
      generator's outcome for the job at position `offset + k`. */
  function BuildJobs(e: Event, checkIns: seq<CheckIn>, users: map<string, Auth.UserInfo>,
                     activities: map<string, Activity>, newJobId: nat -> Result<string>, offset: nat): (r: Result<seq<CertificateJob>>)
    ensures r.Ok? ==> |r.value| == |checkIns|
    ensures r.Ok? ==> forall i :: 0 <= i < |checkIns| ==>
      && checkIns[i].userId in users && checkIns[i].activityId in activities
      && newJobId(offset + i).Ok? && r.value[i].jobId == newJobId(offset + i).value
      && IsJobFor(r.value[i], e, users[checkIns[i].userId], activities[checkIns[i].activityId], checkIns[i])
    ensures r.Err? ==>
      exists i :: 0 <= i < |checkIns| &&
        (checkIns[i].userId !in users || checkIns[i].activityId !in activities || newJobId(offset + i).Err?)
    decreases |checkIns|
  {
    if |checkIns| == 0 then Ok([])
    else
      var c := checkIns[0];
      if c.userId !in users then Err("user not found: " + c.userId)
      else if c.activityId !in activities then Err("activity not found: " + c.activityId)
      else
        var u := users[c.userId];
        var a := activities[c.activityId];
        var params := NewCertificateJobParams(
          EventInfo(e.id, e.name),
          UserInfo(u.id, u.firstName + " " + u.lastName, u.email),
          ActivityInfo(a.id, a.name, a.startDate, a.startDate, a.endDate),
          c.checkedAt);
        match NewCertificateJob(params, newJobId(offset))
        case None => Err(Wrap("failed to create certificate job", newJobId(offset).msg))
        case Some(job) =>
          match BuildJobs(e, checkIns[1..], users, activities, newJobId, offset + 1)
          case Err(m) => Err(m)
          case Ok(rest) =>
            assert forall i :: 1 <= i < |checkIns| ==> checkIns[1..][i - 1] == checkIns[i];
            Ok([job] + rest)
  }

  // --------------------------------------------------------------- Execute

  /** What a run did: its error or success, the queue afterwards, and the
      batch handed to `EnqueueBatch`, if that call was reached. */
  datatype Run = Run(result: Outcome, queue: Queue, batch: Option<seq<CertificateJob>>)

  function Fails(msg: string, q: Queue): Run { Run(Fail(msg), q, None) }

  predicate AllEnded(activities: seq<Activity>, now: Instant) {
    forall i :: 0 <= i < |activities| ==> HasEnded(activities[i], now)
  }

  /** The jobs for a user batch that is not empty, and their one enqueue. */
  function EnqueueJobs(q: Queue, e: Event, activities: seq<Activity>, checkIns: seq<CheckIn>,
                       infos: seq<Auth.UserInfo>, newJobId: nat -> Result<string>, exec: ExecOutcome): (r: Run)
    // a job that cannot be built stops the run before the queue is touched
    ensures var built := BuildJobs(e, checkIns, UserIndex(infos), ActivityIndex(activities), newJobId, 0);
      if built.Err? then r == Fails(built.msg, q) else r.batch == Some(built.value)
    ensures r.batch.None? ==> r.queue == q && r.result.Fail?
    ensures r.batch.Some? ==> r.queue == EnqueueBatch(q, r.batch.value, exec).1
    ensures r.batch.Some? && EnqueueBatch(q, r.batch.value, exec).0.Pass? ==> r.result == Pass
    ensures r.batch.Some? && EnqueueBatch(q, r.batch.value, exec).0.Fail? ==>
      r.result == Fail(Wrap("failed to enqueue certificate jobs", EnqueueBatch(q, r.batch.value, exec).0.msg))
  {
    match BuildJobs(e, checkIns, UserIndex(infos), ActivityIndex(activities), newJobId, 0)
    case Err(m) => Fails(m, q)
    case Ok(jobs) =>
      var (out, q') := EnqueueBatch(q, jobs, exec);
      match out
      case Pass => Run(Pass, q', Some(jobs))
      case Fail(m) => Run(Fail(Wrap("failed to enqueue certificate jobs", m)), q', Some(jobs))
  }

  /** The steps after the precondition checks: user details, indices, jobs,
      and the one enqueue. */
  function Enqueue(store: Store, users: Auth.UserStore, q: Queue, e: Event, activities: seq<Activity>,
                   checkIns: seq<CheckIn>, newJobId: nat -> Result<string>, faults: Faults, exec: ExecOutcome): (r: Run)
    // the user batch decides whether jobs are built
    ensures var infos := Auth.GetUserInfoBatch(users, Dedup(UserIdsOf(checkIns)), faults.userBatch);
      if infos.Err? then r == Fails(Wrap("failed to get user info batch", infos.msg), q)
      else if |infos.value| == 0 then r == Fails(ErrNoUsers, q)
      else r == EnqueueJobs(q, e, activities, checkIns, infos.value, newJobId, exec)
    ensures r.batch.None? ==> r.queue == q && r.result.Fail?
    ensures r.batch.Some? ==> BuildJobs(e, checkIns, UserIndex(Auth.GetUserInfoBatch(users, Dedup(UserIdsOf(checkIns)), None).value),
                                        ActivityIndex(activities), newJobId, 0) == Ok(r.batch.value)
    ensures r.batch.Some? ==> r.queue == EnqueueBatch(q, r.batch.value, exec).1
    ensures r.batch.Some? && EnqueueBatch(q, r.batch.value, exec).0.Pass? ==> r.result == Pass
    ensures r.batch.Some? && EnqueueBatch(q, r.batch.value, exec).0.Fail? ==>
      r.result == Fail(Wrap("failed to enqueue certificate jobs", EnqueueBatch(q, r.batch.value, exec).0.msg))
  {
    var userIds := Dedup(UserIdsOf(checkIns));
    match Auth.GetUserInfoBatch(users, userIds, faults.userBatch)
    case Err(err) => Fails(Wrap("failed to get user info batch", err), q)
    case Ok(infos) =>
      if |infos| == 0 then Fails(ErrNoUsers, q)
      else EnqueueJobs(q, e, activities, checkIns, infos, newJobId, exec)
  }

  /** The part of `Execute` once the activities are known to have ended: the
      check-ins are read and their jobs enqueued. */
  function ExecuteForCheckIns(store: Store, users: Auth.UserStore, q: Queue, e: Event, activities: seq<Activity>,
                              newJobId: nat -> Result<string>, faults: Faults, exec: ExecOutcome): (r: Run)
    ensures var checkIns := CheckInsOfActivities(store.checkIns, ActivityIds(activities));
      if faults.findCheckIns.Some? then r == Fails(Wrap("failed to find check-ins by activity IDs", faults.findCheckIns.value), q)
      else if |checkIns| == 0 then r == Fails(ErrNoCheckIns, q)
      else r == Enqueue(store, users, q, e, activities, checkIns, newJobId, faults, exec)
    ensures r.result.Fail? ==> r.queue == q || (r.batch.Some? && exec.ExecFailed?)
    ensures r.batch.Some? ==>
      && faults.findCheckIns.None?
      && var checkIns := CheckInsOfActivities(store.checkIns, ActivityIds(activities));
         |checkIns| > 0 && |r.batch.value| == |checkIns|
    ensures r.result.Pass? ==>
      && r.batch.Some? && EncodeAll(r.batch.value).Ok?
      && DeliveryOrder(r.queue) == DeliveryOrder(q) + EncodeAll(r.batch.value).value
  {
    if faults.findCheckIns.Some? then Fails(Wrap("failed to find check-ins by activity IDs", faults.findCheckIns.value), q)
    else
      var checkIns := CheckInsOfActivities(store.checkIns, ActivityIds(activities));
      if |checkIns| == 0 then Fails(ErrNoCheckIns, q)
      else Enqueue(store, users, q, e, activities, checkIns, newJobId, faults, exec)
  }

  /** The part of `Execute` once the event is found: its activities must
      exist and all have ended before the check-ins are read. */
  function ExecuteForEvent(store: Store, users: Auth.UserStore, q: Queue, e: Event, activities: seq<Activity>,
                           now: Instant, newJobId: nat -> Result<string>, faults: Faults, exec: ExecOutcome): (r: Run)
    // the checks decide in this order
    ensures if |activities| == 0 then r == Fails(ErrNoActivities, q)
      else if !AllEnded(activities, now) then r == Fails(ErrActivityNotEnded, q)
      else r == ExecuteForCheckIns(store, users, q, e, activities, newJobId, faults, exec)
    ensures r.result.Fail? ==> r.queue == q || (r.batch.Some? && exec.ExecFailed?)
    ensures r.batch.Some? ==>
      && faults.findCheckIns.None? && |activities| > 0 && AllEnded(activities, now)
      && var checkIns := CheckInsOfActivities(store.checkIns, ActivityIds(activities));
         |checkIns| > 0 && |r.batch.value| == |checkIns|
    ensures r.result.Pass? ==>
      && r.batch.Some? && EncodeAll(r.batch.value).Ok?
      && DeliveryOrder(r.queue) == DeliveryOrder(q) + EncodeAll(r.batch.value).value
  {
    if |activities| == 0 then Fails(ErrNoActivities, q)
    else if !AllEnded(activities, now) then Fails(ErrActivityNotEnded, q)
    else ExecuteForCheckIns(store, users, q, e, activities, newJobId, faults, exec)
  }

  /** The part of `Execute` after the caller is known to be an admin: the
      event and its activities are fetched together, and either fetch's
      fault or a missing event stops the run. */
  function ExecuteAsAdmin(store: Store, users: Auth.UserStore, q: Queue, eventId: string, now: Instant,
                          newJobId: nat -> Result<string>, faults: Faults, exec: ExecOutcome): (r: Run)
    // the look-ups decide in this order
    ensures if faults.findEvent.Some? then r == Fails(Wrap("failed to find event by ID", faults.findEvent.value), q)
      else if faults.findActivities.Some? then r == Fails(Wrap("failed to find activities by event ID", faults.findActivities.value), q)
      else if FindEvent(store.events, eventId).None? then r == Fails(ErrEventNotFound, q)
      else r == ExecuteForEvent(store, users, q, FindEvent(store.events, eventId).value,
                                ActivitiesOfEvent(store.activities, eventId), now, newJobId, faults, exec)
    ensures r.result.Fail? ==> r.queue == q || (r.batch.Some? && exec.ExecFailed?)
    ensures r.batch.Some? ==>
      && faults.findEvent.None? && faults.findActivities.None? && faults.findCheckIns.None?
      && FindEvent(store.events, eventId).Some?
      && (var activities := ActivitiesOfEvent(store.activities, eventId);
          && |activities| > 0 && AllEnded(activities, now)
          && var checkIns := CheckInsOfActivities(store.checkIns, ActivityIds(activities));
             |checkIns| > 0 && |r.batch.value| == |checkIns|)
    ensures r.result.Pass? ==>
      && r.batch.Some? && EncodeAll(r.batch.value).Ok?
      && DeliveryOrder(r.queue) == DeliveryOrder(q) + EncodeAll(r.batch.value).value
  {
    if faults.findEvent.Some? then Fails(Wrap("failed to find event by ID", faults.findEvent.value), q)
    else if faults.findActivities.Some? then Fails(Wrap("failed to find activities by event ID", faults.findActivities.value), q)
    else match FindEvent(store.events, eventId)
      case None => Fails(ErrEventNotFound, q)
      case Some(e) => ExecuteForEvent(store, users, q, e, ActivitiesOfEvent(store.activities, eventId), now, newJobId, faults, exec)
  }

  /** `Execute`. `users` is the identity user store the authorization
      service reads, `now` the clock, `newJobId` the job ID generator. */
  function Execute(store: Store, users: Auth.UserStore, q: Queue, input: Input, now: Instant,
                   newJobId: nat -> Result<string>, faults: Faults, exec: ExecOutcome): (r: Run)
    // the caller is checked before anything about the event is read
    ensures faults.getUser.Some? ==> r == Fails(Wrap("failed to get user by ID", faults.getUser.value), q)
    ensures faults.getUser.None? && Auth.FindUser(users, input.userId).None? ==> r == Fails(ErrUserNotFound, q)
    ensures faults.getUser.None? && Auth.FindUser(users, input.userId).Some? && !IsAdmin(Auth.FindUser(users, input.userId).value) ==>
      r == Fails(ErrNotAdmin, q)
    ensures faults.getUser.None? && Auth.FindUser(users, input.userId).Some? && IsAdmin(Auth.FindUser(users, input.userId).value) ==>
      r == ExecuteAsAdmin(store, users, q, input.eventId, now, newJobId, faults, exec)
    // every failure but the enqueue's own leaves the queue as it was
    ensures r.result.Fail? ==> r.queue == q || (r.batch.Some? && exec.ExecFailed?)
    // the batch is reached only when every precondition holds
    ensures r.batch.Some? ==>
      && faults.getUser.None? && Auth.FindUser(users, input.userId).Some? && IsAdmin(Auth.FindUser(users, input.userId).value)
      && faults.findEvent.None? && faults.findActivities.None? && faults.findCheckIns.None?
      && FindEvent(store.events, input.eventId).Some?
      && (var activities := ActivitiesOfEvent(store.activities, input.eventId);
          && |activities| > 0 && AllEnded(activities, now)
          && var checkIns := CheckInsOfActivities(store.checkIns, ActivityIds(activities));
             |checkIns| > 0 && |r.batch.value| == |checkIns|)
    ensures r.result.Pass? ==>
      && r.batch.Some? && EncodeAll(r.batch.value).Ok?
      && DeliveryOrder(r.queue) == DeliveryOrder(q) + EncodeAll(r.batch.value).value
  {
    match Auth.GetUserByID(users, input.userId, faults.getUser)
    case Err(err) => Fails(Wrap("failed to get user by ID", err), q)
    case Ok(None) => Fails(ErrUserNotFound, q)
    case Ok(Some(caller)) =>
      if !caller.isAdmin then Fails(ErrNotAdmin, q)
      else ExecuteAsAdmin(store, users, q, input.eventId, now, newJobId, faults, exec)
  }

  // ------------------------------------------------------------ properties

  /** An activity still running stops the run before the check-ins are
      read: the check-in query's fault, the users and the queue play no part. */
  lemma UnendedActivityStops(store: Store, users: Auth.UserStore, q: Queue, input: Input, now: Instant,
                             newJobId: nat -> Result<string>, faults: Faults, exec: ExecOutcome)
    requires faults.getUser.None? && faults.findEvent.None? && faults.findActivities.None?
    requires Auth.FindUser(users, input.userId).Some? && IsAdmin(Auth.FindUser(users, input.userId).value)
    requires FindEvent(store.events, input.eventId).Some?
    requires var activities := ActivitiesOfEvent(store.activities, input.eventId);
      |activities| > 0 && exists i :: 0 <= i < |activities| && !HasEnded(activities[i], now)
    ensures Execute(store, users, q, input, now, newJobId, faults, exec) == Fails(ErrActivityNotEnded, q)
  {
  }

  /** Every check-in the query returns belongs to one of the event's
      activities, so the "activity not found: <id>" failure cannot happen. */
  lemma CheckInActivitiesIndexed(checkIns: seq<CheckIn>, activities: seq<Activity>)
    ensures forall c :: c in CheckInsOfActivities(checkIns, ActivityIds(activities)) ==>
      c.activityId in ActivityIndex(activities)
  {
    var ids := ActivityIds(activities);
    forall c | c in CheckInsOfActivities(checkIns, ids)
      ensures c.activityId in ActivityIndex(activities)
    {
      var k :| 0 <= k < |ids| && ids[k] == c.activityId;
      assert activities[k] in activities;
    }
  }

  /** A user-index entry describes a stored user. */
  lemma IndexedUserIsStored(users: Auth.UserStore, ids: seq<string>, id: string)
    requires id in UserIndex(Auth.GetUserInfoBatch(users, ids, None).value)
    ensures var info := UserIndex(Auth.GetUserInfoBatch(users, ids, None).value)[id];
      exists u :: u in users && u.id == id && info == Auth.ToUserInfo(u)
  {
    var infos := Auth.GetUserInfoBatch(users, ids, None).value;
    var found := Auth.FindUsers(users, ids);
    var info := UserIndex(infos)[id];
    var k :| 0 <= k < |infos| && infos[k] == info;
    assert found[k] in found;
  }

  /** What the job at position `i` says about its check-in `c`, in terms of
      the stores the indices were made from. */
  predicate JobDescribes(j: CertificateJob, i: nat, e: Event, c: CheckIn, users: Auth.UserStore,
                         activities: seq<Activity>, newJobId: nat -> Result<string>)
  {
    && newJobId(i).Ok? && j.jobId == newJobId(i).value
    && j.eventInfo == EventInfo(e.id, e.name)
    && j.checkedAt == c.checkedAt
    && (exists u :: u in users && u.id == c.userId &&
          j.userInfo == UserInfo(u.id, u.firstName + " " + u.lastName, u.email))
    && (exists a :: a in activities && a.id == c.activityId &&
          j.activityInfo == ActivityInfo(a.id, a.name, a.startDate, a.startDate, a.endDate))
  }

  predicate JobsDescribe(b: seq<CertificateJob>, e: Event, cs: seq<CheckIn>, users: Auth.UserStore,
                         activities: seq<Activity>, newJobId: nat -> Result<string>)
  {
    |b| == |cs| && forall i :: 0 <= i < |cs| ==> JobDescribes(b[i], i, e, cs[i], users, activities, newJobId)
  }

  lemma BuiltJobsDescribe(b: seq<CertificateJob>, e: Event, cs: seq<CheckIn>, users: Auth.UserStore,
                          ids: seq<string>, activities: seq<Activity>, newJobId: nat -> Result<string>)
    requires BuildJobs(e, cs, UserIndex(Auth.GetUserInfoBatch(users, ids, None).value),
                       ActivityIndex(activities), newJobId, 0) == Ok(b)
    ensures JobsDescribe(b, e, cs, users, activities, newJobId)
  {
    var uidx := UserIndex(Auth.GetUserInfoBatch(users, ids, None).value);
    var aidx := ActivityIndex(activities);
    forall i | 0 <= i < |cs|
      ensures JobDescribes(b[i], i, e, cs[i], users, activities, newJobId)
    {
      var c := cs[i];
      assert c.userId in uidx && c.activityId in aidx;
      assert IsJobFor(b[i], e, uidx[c.userId], aidx[c.activityId], c);
      var info := uidx[c.userId];
      IndexedUserIsStored(users, ids, c.userId);
      var u :| u in users && u.id == c.userId && info == Auth.ToUserInfo(u);
      assert b[i].userInfo == UserInfo(u.id, u.firstName + " " + u.lastName, u.email);
      var a := aidx[c.activityId];
      assert a in activities && a.id == c.activityId;
    }
  }

  /** The batch holds one job per check-in of the event, in check-in order,
      each naming the event, the checked-in user as stored (first and last
      name joined by a space), the event's activity with its start as both
      date and start time, and the check-in instant. */
  lemma BatchIsOneJobPerCheckIn(store: Store, users: Auth.UserStore, q: Queue, input: Input, now: Instant,
                                newJobId: nat -> Result<string>, faults: Faults, exec: ExecOutcome)
    requires Execute(store, users, q, input, now, newJobId, faults, exec).batch.Some?
    ensures
      var activities := ActivitiesOfEvent(store.activities, input.eventId);
      JobsDescribe(Execute(store, users, q, input, now, newJobId, faults, exec).batch.value,
                   FindEvent(store.events, input.eventId).value,
                   CheckInsOfActivities(store.checkIns, ActivityIds(activities)),
                   users, activities, newJobId)
  {
    var activities := ActivitiesOfEvent(store.activities, input.eventId);
    var cs := CheckInsOfActivities(store.checkIns, ActivityIds(activities));
    BuiltJobsDescribe(Execute(store, users, q, input, now, newJobId, faults, exec).batch.value,
                      FindEvent(store.events, input.eventId).value, cs, users,
                      Dedup(UserIdsOf(cs)), activities, newJobId);
  }

  /** Every checked-in user who is stored is in the index made from the
      user batch. */
  lemma StoredUsersIndexed(users: Auth.UserStore, cs: seq<CheckIn>)
    requires forall i :: 0 <= i < |cs| ==> Auth.FindUser(users, cs[i].userId).Some?
    ensures var infos := Auth.GetUserInfoBatch(users, Dedup(UserIdsOf(cs)), None).value;
      forall i :: 0 <= i < |cs| ==> cs[i].userId in UserIndex(infos)
  {
    var ids := Dedup(UserIdsOf(cs));
    var found := Auth.FindUsers(users, ids);
    var infos := Auth.GetUserInfoBatch(users, ids, None).value;
    forall i | 0 <= i < |cs| ensures cs[i].userId in UserIndex(infos) {
      var u := Auth.FindUser(users, cs[i].userId).value;
      assert UserIdsOf(cs)[i] == u.id;
      assert u in found;
      var k :| 0 <= k < |found| && found[k] == u;
      assert infos[k] in infos && infos[k].id == u.id;
    }
  }

  /** Every user in the index is stored. */
  lemma IndexedUsersStored(users: Auth.UserStore, cs: seq<CheckIn>)
    requires var infos := Auth.GetUserInfoBatch(users, Dedup(UserIdsOf(cs)), None).value;
      forall i :: 0 <= i < |cs| ==> cs[i].userId in UserIndex(infos)
    ensures forall i :: 0 <= i < |cs| ==> Auth.FindUser(users, cs[i].userId).Some?
  {
    forall i | 0 <= i < |cs| ensures Auth.FindUser(users, cs[i].userId).Some? {
      IndexedUserIsStored(users, Dedup(UserIdsOf(cs)), cs[i].userId);
    }
  }

  /** The jobs are built when every check-in's user and activity are indexed
      and every job ID is generated. */
  lemma BuildJobsSucceeds(e: Event, cs: seq<CheckIn>, users: map<string, Auth.UserInfo>,
                          activities: map<string, Activity>, newJobId: nat -> Result<string>)
    requires forall i :: 0 <= i < |cs| ==> cs[i].userId in users && cs[i].activityId in activities && newJobId(i).Ok?
    ensures BuildJobs(e, cs, users, activities, newJobId, 0).Ok?
  {
    if BuildJobs(e, cs, users, activities, newJobId, 0).Err? {
      var i :| 0 <= i < |cs| && (cs[i].userId !in users || cs[i].activityId !in activities || newJobId(0 + i).Err?);
      assert false;
    }
  }

  /** The batch is reached exactly when the caller is an admin, no look-up
      fails, the event exists with activities that have all ended and have
      check-ins, every checked-in user is stored and every job ID is
      generated. */
  predicate BatchReachable(store: Store, users: Auth.UserStore, input: Input, now: Instant,
                           newJobId: nat -> Result<string>, faults: Faults)
  {
    var activities := ActivitiesOfEvent(store.activities, input.eventId);
    var cs := CheckInsOfActivities(store.checkIns, ActivityIds(activities));
    && faults == NoFaults
    && Auth.FindUser(users, input.userId).Some? && IsAdmin(Auth.FindUser(users, input.userId).value)
    && FindEvent(store.events, input.eventId).Some?
    && |activities| > 0 && AllEnded(activities, now) && |cs| > 0
    && (forall i :: 0 <= i < |cs| ==> Auth.FindUser(users, cs[i].userId).Some? && newJobId(i).Ok?)
  }

  /** Reaching the enqueue needs the user batch and, for every check-in, a
      stored user and a generated job ID. */
  lemma EnqueueReachedOnlyIf(store: Store, users: Auth.UserStore, q: Queue, e: Event, activities: seq<Activity>,
                             cs: seq<CheckIn>, newJobId: nat -> Result<string>, faults: Faults, exec: ExecOutcome)
    requires Enqueue(store, users, q, e, activities, cs, newJobId, faults, exec).batch.Some?
    ensures faults.userBatch.None?
    ensures forall i :: 0 <= i < |cs| ==> Auth.FindUser(users, cs[i].userId).Some? && newJobId(i).Ok?
  {
    var infos := Auth.GetUserInfoBatch(users, Dedup(UserIdsOf(cs)), faults.userBatch);
    assert infos.Ok? && |infos.value| > 0;
    var built := BuildJobs(e, cs, UserIndex(infos.value), ActivityIndex(activities), newJobId, 0);
    assert built.Ok?;
    IndexedUsersStored(users, cs);
  }

  /** Reaching the batch needs every condition of `BatchReachable`. */
  lemma BatchReachedOnlyIf(store: Store, users: Auth.UserStore, q: Queue, input: Input, now: Instant,
                           newJobId: nat -> Result<string>, faults: Faults, exec: ExecOutcome)
    requires Execute(store, users, q, input, now, newJobId, faults, exec).batch.Some?
    ensures BatchReachable(store, users, input, now, newJobId, faults)
  {
    var activities := ActivitiesOfEvent(store.activities, input.eventId);
    var cs := CheckInsOfActivities(store.checkIns, ActivityIds(activities));
    var e := FindEvent(store.events, input.eventId).value;
    assert ExecuteAsAdmin(store, users, q, input.eventId, now, newJobId, faults, exec).batch.Some?;
    assert ExecuteForEvent(store, users, q, e, activities, now, newJobId, faults, exec).batch.Some?;
    assert ExecuteForCheckIns(store, users, q, e, activities, newJobId, faults, exec).batch.Some?;
    EnqueueReachedOnlyIf(store, users, q, e, activities, cs, newJobId, faults, exec);
  }

  /** Every condition of `BatchReachable` together reaches the batch. */
  lemma BatchReachedIf(store: Store, users: Auth.UserStore, q: Queue, input: Input, now: Instant,
                       newJobId: nat -> Result<string>, faults: Faults, exec: ExecOutcome)
    requires BatchReachable(store, users, input, now, newJobId, faults)
    ensures Execute(store, users, q, input, now, newJobId, faults, exec).batch.Some?
  {
    var activities := ActivitiesOfEvent(store.activities, input.eventId);
    var cs := CheckInsOfActivities(store.checkIns, ActivityIds(activities));
    var e := FindEvent(store.events, input.eventId).value;
    var infos := Auth.GetUserInfoBatch(users, Dedup(UserIdsOf(cs)), None).value;
    StoredUsersIndexed(users, cs);
    CheckInActivitiesIndexed(store.checkIns, activities);
    assert cs[0] in cs;
    assert cs[0].userId in UserIndex(infos);
    forall i | 0 <= i < |cs| ensures cs[i].activityId in ActivityIndex(activities) {
      assert cs[i] in cs;
    }
    BuildJobsSucceeds(e, cs, UserIndex(infos), ActivityIndex(activities), newJobId);
    assert EnqueueJobs(q, e, activities, cs, infos, newJobId, exec).batch.Some?;
    assert Enqueue(store, users, q, e, activities, cs, newJobId, faults, exec).batch.Some?;
    assert ExecuteForCheckIns(store, users, q, e, activities, newJobId, faults, exec).batch.Some?;
    assert ExecuteForEvent(store, users, q, e, activities, now, newJobId, faults, exec).batch.Some?;
  }

  /** The converse of the preconditions: the batch is handed to the queue
      exactly when `BatchReachable` holds, and the run then succeeds exactly
      when the batch encodes and the pipeline runs. */
  lemma BatchReachedIff(store: Store, users: Auth.UserStore, q: Queue, input: Input, now: Instant,
                        newJobId: nat -> Result<string>, faults: Faults, exec: ExecOutcome)
    ensures Execute(store, users, q, input, now, newJobId, faults, exec).batch.Some? <==>
      BatchReachable(store, users, input, now, newJobId, faults)
    ensures var r := Execute(store, users, q, input, now, newJobId, faults, exec);
      r.batch.Some? ==> (r.result.Pass? <==> EncodeAll(r.batch.value).Ok? && exec.ExecOk?)
  {
    var r := Execute(store, users, q, input, now, newJobId, faults, exec);
    if r.batch.Some? {
      BatchReachedOnlyIf(store, users, q, input, now, newJobId, faults, exec);
    } else if BatchReachable(store, users, input, now, newJobId, faults) {
      BatchReachedIf(store, users, q, input, now, newJobId, faults, exec);
    }
  }
}

=== FILE: handlers.dfy ===
/** The HTTP handlers in front of the two central use cases, after
    internal/events/infra/http/handler/checkin_activity.go and
    internal/events/infra/http/handler/finish_event.go. Each runs its use
    case and turns an error into a status code by comparing the error's
    message with a fixed list; every other message is a 500.
 */
module Handlers {

  import opened Wrappers
  import opened Clock
  import opened Identity
  import opened CheckInEntity
  import opened EventsStore
  import opened CertificateQueue
  import Auth = UserAuthorization
  import CheckIn = CheckInActivity
  import Finish = FinishEvent

  const StatusCreated := 201
  const StatusAccepted := 202
  const StatusBadRequest := 400
  const StatusForbidden := 403
  const StatusNotFound := 404
  const StatusInternalServerError := 500

  const JobsEnqueued := "certificate jobs enqueued"

  /** The JSON bodies the handlers write: `lib.ErrorResponse`,
      `CheckInActivityResponse`, and the one-entry message map. */
  datatype Body =
    | ErrorBody(error: string)
    | CheckInBody(id: string, userId: string, activityId: string, checkedAt: Instant)
    | MessageBody(message: string)

  datatype Response = Response(status: int, body: Body)

  // ------------------------------------------------------------ check-in

  /** The status the check-in handler gives an error message. */
  function CheckInStatus(err: string): (code: int)
    ensures code == StatusNotFound <==> err == CheckIn.ErrActivityNotFound
    ensures code == StatusBadRequest <==> err == CheckIn.ErrAlreadyCheckedIn || err == CheckIn.ErrOutsideActivityTime
    ensures code == StatusInternalServerError <==>
      err !in [CheckIn.ErrActivityNotFound, CheckIn.ErrAlreadyCheckedIn, CheckIn.ErrOutsideActivityTime]
  {
    if err == CheckIn.ErrActivityNotFound then StatusNotFound
    else if err == CheckIn.ErrAlreadyCheckedIn || err == CheckIn.ErrOutsideActivityTime then StatusBadRequest
    else StatusInternalServerError
  }

  /** `CheckInActivityHandler.Handle`: the response and the store afterwards. */
  function HandleCheckIn(store: Store, userId: string, activityId: string, now: Instant,
                         newId: Result<string>, faults: CheckIn.Faults): (r: (Response, Store))
    ensures r.1 == CheckIn.Execute(store, CheckIn.Input(userId, activityId), now, newId, faults).1
    ensures r.0.status == StatusCreated <==> CheckIn.Execute(store, CheckIn.Input(userId, activityId), now, newId, faults).0.Ok?
    ensures r.0.status == StatusCreated ==>
      r.0.body == CheckInBody(newId.value, userId, activityId, now)
    ensures r.0.status != StatusCreated ==>
      r.0.body == ErrorBody(CheckIn.Execute(store, CheckIn.Input(userId, activityId), now, newId, faults).0.msg)
  {
    var (result, after) := CheckIn.Execute(store, CheckIn.Input(userId, activityId), now, newId, faults);
    match result
    case Err(e) => (Response(CheckInStatus(e), ErrorBody(e)), after)
    case Ok(c) => (Response(StatusCreated, CheckInBody(c.id, c.userId, c.activityId, c.checkedAt)), after)
  }

  /** 201 exactly when the use case admits the check-in. */
  lemma CheckInCreatedIff(store: Store, userId: string, activityId: string, now: Instant,
                          newId: Result<string>, faults: CheckIn.Faults)
    ensures HandleCheckIn(store, userId, activityId, now, newId, faults).0.status == StatusCreated <==>
      && faults == CheckIn.NoFaults && newId.Ok?
      && FindActivity(store.activities, activityId).Some?
      && FindCheckIn(store.checkIns, userId, activityId).None?
      && var a := FindActivity(store.activities, activityId).value;
         a.startDate <= now <= a.endDate
  {
    CheckIn.AdmittedIff(store, CheckIn.Input(userId, activityId), now, newId, faults);
  }

  /** A failing repository call or ID generator is a 500, never mistaken
      for a client error, because its message carries the use case's
      context. */
  lemma CheckInFaultsAreServerErrors(store: Store, userId: string, activityId: string, now: Instant,
                                     newId: Result<string>, faults: CheckIn.Faults)
    requires faults.findActivity.Some?
      || (FindActivity(store.activities, activityId).Some? && faults.findExisting.Some?)
    ensures HandleCheckIn(store, userId, activityId, now, newId, faults).0.status == StatusInternalServerError
  {
    var r := CheckIn.Execute(store, CheckIn.Input(userId, activityId), now, newId, faults).0;
    var known := [CheckIn.ErrActivityNotFound, CheckIn.ErrAlreadyCheckedIn, CheckIn.ErrOutsideActivityTime];
    if faults.findActivity.Some? {
      var ctx := "failed to find activity";
      WrapDiffers(ctx, faults.findActivity.value, known[0]);
      WrapDiffers(ctx, faults.findActivity.value, known[1]);
      WrapDiffers(ctx, faults.findActivity.value, known[2]);
    } else {
      var ctx := "failed to check existing check-in";
      WrapDiffers(ctx, faults.findExisting.value, known[0]);
      WrapDiffers(ctx, faults.findExisting.value, known[1]);
      WrapDiffers(ctx, faults.findExisting.value, known[2]);
    }
  }

  /** A second check-in for the same pair is a 400. */
  lemma RepeatCheckInIsBadRequest(store: Store, userId: string, activityId: string, now: Instant, later: Instant,
                                  id1: Result<string>, id2: Result<string>, faults: CheckIn.Faults)
    requires HandleCheckIn(store, userId, activityId, now, id1, CheckIn.NoFaults).0.status == StatusCreated
    requires faults.findActivity.None? && faults.findExisting.None?
    ensures var after := HandleCheckIn(store, userId, activityId, now, id1, CheckIn.NoFaults).1;
      HandleCheckIn(after, userId, activityId, later, id2, faults).0
        == Response(StatusBadRequest, ErrorBody(CheckIn.ErrAlreadyCheckedIn))
  {
    CheckIn.SecondCheckInRejected(store, CheckIn.Input(userId, activityId), now, later, id1, id2, faults);
  }

  // --------------------------------------------------------- finish event

  /** The status the finish-event handler gives an error message. */
  function FinishStatus(err: string): (code: int)
    ensures code == StatusNotFound <==> err == Finish.ErrUserNotFound || err == Finish.ErrEventNotFound
    ensures code == StatusForbidden <==> err == Finish.ErrNotAdmin
    ensures code == StatusBadRequest <==>
      err == Finish.ErrActivityNotEnded || err == Finish.ErrNoActivities || err == Finish.ErrNoCheckIns
    ensures code == StatusInternalServerError <==>
      err !in [Finish.ErrUserNotFound, Finish.ErrEventNotFound, Finish.ErrNotAdmin,
               Finish.ErrActivityNotEnded, Finish.ErrNoActivities, Finish.ErrNoCheckIns]
  {
    if err == Finish.ErrUserNotFound || err == Finish.ErrEventNotFound then StatusNotFound
    else if err == Finish.ErrNotAdmin then StatusForbidden
    else if err == Finish.ErrActivityNotEnded || err == Finish.ErrNoActivities || err == Finish.ErrNoCheckIns then
      StatusBadRequest
    else StatusInternalServerError
  }

  /** `FinishEventHandler.Handle`: the response and the queue afterwards. */
  function HandleFinish(store: Store, users: Auth.UserStore, q: Queue, eventId: string, userId: string,
                        now: Instant, newJobId: nat -> Result<string>, faults: Finish.Faults,
                        exec: ExecOutcome): (r: (Response, Queue))
    ensures var run := Finish.Execute(store, users, q, Finish.Input(eventId, userId), now, newJobId, faults, exec);
      && r.1 == run.queue
      && (r.0.status == StatusAccepted <==> run.result.Pass?)
      && (run.result.Pass? ==> r.0.body == MessageBody(JobsEnqueued))
      && (run.result.Fail? ==> r.0 == Response(FinishStatus(run.result.msg), ErrorBody(run.result.msg)))
  {
    var run := Finish.Execute(store, users, q, Finish.Input(eventId, userId), now, newJobId, faults, exec);
    match run.result
    case Pass => (Response(StatusAccepted, MessageBody(JobsEnqueued)), run.queue)
    case Fail(e) => (Response(FinishStatus(e), ErrorBody(e)), run.queue)
  }

  /** The caller decides the first answer: a failed user look-up is a 500,
      an unknown user a 404, a user who is not an admin a 403; the queue is
      untouched in all three. */
  lemma FinishCallerStatus(store: Store, users: Auth.UserStore, q: Queue, eventId: string, userId: string,
                           now: Instant, newJobId: nat -> Result<string>, faults: Finish.Faults, exec: ExecOutcome)
    ensures var r := HandleFinish(store, users, q, eventId, userId, now, newJobId, faults, exec);
      && (faults.getUser.Some? ==> r.0.status == StatusInternalServerError && r.1 == q)
      && (faults.getUser.None? && Auth.FindUser(users, userId).None? ==> r.0.status == StatusNotFound && r.1 == q)
      && (faults.getUser.None? && Auth.FindUser(users, userId).Some? && !IsAdmin(Auth.FindUser(users, userId).value) ==>
            r.0.status == StatusForbidden && r.1 == q)
  {
    if faults.getUser.Some? {
      var ctx := "failed to get user by ID";
      var e := faults.getUser.value;
      WrapDiffers(ctx, e, Finish.ErrUserNotFound);
      WrapDiffers(ctx, e, Finish.ErrEventNotFound);
      WrapDiffers(ctx, e, Finish.ErrNotAdmin);
      WrapDiffers(ctx, e, Finish.ErrActivityNotEnded);
      WrapDiffers(ctx, e, Finish.ErrNoActivities);
      WrapDiffers(ctx, e, Finish.ErrNoCheckIns);
    }
  }

  /** Asking too early is a client error and enqueues nothing. */
  lemma FinishTooEarlyIsBadRequest(store: Store, users: Auth.UserStore, q: Queue, eventId: string, userId: string,
                                   now: Instant, newJobId: nat -> Result<string>, faults: Finish.Faults,
                                   exec: ExecOutcome)
    requires faults.getUser.None? && faults.findEvent.None? && faults.findActivities.None?
    requires Auth.FindUser(users, userId).Some? && IsAdmin(Auth.FindUser(users, userId).value)
    requires FindEvent(store.events, eventId).Some?
    requires var activities := ActivitiesOfEvent(store.activities, eventId);
      |activities| > 0 && exists i :: 0 <= i < |activities| && !ActivityEntity.HasEnded(activities[i], now)
    ensures HandleFinish(store, users, q, eventId, userId, now, newJobId, faults, exec)
      == (Response(StatusBadRequest, ErrorBody(Finish.ErrActivityNotEnded)), q)
  {
    Finish.UnendedActivityStops(store, users, q, Finish.Input(eventId, userId), now, newJobId, faults, exec);
  }
}

=== FILE: identity.dfy ===
/** Users and sessions, after internal/identity/domain/entity/user.go and
    internal/identity/domain/entity/session.go. The older copies,
    internal/identity/domain/user.go and internal/identity/domain/session.go,
    differ only in their serialisation tags and are modelled by the same
    definitions.
 */
module Identity {

  import opened Wrappers
  import opened Clock

  /** A role is stored as free text; two values are named. */
  type Role = string
  const RoleAdmin: Role := "admin"
  const RoleUser: Role := "user"

  datatype User = User(
    id: string,
    firstName: string,
    lastName: string,
    email: string,
    role: Role,
    createdAt: Instant,
    updatedAt: Option<Instant>)

  datatype NewUserParams = NewUserParams(id: string, firstName: string, lastName: string, email: string)

  /** `NewUser`, with the clock reading `now` as a parameter. */
  function NewUser(params: NewUserParams, now: Instant): (u: User)
    ensures u.id == params.id && u.firstName == params.firstName
    ensures u.lastName == params.lastName && u.email == params.email
    ensures u.role == RoleUser && u.createdAt == now && u.updatedAt == None
    ensures !IsAdmin(u)
  {
    User(params.id, params.firstName, params.lastName, params.email, RoleUser, now, None)
  }

  predicate IsAdmin(u: User) {
    u.role == RoleAdmin
  }

  /** `PromoteToAdmin`: the role becomes admin and the update time is
      stamped; nothing else changes. */
  function PromoteToAdmin(u: User, now: Instant): (p: User)
    ensures IsAdmin(p)
    ensures p.role == RoleAdmin && p.updatedAt == Some(now)
    ensures p.id == u.id && p.firstName == u.firstName && p.lastName == u.lastName
    ensures p.email == u.email && p.createdAt == u.createdAt
  {
    u.(role := RoleAdmin, updatedAt := Some(now))
  }

  /** Promoting twice is promoting once, up to the update time. */
  lemma PromoteIdempotent(u: User, t1: Instant, t2: Instant)
    ensures PromoteToAdmin(PromoteToAdmin(u, t1), t2) == PromoteToAdmin(u, t2)
  {
  }

  datatype Session = Session(
    id: string,
    userId: string,
    refreshToken: string,
    ipAddress: string,
    userAgent: string,
    expiresAt: Instant,
    createdAt: Instant)

  /** `NewSession`, with the clock reading `now` as a parameter. */
  function NewSession(id: string, userId: string, refreshToken: string, ipAddress: string,
                      userAgent: string, expiresAt: Instant, now: Instant): (s: Session)
    ensures s.id == id && s.userId == userId && s.refreshToken == refreshToken
    ensures s.ipAddress == ipAddress && s.userAgent == userAgent && s.expiresAt == expiresAt
    ensures s.createdAt == now
  {
    Session(id, userId, refreshToken, ipAddress, userAgent, expiresAt, now)
  }

  /** `IsExpired`: the expiry instant lies strictly before `now`. */
  predicate IsExpired(s: Session, now: Instant) {
    Before(s.expiresAt, now)
  }

  /** A session is still valid at its expiry instant, and once expired it
      stays expired. */
  lemma ExpiryMonotone(s: Session, now: Instant, later: Instant)
    requires now <= later
    ensures !IsExpired(s, s.expiresAt)
    ensures IsExpired(s, now) ==> IsExpired(s, later)
  {
  }
}

=== FILE: job_codec.dfy ===
/** The JSON form of a certificate job, as `encoding/json` writes and reads
    it for the queue payload (internal/events/infra/queue/redis_certificate_queue.go).

    A payload is modelled as a JSON value tree; the character-level syntax is
    not modelled. A timestamp is a JSON string holding its RFC 3339 text. The
    object keys are the struct tags of internal/events/domain/queue/certificate_job.go,
    plus `checked_at` for the check-in instant.
 */
module JobCodec {

  import opened Wrappers
  import opened Clock
  import opened CertificateJobs
  import Rfc3339

  datatype Json =
    | JNull
    | JBool(b: bool)
    | JNum(n: int)
    | JStr(s: string)
    | JArr(items: seq<Json>)
    | JObj(fields: seq<(string, Json)>)

  const TimeRangeError := "json: error calling MarshalJSON for type time.Time: Time.MarshalJSON: year outside of range [0,9999]"

  // --------------------------------------------------------------- encoding

  function EncodeEventInfo(e: EventInfo): Json {
    JObj([("event_id", JStr(e.eventId)), ("event_name", JStr(e.eventName))])
  }

  function EncodeUserInfo(u: UserInfo): Json {
    JObj([("user_id", JStr(u.userId)), ("user_name", JStr(u.userName)), ("user_email", JStr(u.userEmail))])
  }

  function EncodeActivityInfo(a: ActivityInfo): Json
    requires Encodable(a.activityDate) && Encodable(a.startTime) && Encodable(a.endTime)
  {
    JObj([("activity_id", JStr(a.activityId)), ("activity_name", JStr(a.activityName)),
          ("activity_date", TimeValue(a.activityDate)), ("activity_start_date", TimeValue(a.startTime)),
          ("activity_end_date", TimeValue(a.endTime))])
  }

  /** `Time.MarshalJSON` of an instant it can write: the RFC 3339 text as a
      JSON string. */
  function TimeValue(t: Instant): Json
    requires Encodable(t)
  {
    JStr(Rfc3339.Format(t))
  }

  /** Every timestamp of the job can be written. */
  predicate JobEncodable(j: CertificateJob) {
    && Encodable(j.activityInfo.activityDate)
    && Encodable(j.activityInfo.startTime)
    && Encodable(j.activityInfo.endTime)
    && Encodable(j.checkedAt)
  }

  /** `json.Marshal(job)`: fails exactly when a timestamp lies outside the
      years 0 to 9999. */
  function Encode(j: CertificateJob): (r: Result<Json>)
    ensures r.Ok? <==> JobEncodable(j)
    ensures r.Ok? ==> r.value.JObj? && |r.value.fields| == 5
  {
    if !JobEncodable(j) then Err(TimeRangeError)
    else Ok(JObj([("job_id", JStr(j.jobId)),
                  ("event_info", EncodeEventInfo(j.eventInfo)),
                  ("user_info", EncodeUserInfo(j.userInfo)),
                  ("activity_info", EncodeActivityInfo(j.activityInfo)),
                  ("checked_at", TimeValue(j.checkedAt))]))
  }

  // --------------------------------------------------------------- decoding

  function KindName(v: Json): string {
    match v
    case JNull => "null"
    case JBool(_) => "bool"
    case JNum(_) => "number"
    case JStr(_) => "string"
    case JArr(_) => "array"
    case JObj(_) => "object"
  }

  function TypeError(v: Json, field: string): string {
    "json: cannot unmarshal " + KindName(v) + " into Go struct field " + field
  }

  /** Decoding one value into a string field that already holds `current`: null
      leaves it alone, a string replaces it, anything else is an error. */
  function IntoString(current: string, v: Json, field: string): (r: Result<string>)
    ensures v.JNull? ==> r == Ok(current)
    ensures v.JStr? ==> r == Ok(v.s)
    ensures r.Ok? ==> v.JNull? || v.JStr?
  {
    match v
    case JNull => Ok(current)
    case JStr(s) => Ok(s)
    case _ => Err(TypeError(v, field))
  }

  const NotJsonString := "Time.UnmarshalJSON: input is not a JSON string"

  /** The same for a `time.Time` field, which decodes itself: null leaves it
      alone, a string is read as RFC 3339 text (by the strict reader, and
      failing that by `time.Parse` with the RFC 3339 layout), and any other
      value is refused by `Time.UnmarshalJSON`. */
  function IntoTime(current: Instant, v: Json, field: string): (r: Result<Instant>)
    ensures v.JNull? ==> r == Ok(current)
    ensures v.JStr? && Rfc3339.Parse(v.s).Some? ==> r == Ok(Rfc3339.Parse(v.s).value)
    ensures v.JStr? && Rfc3339.DecodeTime(v.s).Some? ==> r == Ok(Rfc3339.DecodeTime(v.s).value)
    ensures r.Ok? ==> v.JNull? || (v.JStr? && Rfc3339.DecodeTime(v.s).Some?)
  {
    match v
    case JNull => Ok(current)
    case JStr(text) =>
      (match Rfc3339.DecodeTime(text)
       case Some(t) => Ok(t)
       case None => Err("parsing time \"" + text + "\" as \"2006-01-02T15:04:05Z07:00\""))
    case _ => Err(NotJsonString)
  }

  /** Decoding into a struct walks the object's members in order, each one
      updating the field whose tag matches; unknown keys are skipped, so a
      repeated key is applied twice and the later one wins (or, for a nested
      object, merges into what the earlier one left). */
  function EventInfoField(e: EventInfo, key: string, v: Json): Result<EventInfo> {
    if key == "event_id" then
      match IntoString(e.eventId, v, "event_info.event_id")
      case Err(m) => Err(m)
      case Ok(s) => Ok(e.(eventId := s))
    else if key == "event_name" then
      match IntoString(e.eventName, v, "event_info.event_name")
      case Err(m) => Err(m)
      case Ok(s) => Ok(e.(eventName := s))
    else Ok(e)
  }

  function EventInfoFields(e: EventInfo, fs: seq<(string, Json)>): Result<EventInfo>
    decreases |fs|
  {
    if |fs| == 0 then Ok(e)
    else
      match EventInfoFields(e, fs[..|fs| - 1])
      case Err(m) => Err(m)
      case Ok(e') => EventInfoField(e', fs[|fs| - 1].0, fs[|fs| - 1].1)
  }

  function UserInfoField(u: UserInfo, key: string, v: Json): Result<UserInfo> {
    if key == "user_id" then
      match IntoString(u.userId, v, "user_info.user_id")
      case Err(m) => Err(m)
      case Ok(s) => Ok(u.(userId := s))
    else if key == "user_name" then
      match IntoString(u.userName, v, "user_info.user_name")
      case Err(m) => Err(m)
      case Ok(s) => Ok(u.(userName := s))
    else if key == "user_email" then
      match IntoString(u.userEmail, v, "user_info.user_email")
      case Err(m) => Err(m)
      case Ok(s) => Ok(u.(userEmail := s))
    else Ok(u)
  }

  function UserInfoFields(u: UserInfo, fs: seq<(string, Json)>): Result<UserInfo>
    decreases |fs|
  {
    if |fs| == 0 then Ok(u)
    else
      match UserInfoFields(u, fs[..|fs| - 1])
      case Err(m) => Err(m)
      case Ok(u') => UserInfoField(u', fs[|fs| - 1].0, fs[|fs| - 1].1)
  }

  function ActivityInfoField(a: ActivityInfo, key: string, v: Json): Result<ActivityInfo> {
    if key == "activity_id" then
      match IntoString(a.activityId, v, "activity_info.activity_id")
      case Err(m) => Err(m)
      case Ok(s) => Ok(a.(activityId := s))
    else if key == "activity_name" then
      match IntoString(a.activityName, v, "activity_info.activity_name")
      case Err(m) => Err(m)
      case Ok(s) => Ok(a.(activityName := s))
    else if key == "activity_date" then
      match IntoTime(a.activityDate, v, "activity_info.activity_date")
      case Err(m) => Err(m)
      case Ok(t) => Ok(a.(activityDate := t))
    else if key == "activity_start_date" then
      match IntoTime(a.startTime, v, "activity_info.activity_start_date")
      case Err(m) => Err(m)
      case Ok(t) => Ok(a.(startTime := t))
    else if key == "activity_end_date" then
      match IntoTime(a.endTime, v, "activity_info.activity_end_date")
      case Err(m) => Err(m)
      case Ok(t) => Ok(a.(endTime := t))
    else Ok(a)
  }

  function ActivityInfoFields(a: ActivityInfo, fs: seq<(string, Json)>): Result<ActivityInfo>
    decreases |fs|
  {
    if |fs| == 0 then Ok(a)
    else
      match ActivityInfoFields(a, fs[..|fs| - 1])
      case Err(m) => Err(m)
      case Ok(a') => ActivityInfoField(a', fs[|fs| - 1].0, fs[|fs| - 1].1)
  }

  /** A nested struct field: null leaves it alone, an object is merged in. */
  function IntoEventInfo(e: EventInfo, v: Json): Result<EventInfo> {
    match v
    case JNull => Ok(e)
    case JObj(fs) => EventInfoFields(e, fs)
    case _ => Err(TypeError(v, "event_info"))
  }

  function IntoUserInfo(u: UserInfo, v: Json): Result<UserInfo> {
    match v
    case JNull => Ok(u)
    case JObj(fs) => UserInfoFields(u, fs)
    case _ => Err(TypeError(v, "user_info"))
  }

  function IntoActivityInfo(a: ActivityInfo, v: Json): Result<ActivityInfo> {
    match v
    case JNull => Ok(a)
    case JObj(fs) => ActivityInfoFields(a, fs)
    case _ => Err(TypeError(v, "activity_info"))
  }

  function JobField(j: CertificateJob, key: string, v: Json): Result<CertificateJob> {
    if key == "job_id" then
      match IntoString(j.jobId, v, "job_id")
      case Err(m) => Err(m)
      case Ok(s) => Ok(j.(jobId := s))
    else if key == "event_info" then
      match IntoEventInfo(j.eventInfo, v)
      case Err(m) => Err(m)
      case Ok(e) => Ok(j.(eventInfo := e))
    else if key == "user_info" then
      match IntoUserInfo(j.userInfo, v)
      case Err(m) => Err(m)
      case Ok(u) => Ok(j.(userInfo := u))
    else if key == "activity_info" then
      match IntoActivityInfo(j.activityInfo, v)
      case Err(m) => Err(m)
      case Ok(a) => Ok(j.(activityInfo := a))
    else if key == "checked_at" then
      match IntoTime(j.checkedAt, v, "checked_at")
      case Err(m) => Err(m)
      case Ok(t) => Ok(j.(checkedAt := t))
    else Ok(j)
  }

  function JobFields(j: CertificateJob, fs: seq<(string, Json)>): Result<CertificateJob>
    decreases |fs|
  {
    if |fs| == 0 then Ok(j)
    else
      match JobFields(j, fs[..|fs| - 1])
      case Err(m) => Err(m)
      case Ok(j') => JobField(j', fs[|fs| - 1].0, fs[|fs| - 1].1)
  }

  /** `json.Unmarshal(payload, &job)` into a fresh (zero) job. */
  function Decode(payload: Json): (r: Result<CertificateJob>)
    ensures payload.JNull? ==> r == Ok(ZeroJob)
    ensures payload == JObj([]) ==> r == Ok(ZeroJob)
    ensures !payload.JNull? && !payload.JObj? ==> r.Err?
  {
    match payload
    case JNull => Ok(ZeroJob)
    case JObj(fs) => JobFields(ZeroJob, fs)
    case _ => Err("json: cannot unmarshal " + KindName(payload) + " into Go value of type queue.CertificateJob")
  }

  // ------------------------------------------------------------- properties

  predicate KnownJobKey(k: string) {
    k in {"job_id", "event_info", "user_info", "activity_info", "checked_at"}
  }

  /** A member whose key is not one of the job's tags changes nothing,
      wherever it appears: decoding tolerates unknown fields. */
  lemma {:induction false} UnknownFieldIgnored(j: CertificateJob, a: seq<(string, Json)>, k: string, v: Json, b: seq<(string, Json)>)
    requires !KnownJobKey(k)
    ensures JobFields(j, a + [(k, v)] + b) == JobFields(j, a + b)
    decreases |b|
  {
    if |b| == 0 {
      assert a + [(k, v)] + b == a + [(k, v)];
      assert (a + [(k, v)])[..|a|] == a;
      assert a + b == a;
    } else {
      var last := b[|b| - 1];
      var b' := b[..|b| - 1];
      UnknownFieldIgnored(j, a, k, v, b');
      assert (a + [(k, v)] + b)[..|a + [(k, v)] + b| - 1] == a + [(k, v)] + b';
      assert (a + b)[..|a + b| - 1] == a + b';
      assert (a + [(k, v)] + b)[|a + [(k, v)] + b| - 1] == last;
      assert (a + b)[|a + b| - 1] == last;
    }
  }

  /** A timestamp field reads a string exactly as `time.Parse` with the
      RFC 3339 layout does. */
  lemma IntoTimeReadsLayout(current: Instant, v: Json, field: string)
    ensures v.JStr? && Rfc3339.ParseLayout(v.s).Some? ==>
      IntoTime(current, v, field) == Ok(Rfc3339.ParseLayout(v.s).value)
    ensures IntoTime(current, v, field).Ok? ==> v.JNull? || (v.JStr? && Rfc3339.ParseLayout(v.s).Some?)
  {
    if v.JStr? {
      Rfc3339.DecodeTimeIsLayout(v.s);
    }
  }

  /** A written timestamp reads back as itself. */
  lemma TimeRoundTrip(current: Instant, t: Instant, field: string)
    requires Encodable(t)
    ensures IntoTime(current, TimeValue(t), field) == Ok(t)
  {
    Rfc3339.ParseFormat(t);
  }

  lemma EventInfoRoundTrip(e: EventInfo)
    ensures IntoEventInfo(ZeroEventInfo, EncodeEventInfo(e)) == Ok(e)
  {
    var fs := EncodeEventInfo(e).fields;
    assert fs[..1][..0] == [];
    assert EventInfoFields(ZeroEventInfo, fs[..1]) == Ok(EventInfo(e.eventId, ""));
    assert fs[..2][..1] == fs[..1];
    assert fs[..2] == fs;
  }

  lemma UserInfoRoundTrip(u: UserInfo)
    ensures IntoUserInfo(ZeroUserInfo, EncodeUserInfo(u)) == Ok(u)
  {
    var fs := EncodeUserInfo(u).fields;
    assert fs[..1][..0] == [];
    assert UserInfoFields(ZeroUserInfo, fs[..1]) == Ok(UserInfo(u.userId, "", ""));
    assert fs[..2][..1] == fs[..1];
    assert UserInfoFields(ZeroUserInfo, fs[..2]) == Ok(UserInfo(u.userId, u.userName, ""));
    assert fs[..3][..2] == fs[..2];
    assert fs[..3] == fs;
  }

  lemma ActivityInfoRoundTrip(a: ActivityInfo)
    requires Encodable(a.activityDate) && Encodable(a.startTime) && Encodable(a.endTime)
    ensures IntoActivityInfo(ZeroActivityInfo, EncodeActivityInfo(a)) == Ok(a)
  {
    var z := ZeroActivityInfo;
    TimeRoundTrip(z.activityDate, a.activityDate, "activity_info.activity_date");
    TimeRoundTrip(z.startTime, a.startTime, "activity_info.activity_start_date");
    TimeRoundTrip(z.endTime, a.endTime, "activity_info.activity_end_date");
    ActivityMembersDecode(a, TimeValue(a.activityDate), TimeValue(a.startTime), TimeValue(a.endTime));
  }

  /** The five members of an encoded activity decode to it, whatever values
      stand for its three timestamps, as long as each of those decodes to
      its timestamp. */
  lemma ActivityMembersDecode(a: ActivityInfo, date: Json, start: Json, end: Json)
    requires IntoTime(ZeroActivityInfo.activityDate, date, "activity_info.activity_date") == Ok(a.activityDate)
    requires IntoTime(ZeroActivityInfo.startTime, start, "activity_info.activity_start_date") == Ok(a.startTime)
    requires IntoTime(ZeroActivityInfo.endTime, end, "activity_info.activity_end_date") == Ok(a.endTime)
    ensures ActivityInfoFields(ZeroActivityInfo,
              [("activity_id", JStr(a.activityId)), ("activity_name", JStr(a.activityName)),
               ("activity_date", date), ("activity_start_date", start), ("activity_end_date", end)]) == Ok(a)
  {
    var fs := [("activity_id", JStr(a.activityId)), ("activity_name", JStr(a.activityName)),
               ("activity_date", date), ("activity_start_date", start), ("activity_end_date", end)];
    var z := ZeroActivityInfo;
    assert fs[..1][..0] == [];
    assert ActivityInfoFields(z, fs[..1]) == Ok(z.(activityId := a.activityId));
    assert fs[..2][..1] == fs[..1];
    assert ActivityInfoFields(z, fs[..2]) == Ok(z.(activityId := a.activityId, activityName := a.activityName));
    assert fs[..3][..2] == fs[..2];
    assert ActivityInfoFields(z, fs[..3])
        == Ok(z.(activityId := a.activityId, activityName := a.activityName, activityDate := a.activityDate));
    assert fs[..4][..3] == fs[..3];
    assert ActivityInfoFields(z, fs[..4])
        == Ok(z.(activityId := a.activityId, activityName := a.activityName, activityDate := a.activityDate,
                 startTime := a.startTime));
    assert fs[..5][..4] == fs[..4];
    assert fs[..5] == fs;
  }

  /** What the queue writes it reads back unchanged: decoding an encoded job
      gives the job itself. */
  lemma RoundTrip(j: CertificateJob)
    requires JobEncodable(j)
    ensures Decode(Encode(j).value) == Ok(j)
  {
    ActivityInfoRoundTrip(j.activityInfo);
    TimeRoundTrip(ZeroJob.checkedAt, j.checkedAt, "checked_at");
    JobMembersDecode(j, EncodeActivityInfo(j.activityInfo), TimeValue(j.checkedAt));
  }

  /** The five members of an encoded job decode to it, whatever values stand
      for its activity and check-in instant, as long as those decode to
      them. */
  lemma JobMembersDecode(j: CertificateJob, activity: Json, checkedAt: Json)
    requires IntoActivityInfo(ZeroActivityInfo, activity) == Ok(j.activityInfo)
    requires IntoTime(ZeroJob.checkedAt, checkedAt, "checked_at") == Ok(j.checkedAt)
    ensures JobFields(ZeroJob, [("job_id", JStr(j.jobId)), ("event_info", EncodeEventInfo(j.eventInfo)),
                                ("user_info", EncodeUserInfo(j.userInfo)), ("activity_info", activity),
                                ("checked_at", checkedAt)]) == Ok(j)
  {
    var fs := [("job_id", JStr(j.jobId)), ("event_info", EncodeEventInfo(j.eventInfo)),
               ("user_info", EncodeUserInfo(j.userInfo)), ("activity_info", activity),
               ("checked_at", checkedAt)];
    var z := ZeroJob;
    EventInfoRoundTrip(j.eventInfo);
    UserInfoRoundTrip(j.userInfo);
    assert fs[..1][..0] == [];
    assert JobFields(z, fs[..1]) == Ok(z.(jobId := j.jobId));
    assert fs[..2][..1] == fs[..1];
    assert JobFields(z, fs[..2]) == Ok(z.(jobId := j.jobId, eventInfo := j.eventInfo));
    assert fs[..3][..2] == fs[..2];
    assert JobFields(z, fs[..3]) == Ok(z.(jobId := j.jobId, eventInfo := j.eventInfo, userInfo := j.userInfo));
    assert fs[..4][..3] == fs[..3];
    assert JobFields(z, fs[..4])
        == Ok(z.(jobId := j.jobId, eventInfo := j.eventInfo, userInfo := j.userInfo, activityInfo := j.activityInfo));
    assert fs[..5][..4] == fs[..4];
    assert fs[..5] == fs;
  }

  /** Encoding is injective on writable jobs: two payloads are equal only for
      equal jobs. */
  lemma EncodeInjective(j1: CertificateJob, j2: CertificateJob)
    requires JobEncodable(j1) && JobEncodable(j2)
    requires Encode(j1) == Encode(j2)
    ensures j1 == j2
  {
    RoundTrip(j1);
    RoundTrip(j2);
  }
}

=== FILE: legacy_event.dfy ===
/** The older Event record and constructor, after
    internal/events/domain/event.go. It has no status, and its constructor
    dereferences the allowed-domains list (`*[]string`) unconditionally.
 */
module LegacyEvent {

  import opened Wrappers
  import opened Clock

  datatype Event = Event(
    id: string,
    name: string,
    allowedDomains: seq<string>,
    description: Option<string>,
    startDate: Instant,
    endDate: Instant,
    createdAt: Instant,
    updatedAt: Option<Instant>)

  datatype NewEventParams = NewEventParams(
    name: string,
    allowedDomains: Option<seq<string>>,
    description: Option<string>,
    startDate: Instant,
    endDate: Instant)

  const NilDereference := "runtime error: invalid memory address or nil pointer dereference"

  /** `NewEvent`: an ID failure is an error; otherwise the event is built, and
      building it dereferences `AllowedDomains`, which panics when it is nil. */
  function NewEvent(params: NewEventParams, newId: Result<string>, now: Instant): (r: Call<Result<Event>>)
    ensures newId.Err? ==> r == Returned(Err(Wrap("failed to generate event ID", newId.msg)))
    ensures newId.Ok? && params.allowedDomains.None? ==> r.Panicked?
    ensures newId.Ok? && params.allowedDomains.Some? ==>
      r == Returned(Ok(Event(newId.value, params.name, params.allowedDomains.value,
                             params.description, params.startDate, params.endDate, now, None)))
  {
    match newId
    case Err(e) => Returned(Err(Wrap("failed to generate event ID", e)))
    case Ok(id) =>
      match params.allowedDomains
      case None => Panicked(NilDereference)
      case Some(ds) =>
        Returned(Ok(Event(id, params.name, ds, params.description,
                          params.startDate, params.endDate, now, None)))
  }
}

=== FILE: postal_code.dfy ===
/** Brazilian postal code (CEP) check, after
    internal/shared/lib/validate_brazil_postal_code.go: eight digits, optionally
    written with a hyphen and surrounding white space, not all the same digit.
 */
module PostalCode {

  import opened Wrappers
  import opened Text

  /** `BrazilPostalCodeValidationResult` (`None` for a nil cleaned code). */
  datatype PostalCodeResult = PostalCodeResult(valid: bool, cleaned: Option<string>)

  /** `strings.TrimSpace`, then `strings.ReplaceAll(_, "-", "")`. */
  function Clean(postalCode: string): string {
    RemoveAll(TrimSpace(postalCode), '-')
  }

  /** What `^(\d)\1{7}$` is meant to match: one digit eight times. */
  predicate RepeatedDigit(s: string) {
    |s| == 8 && IsDigit(s[0]) && forall i :: 0 <= i < |s| ==> s[i] == s[0]
  }

  /** Reference definition of an acceptable cleaned code. */
  predicate IsPostalCode(s: string) {
    |s| == 8 && AllDigits(s) && !RepeatedDigit(s)
  }

  /** `ValidateBrazilPostalCode`, with the repeated-digit pattern given the
      meaning its comment states (see the finding in README). Unlike the CPF
      validator, every rejection carries no cleaned code. */
  function ValidateBrazilPostalCode(postalCode: string): (r: PostalCodeResult)
    ensures r.valid <==> IsPostalCode(Clean(postalCode))
    ensures r.valid ==> r.cleaned == Some(Clean(postalCode))
    ensures !r.valid ==> r.cleaned == None
    ensures r.cleaned.Some? ==>
      |r.cleaned.value| == 8 && AllDigits(r.cleaned.value) && '-' !in r.cleaned.value
  {
    Verdict(Clean(postalCode))
  }

  /** The checks, in this order, on the cleaned text. */
  function Verdict(c: string): (r: PostalCodeResult)
    ensures r.valid <==> IsPostalCode(c)
    ensures r.valid ==> r.cleaned == Some(c)
    ensures !r.valid ==> r.cleaned == None
  {
    if |c| != 8 then PostalCodeResult(false, None)
    else if !AllDigits(c) then PostalCodeResult(false, None)
    else if RepeatedDigit(c) then PostalCodeResult(false, None)
    else PostalCodeResult(true, Some(c))
  }

  /** Surrounding white space and a hyphen between two runs of digits do not
      change the verdict. */
  lemma PaddingAndHyphenIgnored(lead: string, a: string, b: string, trail: string)
    requires AllSpace(lead) && AllSpace(trail)
    requires |a| > 0 && |b| > 0 && AllDigits(a) && AllDigits(b)
    ensures ValidateBrazilPostalCode(lead + a + "-" + b + trail) == ValidateBrazilPostalCode(a + b)
  {
    var x := lead + a + "-" + b + trail;
    var c := a + b;
    CleanHyphenated(lead, a, b, trail);
    DigitsAppend(a, b);
    CleanDigits(c);
    ValidateIsVerdict(x);
    ValidateIsVerdict(c);
  }

  lemma ValidateIsVerdict(s: string)
    ensures ValidateBrazilPostalCode(s) == Verdict(Clean(s))
  {
  }

  lemma CleanHyphenated(lead: string, a: string, b: string, trail: string)
    requires AllSpace(lead) && AllSpace(trail)
    requires |a| > 0 && |b| > 0 && AllDigits(a) && AllDigits(b)
    ensures Clean(lead + a + "-" + b + trail) == a + b
  {
    TrimHyphenated(lead, a, b, trail);
    RemoveHyphen(a, b);
  }

  lemma CleanDigits(s: string)
    requires |s| > 0 && AllDigits(s)
    ensures Clean(s) == s
  {
    TrimDigits(s);
    NoHyphen(s);
  }

  lemma DigitsAppend(a: string, b: string)
    requires AllDigits(a) && AllDigits(b)
    ensures AllDigits(a + b)
  {
  }

  lemma TrimHyphenated(lead: string, a: string, b: string, trail: string)
    requires AllSpace(lead) && AllSpace(trail)
    requires |a| > 0 && |b| > 0 && AllDigits(a) && AllDigits(b)
    ensures TrimSpace(lead + a + "-" + b + trail) == a + "-" + b
  {
    var mid := a + "-" + b;
    assert IsDigit(a[0]) && IsDigit(b[|b| - 1]);
    assert mid[0] == a[0] && mid[|mid| - 1] == b[|b| - 1];
    assert lead + a + "-" + b + trail == lead + mid + trail;
    TrimSpacePadded(lead, mid, trail);
  }

  lemma TrimDigits(s: string)
    requires |s| > 0 && AllDigits(s)
    ensures TrimSpace(s) == s
  {
    assert IsDigit(s[0]) && IsDigit(s[|s| - 1]);
    assert "" + s + "" == s;
    TrimSpacePadded("", s, "");
  }

  lemma RemoveHyphen(a: string, b: string)
    requires AllDigits(a) && AllDigits(b)
    ensures RemoveAll(a + "-" + b, '-') == a + b
  {
    NoHyphen(a);
    NoHyphen(b);
    RemoveAllAppend(a + "-", b, '-');
    RemoveAllAppend(a, "-", '-');
  }

  lemma NoHyphen(s: string)
    requires AllDigits(s)
    ensures RemoveAll(s, '-') == s
  {
    assert '-' !in s by {
      forall i | 0 <= i < |s| ensures s[i] != '-' {
        assert IsDigit(s[i]);
      }
    }
    RemoveAllAbsent(s, '-');
  }

  /** White space inside the code survives cleaning, so it is rejected. */
  lemma InnerSpaceRejected(a: string, b: string)
    requires |a| > 0 && |b| > 0 && AllDigits(a) && AllDigits(b)
    ensures ValidateBrazilPostalCode(a + " " + b) == PostalCodeResult(false, None)
  {
    var s := a + " " + b;
    var c := Clean(s);
    CleanKeepsSpace(a, b);
    assert !AllDigits(c);
    ValidateIsVerdict(s);
  }

  lemma CleanKeepsSpace(a: string, b: string)
    requires |a| > 0 && |b| > 0 && AllDigits(a) && AllDigits(b)
    ensures ' ' in Clean(a + " " + b)
  {
    TrimInnerSpace(a, b);
    CleanTrimmed(a + " " + b);
    KeepsSpace(a, b);
  }

  lemma CleanTrimmed(s: string)
    requires TrimSpace(s) == s
    ensures Clean(s) == RemoveAll(s, '-')
  {
  }

  lemma TrimInnerSpace(a: string, b: string)
    requires |a| > 0 && |b| > 0 && AllDigits(a) && AllDigits(b)
    ensures TrimSpace(a + " " + b) == a + " " + b
  {
    var s := a + " " + b;
    assert s[0] == a[0] && IsDigit(a[0]) && s[|s| - 1] == b[|b| - 1] && IsDigit(b[|b| - 1]);
    assert "" + s + "" == s;
    TrimSpacePadded("", s, "");
  }

  lemma KeepsSpace(a: string, b: string)
    ensures ' ' in RemoveAll(a + " " + b, '-')
  {
    RemoveAllAppend(a + " ", b, '-');
    RemoveAllAppend(a, " ", '-');
    var c := RemoveAll(a + " " + b, '-');
    assert RemoveAll(" ", '-') == " ";
    assert c == RemoveAll(a, '-') + " " + RemoveAll(b, '-');
    assert c[|RemoveAll(a, '-')|] == ' ';
  }

  // ------------------------------------------------------ as written (finding)

  const RepeatPatternPanic := "regexp: Compile(`^(\\d)\\1{7}$`): error parsing regexp: invalid escape sequence: `\\1`"

  /** The validator as written: the pattern is compiled in a package-level
      `var` initialiser, so the panic happens when package `lib` is
      initialised, before any call; no input returns. */
  function ValidateBrazilPostalCodeAsWritten(postalCode: string): (r: Call<PostalCodeResult>)
    ensures r.Panicked?
  {
    Panicked(RepeatPatternPanic)
  }

  /** The discrepancy on a concrete input. */
  lemma AsWrittenPanicsOnValidCode()
    ensures ValidateBrazilPostalCodeAsWritten("01310-100").Panicked?
    ensures ValidateBrazilPostalCode("01310-100") == PostalCodeResult(true, Some("01310100"))
  {
    ExampleClean();
    ExampleVerdict();
  }

  lemma ExampleClean()
    ensures Clean("01310-100") == "01310100"
  {
    HyphenatedExample("01310", "100", "01310-100", "01310100");
  }

  lemma HyphenatedExample(a: string, b: string, s: string, c: string)
    requires |a| > 0 && |b| > 0 && AllDigits(a) && AllDigits(b)
    requires s == a + "-" + b && c == a + b
    ensures Clean(s) == c
  {
    TrimDigitsHyphen(a, b);
    RemoveHyphen(a, b);
  }

  lemma TrimDigitsHyphen(a: string, b: string)
    requires |a| > 0 && |b| > 0 && AllDigits(a) && AllDigits(b)
    ensures TrimSpace(a + "-" + b) == a + "-" + b
  {
    TrimHyphenated("", a, b, "");
    assert "" + a + "-" + b + "" == a + "-" + b;
  }

  lemma ExampleVerdict()
    ensures Verdict("01310100") == PostalCodeResult(true, Some("01310100"))
  {
    var c := "01310100";
    assert AllDigits(c);
    assert c[1] != c[0];
  }
}

=== FILE: refresh_token.dfy ===
/** Refresh-token rotation, after
    internal/identity/application/usecase/refresh_token/usecase.go and the
    older internal/identity/usecases/refresh-token.go. A refresh token names
    a session; a live session is replaced by a renewed one under a new token,
    and the caller receives a new access token with it. The older version
    ignores the errors of both session deletions.

    The session repository is a sequence of sessions; its `FindByRefreshToken`
    takes the first stored match, `Delete` removes every row with the ID and
    `Save` appends. One clock reading `now` serves the expiry test, the new
    session's creation time and the base of its expiry.
 */
module RefreshToken {

  import opened Wrappers
  import opened Clock
  import opened Identity
  import Auth = UserAuthorization

  const ErrInvalidRefreshToken := "invalid refresh token"
  const ErrSessionExpired := "session expired"

  type Sessions = seq<Session>

  datatype Input = Input(refreshToken: string, ipAddress: string, userAgent: string)

  datatype Output = Output(accessToken: string, refreshToken: string)

  /** What the token service and the ID generator hand back: the access
      token issued for a user ID and role, the next refresh token, the new
      session's ID, and the refresh-token lifetime. */
  datatype Oracles = Oracles(
    accessToken: (string, Role) -> Result<string>,
    refreshToken: Result<string>,
    sessionId: Result<string>,
    ttl: Duration)

  /** Which repository calls fail, and with what error. */
  datatype Faults = Faults(
    findSession: Option<string>,
    deleteSession: Option<string>,
    findUser: Option<string>,
    saveSession: Option<string>)

  const NoFaults := Faults(None, None, None, None)

  // ------------------------------------------------- session repository

  function FindByRefreshToken(sessions: Sessions, token: string): (r: Option<Session>)
    ensures r.Some? ==> r.value in sessions && r.value.refreshToken == token
    ensures r.None? <==> forall s :: s in sessions ==> s.refreshToken != token
  {
    if |sessions| == 0 then None
    else if sessions[0].refreshToken == token then Some(sessions[0])
    else FindByRefreshToken(sessions[1..], token)
  }

  function Delete(sessions: Sessions, id: string): (r: Sessions)
    ensures forall s :: s in r <==> s in sessions && s.id != id
    ensures |r| <= |sessions|
  {
    if |sessions| == 0 then []
    else (if sessions[0].id == id then [] else [sessions[0]]) + Delete(sessions[1..], id)
  }

  /** Every refresh token names at most one session. */
  predicate UniqueTokens(sessions: Sessions) {
    forall i, j :: 0 <= i < j < |sessions| ==> sessions[i].refreshToken != sessions[j].refreshToken
  }

  // -------------------------------------------------------- the use case

  /** The session that replaces `stale`. */
  function Rotated(stale: Session, user: User, input: Input, id: string, token: string, ttl: Duration,
                   now: Instant): (s: Session)
    ensures s.id == id && s.userId == user.id && s.refreshToken == token
    ensures s.expiresAt == now + ttl && s.createdAt == now
  {
    NewSession(id, user.id, token, input.ipAddress, input.userAgent, Add(now, ttl), now)
  }

  /** `Execute`: the result and the sessions afterwards. */
  function Execute(sessions: Sessions, users: Auth.UserStore, input: Input, now: Instant,
                   oracles: Oracles, faults: Faults): (r: (Result<Output>, Sessions))
    ensures faults.findSession.Some? ==> r == (Err(faults.findSession.value), sessions)
    ensures faults.findSession.None? && FindByRefreshToken(sessions, input.refreshToken).None? ==>
      r == (Err(ErrInvalidRefreshToken), sessions)
    ensures faults.findSession.None? && FindByRefreshToken(sessions, input.refreshToken).Some? ==>
      var stale := FindByRefreshToken(sessions, input.refreshToken).value;
      var user := Auth.FindUser(users, stale.userId);
      if IsExpired(stale, now) then
        if faults.deleteSession.Some? then r == (Err(faults.deleteSession.value), sessions)
        else r == (Err(ErrSessionExpired), Delete(sessions, stale.id))
      else if faults.findUser.Some? then r == (Err(faults.findUser.value), sessions)
      else if user.None? then r == (Err(ErrInvalidRefreshToken), sessions)
      else if oracles.accessToken(user.value.id, user.value.role).Err? then
        r == (Err(oracles.accessToken(user.value.id, user.value.role).msg), sessions)
      else if oracles.refreshToken.Err? then r == (Err(oracles.refreshToken.msg), sessions)
      else if oracles.sessionId.Err? then r == (Err(oracles.sessionId.msg), sessions)
      else if faults.deleteSession.Some? then r == (Err(faults.deleteSession.value), sessions)
      // the stale session is already gone when the new one fails to save
      else if faults.saveSession.Some? then r == (Err(faults.saveSession.value), Delete(sessions, stale.id))
      else
        && r.0 == Ok(Output(oracles.accessToken(user.value.id, user.value.role).value, oracles.refreshToken.value))
        && r.1 == Delete(sessions, stale.id)
                  + [Rotated(stale, user.value, input, oracles.sessionId.value, oracles.refreshToken.value, oracles.ttl, now)]
  {
    if faults.findSession.Some? then (Err(faults.findSession.value), sessions)
    else match FindByRefreshToken(sessions, input.refreshToken)
      case None => (Err(ErrInvalidRefreshToken), sessions)
      case Some(stale) =>
        if IsExpired(stale, now) then
          if faults.deleteSession.Some? then (Err(faults.deleteSession.value), sessions)
          else (Err(ErrSessionExpired), Delete(sessions, stale.id))
        else if faults.findUser.Some? then (Err(faults.findUser.value), sessions)
        else match Auth.FindUser(users, stale.userId)
          case None => (Err(ErrInvalidRefreshToken), sessions)
          case Some(user) =>
            match oracles.accessToken(user.id, user.role)
            case Err(e) => (Err(e), sessions)
            case Ok(access) =>
              match oracles.refreshToken
              case Err(e) => (Err(e), sessions)
              case Ok(token) =>
                match oracles.sessionId
                case Err(e) => (Err(e), sessions)
                case Ok(id) =>
                  if faults.deleteSession.Some? then (Err(faults.deleteSession.value), sessions)
                  else
                    var remaining := Delete(sessions, stale.id);
                    if faults.saveSession.Some? then (Err(faults.saveSession.value), remaining)
                    else (Ok(Output(access, token)), remaining + [Rotated(stale, user, input, id, token, oracles.ttl, now)])
  }

  /** The older use case: a failed deletion is ignored, so the stale session
      may outlive both the expiry answer and the rotation. */
  function ExecuteLegacy(sessions: Sessions, users: Auth.UserStore, input: Input, now: Instant,
                         oracles: Oracles, faults: Faults): (r: (Result<Output>, Sessions))
    ensures faults.deleteSession.None? ==>
      r == Execute(sessions, users, input, now, oracles, faults)
    ensures faults.findSession.None? && FindByRefreshToken(sessions, input.refreshToken).Some? ==>
      var stale := FindByRefreshToken(sessions, input.refreshToken).value;
      && (IsExpired(stale, now) ==> r.0 == Err(ErrSessionExpired))
      && (faults.deleteSession.Some? && r.0.Ok? ==> stale in r.1)
    // the answer is the one the current version gives when deletion succeeds:
    // a failed deletion never changes the outcome
    ensures r.0 == Execute(sessions, users, input, now, oracles, faults.(deleteSession := None)).0
    // with a failed deletion nothing is removed: a failure leaves the sessions
    // as they were, and a rotation only appends the renewed session
    ensures faults.deleteSession.Some? ==>
      if r.0.Err? then r.1 == sessions
      else
        && FindByRefreshToken(sessions, input.refreshToken).Some?
        && oracles.sessionId.Ok? && oracles.refreshToken.Ok?
        && var stale := FindByRefreshToken(sessions, input.refreshToken).value;
           && Auth.FindUser(users, stale.userId).Some?
           && r.1 == sessions + [Rotated(stale, Auth.FindUser(users, stale.userId).value, input,
                                         oracles.sessionId.value, oracles.refreshToken.value, oracles.ttl, now)]
  {
    if faults.findSession.Some? then (Err(faults.findSession.value), sessions)
    else match FindByRefreshToken(sessions, input.refreshToken)
      case None => (Err(ErrInvalidRefreshToken), sessions)
      case Some(stale) =>
        var afterDelete := if faults.deleteSession.Some? then sessions else Delete(sessions, stale.id);
        if IsExpired(stale, now) then (Err(ErrSessionExpired), afterDelete)
        else if faults.findUser.Some? then (Err(faults.findUser.value), sessions)
        else match Auth.FindUser(users, stale.userId)
          case None => (Err(ErrInvalidRefreshToken), sessions)
          case Some(user) =>
            match oracles.accessToken(user.id, user.role)
            case Err(e) => (Err(e), sessions)
            case Ok(access) =>
              match oracles.refreshToken
              case Err(e) => (Err(e), sessions)
              case Ok(token) =>
                match oracles.sessionId
                case Err(e) => (Err(e), sessions)
                case Ok(id) =>
                  if faults.saveSession.Some? then (Err(faults.saveSession.value), afterDelete)
                  else (Ok(Output(access, token)), afterDelete + [Rotated(stale, user, input, id, token, oracles.ttl, now)])
  }

  // ---------------------------------------------------------- properties

  /** An expired session is never refreshed. */
  lemma ExpiredNeverRefreshed(sessions: Sessions, users: Auth.UserStore, input: Input, now: Instant,
                              oracles: Oracles, faults: Faults)
    requires FindByRefreshToken(sessions, input.refreshToken).Some?
    requires IsExpired(FindByRefreshToken(sessions, input.refreshToken).value, now)
    ensures Execute(sessions, users, input, now, oracles, faults).0.Err?
    ensures ExecuteLegacy(sessions, users, input, now, oracles, faults).0.Err?
  {
  }

  /** A successful rotation retires the presented token and issues one that
      names exactly the new session, which belongs to the same user and
      expires one lifetime after `now`; tokens stay unique. */
  lemma RotationRetiresOldToken(sessions: Sessions, users: Auth.UserStore, input: Input,
                                now: Instant, oracles: Oracles, faults: Faults)
    requires UniqueTokens(sessions)
    requires Execute(sessions, users, input, now, oracles, faults).0.Ok?
    requires forall s :: s in sessions ==> s.refreshToken != oracles.refreshToken.value
    ensures var after := Execute(sessions, users, input, now, oracles, faults).1;
      var stale := FindByRefreshToken(sessions, input.refreshToken).value;
      && FindByRefreshToken(after, input.refreshToken).None?
      && FindByRefreshToken(after, oracles.refreshToken.value).Some?
      && FindByRefreshToken(after, oracles.refreshToken.value).value.userId == stale.userId
      && FindByRefreshToken(after, oracles.refreshToken.value).value.expiresAt == now + oracles.ttl
      && UniqueTokens(after)
  {
    var stale := FindByRefreshToken(sessions, input.refreshToken).value;
    var user := Auth.FindUser(users, stale.userId).value;
    var remaining := Delete(sessions, stale.id);
    var renewed := Rotated(stale, user, input, oracles.sessionId.value, oracles.refreshToken.value, oracles.ttl, now);
    assert Execute(sessions, users, input, now, oracles, faults).1 == remaining + [renewed];
    DeleteRetiresToken(sessions, stale);
    assert renewed.refreshToken != input.refreshToken by {
      assert stale in sessions;
    }
    AbsentAfterAppend(remaining, renewed, input.refreshToken);
    FindFreshLast(remaining, renewed);
    DeleteKeepsUniqueTokens(sessions, stale.id);
    UniqueTokensExtend(remaining, renewed);
  }

  /** Deleting a stored session retires its token when tokens are unique. */
  lemma DeleteRetiresToken(sessions: Sessions, stale: Session)
    requires UniqueTokens(sessions) && stale in sessions
    ensures forall s :: s in Delete(sessions, stale.id) ==> s.refreshToken != stale.refreshToken
  {
    forall s | s in Delete(sessions, stale.id)
      ensures s.refreshToken != stale.refreshToken
    {
      var i :| 0 <= i < |sessions| && sessions[i] == s;
      var j :| 0 <= j < |sessions| && sessions[j] == stale;
      assert i != j;
    }
  }

  /** A token absent from the sessions and from the appended one is not
      found afterwards. */
  lemma AbsentAfterAppend(sessions: Sessions, extra: Session, token: string)
    requires forall s :: s in sessions ==> s.refreshToken != token
    requires extra.refreshToken != token
    ensures FindByRefreshToken(sessions + [extra], token).None?
  {
    assert forall s :: s in sessions + [extra] ==> s in sessions || s == extra;
  }

  /** Deleting keeps the rest in order, so it keeps tokens unique. */
  lemma {:induction false} DeleteKeepsUniqueTokens(sessions: Sessions, id: string)
    requires UniqueTokens(sessions)
    ensures UniqueTokens(Delete(sessions, id))
  {
    if |sessions| > 0 {
      DeleteKeepsUniqueTokens(sessions[1..], id);
      var rest := Delete(sessions[1..], id);
      assert forall s :: s in rest ==> s in sessions[1..];
      assert forall s :: s in sessions[1..] ==> s.refreshToken != sessions[0].refreshToken;
    }
  }

  /** A token no stored session carries can be appended without breaking
      uniqueness. */
  lemma UniqueTokensExtend(sessions: Sessions, renewed: Session)
    requires UniqueTokens(sessions)
    requires forall s :: s in sessions ==> s.refreshToken != renewed.refreshToken
    ensures UniqueTokens(sessions + [renewed])
  {
    var all := sessions + [renewed];
    forall i, j | 0 <= i < j < |all|
      ensures all[i].refreshToken != all[j].refreshToken
    {
      if j == |sessions| {
        assert all[i] in sessions;
      }
    }
  }

  /** The appended session is what its token finds when no stored session
      carries that token. */
  lemma {:induction false} FindFreshLast(sessions: Sessions, renewed: Session)
    requires forall s :: s in sessions ==> s.refreshToken != renewed.refreshToken
    ensures FindByRefreshToken(sessions + [renewed], renewed.refreshToken) == Some(renewed)
  {
    if |sessions| > 0 {
      assert (sessions + [renewed])[1..] == sessions[1..] + [renewed];
      FindFreshLast(sessions[1..], renewed);
    } else {
      assert sessions + [renewed] == [renewed];
    }
  }

  /** In the older version a failed deletion leaves the presented token
      usable after a successful rotation, so one refresh token can be
      replayed indefinitely; the newer version refuses to rotate then. */
  lemma LegacyReplaysToken(sessions: Sessions, users: Auth.UserStore, input: Input, now: Instant,
                           oracles: Oracles, faults: Faults)
    requires faults.deleteSession.Some?
    requires ExecuteLegacy(sessions, users, input, now, oracles, faults).0.Ok?
    ensures FindByRefreshToken(ExecuteLegacy(sessions, users, input, now, oracles, faults).1, input.refreshToken).Some?
    ensures Execute(sessions, users, input, now, oracles, faults)
            == (Err(faults.deleteSession.value), sessions)
  {
    var stale := FindByRefreshToken(sessions, input.refreshToken).value;
    var after := ExecuteLegacy(sessions, users, input, now, oracles, faults).1;
    assert stale in after;
  }
}

=== FILE: rfc3339.dfy ===
/** The RFC 3339 text of a `time.Time` as `encoding/json` writes and reads
    it. `Time.MarshalJSON` writes "YYYY-MM-DDTHH:MM:SS", the fraction of a
    second with its trailing zeros dropped (nothing when it is zero) and the
    zone.

    `Time.UnmarshalJSON` first tries Go's strict RFC 3339 reader (`Parse`):
    the date and time fields in fixed places with their ranges checked (the
    day against the length of its month), an optional '.' fraction of any
    number of digits of which the first nine count, and "Z" or a numeric
    offset "+hh:mm" / "-hh:mm" with hh at most 23 and mm at most 59. When that
    fails it falls back to `time.Parse` with the RFC 3339 layout
    (`ParseLayout`), which is looser: the hour may be one digit, the fraction
    may start with ',', and the offset's hours may reach 24 and its minutes
    60. `DecodeTime` is the two together; it reads what `ParseLayout` reads.

    Instants carry no location here, so they are written in UTC and the text
    always ends in "Z". Years run from 0 to 9999, the ones the text can spell.
 */
module Rfc3339 {

  import opened Wrappers
  import opened Text
  import opened Clock

  const Day: Duration := 24 * Hour

  /** The days of the years 0 to 9999. */
  const DaysOfAllYears: nat := 3_652_425

  // ------------------------------------------------------------- calendar

  /** The proleptic Gregorian leap-year rule. */
  predicate IsLeapYear(y: int) {
    y % 4 == 0 && (y % 100 != 0 || y % 400 == 0)
  }

  function DaysInYear(y: int): int {
    if IsLeapYear(y) then 366 else 365
  }

  /** Go's `daysIn(month, year)`. */
  function DaysInMonth(y: int, m: int): (n: int)
    requires 1 <= m <= 12
    ensures 28 <= n <= 31
  {
    if m == 2 then (if IsLeapYear(y) then 29 else 28)
    else if m == 4 || m == 6 || m == 9 || m == 11 then 30
    else 31
  }

  /** Days from 1 January of year 0 to 1 January of year `y`. */
  function DaysBeforeYear(y: nat): nat {
    if y == 0 then 0 else DaysBeforeYear(y - 1) + DaysInYear(y - 1)
  }

  /** Days from 1 January to the first of month `m` (13 stands for the
      following 1 January). */
  function DaysBeforeMonth(y: int, m: int): nat
    requires 1 <= m <= 13
  {
    [0, 31, 59, 90, 120, 151, 181, 212, 243, 273, 304, 334, 365][m - 1]
      + (if IsLeapYear(y) && m > 2 then 1 else 0)
  }

  lemma MonthStep(y: int, m: int)
    requires 1 <= m <= 12
    ensures DaysBeforeMonth(y, m + 1) == DaysBeforeMonth(y, m) + DaysInMonth(y, m)
  {
  }

  lemma MonthsFillYear(y: int)
    ensures DaysBeforeMonth(y, 13) == DaysInYear(y)
  {
  }

  /** Counting year by year agrees with the closed form of the leap-year
      rule. */
  lemma {:induction false} DaysBeforeYearClosed(y: nat)
    ensures DaysBeforeYear(y) == 365 * y + (y + 3) / 4 - (y + 99) / 100 + (y + 399) / 400
    decreases y
  {
    if y > 0 {
      var k := y - 1;
      DaysBeforeYearClosed(k);
      assert DaysBeforeYear(y) == DaysBeforeYear(k) + DaysInYear(k);
      LeapDays(k);
      CeilStep(k, 4);
      CeilStep(k, 100);
      CeilStep(k, 400);
    }
  }

  /** The leap-year rule as a count of corrections. */
  lemma LeapDays(k: nat)
    ensures DaysInYear(k) == 365 + (if k % 4 == 0 then 1 else 0) - (if k % 100 == 0 then 1 else 0)
                                  + (if k % 400 == 0 then 1 else 0)
  {
    if k % 100 == 0 {
      CenturyIsQuadrennial(k);
    }
    if k % 400 == 0 {
      QuadricentennialIsCentury(k);
    }
  }

  lemma CenturyIsQuadrennial(k: nat)
    requires k % 100 == 0
    ensures k % 4 == 0
  {
    var m := 25 * (k / 100);
    assert k == 4 * m;
    assert k / 4 == m;
  }

  lemma QuadricentennialIsCentury(k: nat)
    requires k % 400 == 0
    ensures k % 100 == 0
  {
    var m := 4 * (k / 400);
    assert k == 100 * m;
    assert k / 100 == m;
  }

  /** Ceiling division by `n` goes up by one exactly past a multiple of `n`. */
  lemma CeilStep(k: nat, n: int)
    requires n == 4 || n == 100 || n == 400
    ensures (k + n) / n - (k + n - 1) / n == if k % n == 0 then 1 else 0
  {
    var q, r := k / n, k % n;
    assert k == q * n + r;
    if r == 0 {
      assert (k + n) / n == q + 1;
      assert (k + n - 1) / n == q;
    } else {
      assert (k + n) / n == q + 1;
      assert (k + n - 1) / n == q + 1;
    }
  }

  lemma AllYears()
    ensures DaysBeforeYear(10000) == DaysOfAllYears
    ensures PastLastEncodable - FirstEncodable == DaysOfAllYears * Day
  {
    DaysBeforeYearClosed(10000);
  }

  lemma {:induction false} DaysBeforeYearMonotone(a: nat, b: nat)
    requires a <= b
    ensures DaysBeforeYear(a) <= DaysBeforeYear(b)
    decreases b - a
  {
    if a < b {
      DaysBeforeYearMonotone(a, b - 1);
    }
  }

  /** The year in which day `z` (counted from 1 January of year 0) falls. */
  function FindYear(z: nat, y: nat): (r: nat)
    requires DaysBeforeYear(y) <= z
    ensures y <= r && DaysBeforeYear(r) <= z < DaysBeforeYear(r + 1)
    decreases z - DaysBeforeYear(y)
  {
    if z < DaysBeforeYear(y + 1) then y else FindYear(z, y + 1)
  }

  /** The month in which day `d` of year `y` (counted from 0) falls. */
  function FindMonth(y: int, d: nat, m: int): (r: int)
    requires 1 <= m <= 12 && DaysBeforeMonth(y, m) <= d < DaysBeforeMonth(y, 13)
    ensures m <= r <= 12 && DaysBeforeMonth(y, r) <= d < DaysBeforeMonth(y, r + 1)
    decreases 12 - m
  {
    if d < DaysBeforeMonth(y, m + 1) then m else FindMonth(y, d, m + 1)
  }

  // ------------------------------------------------------------ readings

  /** A calendar reading in UTC, down to the nanosecond. */
  datatype Stamp = Stamp(year: nat, month: nat, day: nat, hour: nat, minute: nat, second: nat, nano: nat)

  /** A reading the text can spell and Go's reader accepts. */
  predicate ValidStamp(s: Stamp) {
    && s.year <= 9999 && 1 <= s.month <= 12 && 1 <= s.day <= DaysInMonth(s.year, s.month)
    && s.hour < 24 && s.minute < 60 && s.second < 60 && s.nano < Second
  }

  /** The instant a valid reading names (Go's `time.Date(..., time.UTC)`). */
  function StampInstant(s: Stamp): Instant
    requires ValidStamp(s)
  {
    FirstEncodable + (DaysBeforeYear(s.year) + DaysBeforeMonth(s.year, s.month) + s.day - 1) * Day
      + s.hour * Hour + s.minute * Minute + s.second * Second + s.nano
  }

  /** Splitting a time of day into hours, minutes, seconds and nanoseconds. */
  lemma TimeOfDay(r: int)
    requires 0 <= r < Day
    ensures 0 <= r / Hour < 24 && 0 <= (r / Minute) % 60 < 60
    ensures 0 <= (r / Second) % 60 < 60 && 0 <= r % Second < Second
    ensures r == (r / Hour) * Hour + ((r / Minute) % 60) * Minute + ((r / Second) % 60) * Second + r % Second
  {
    MinutesOf(r);
    HoursOf(r);
  }

  /** Whole minutes are whole seconds taken sixty at a time. */
  lemma MinutesOf(r: int)
    requires r >= 0
    ensures r / Minute == (r / Second) / 60
    ensures r % Minute == ((r / Second) % 60) * Second + r % Second
  {
    var ts := r / Second;
    assert r == ts * Second + r % Second;
    assert ts == (ts / 60) * 60 + ts % 60;
    assert r == (ts / 60) * Minute + ((ts % 60) * Second + r % Second);
  }

  /** Whole hours are whole minutes taken sixty at a time. */
  lemma HoursOf(r: int)
    requires r >= 0
    ensures r / Hour == (r / Minute) / 60
    ensures r % Hour == ((r / Minute) % 60) * Minute + r % Minute
  {
    var tm := r / Minute;
    assert r == tm * Minute + r % Minute;
    assert tm == (tm / 60) * 60 + tm % 60;
    assert r == (tm / 60) * Hour + ((tm % 60) * Minute + r % Minute);
  }

  /** The date of day `z`, counted from 1 January of year 0. */
  function DateOfDay(z: nat): (nat, nat, nat) {
    var y := FindYear(z, 0);
    var dy := z - DaysBeforeYear(y);
    var m := FindMonth(y, dy, 1);
    (y, m, dy - DaysBeforeMonth(y, m) + 1)
  }

  /** Every day of the years 0..9999 has a valid date that counts back to it. */
  lemma DateOfDayCounts(z: nat)
    requires z < DaysOfAllYears
    ensures var (y, m, d) := DateOfDay(z);
      && y <= 9999 && 1 <= m <= 12 && 1 <= d <= DaysInMonth(y, m)
      && DaysBeforeYear(y) + DaysBeforeMonth(y, m) + d - 1 == z
  {
    var y := FindYear(z, 0);
    YearInRange(z, y);
    var dy := z - DaysBeforeYear(y);
    MonthsFillYear(y);
    var m := FindMonth(y, dy, 1);
    MonthStep(y, m);
  }

  /** The UTC reading of an instant no earlier than year 0. */
  function StampOf(t: Instant): Stamp
    requires t >= FirstEncodable
  {
    var off := t - FirstEncodable;
    var r := off % Day;
    var (y, m, d) := DateOfDay(off / Day);
    Stamp(y, m, d, r / Hour, (r / Minute) % 60, (r / Second) % 60, r % Second)
  }

  /** The reading of an instant Go can write is valid and names that instant. */
  lemma StampOfNamesInstant(t: Instant)
    requires Encodable(t)
    ensures ValidStamp(StampOf(t)) && StampInstant(StampOf(t)) == t
  {
    var off := t - FirstEncodable;
    var z, r := off / Day, off % Day;
    DayAndTime(t);
    DateOfDayCounts(z);
    TimeOfDay(r);
    ReadingInstant(StampOf(t), z, r);
  }

  /** An encodable instant lies on one of the days of the years 0..9999. */
  lemma DayAndTime(t: Instant)
    requires Encodable(t)
    ensures var off := t - FirstEncodable;
      0 <= off / Day < DaysOfAllYears && 0 <= off % Day < Day && off == (off / Day) * Day + off % Day
  {
    AllYears();
  }

  /** The instant of a reading is its day's start plus its time of day. */
  lemma ReadingInstant(s: Stamp, z: int, r: int)
    requires ValidStamp(s)
    requires DaysBeforeYear(s.year) + DaysBeforeMonth(s.year, s.month) + s.day - 1 == z
    requires r == s.hour * Hour + s.minute * Minute + s.second * Second + s.nano
    ensures StampInstant(s) == FirstEncodable + z * Day + r
  {
  }

  lemma YearInRange(z: nat, y: nat)
    requires z < DaysOfAllYears && DaysBeforeYear(y) <= z
    ensures y <= 9999
  {
    AllYears();
    if y >= 10000 {
      DaysBeforeYearMonotone(10000, y);
    }
  }

  // -------------------------------------------------------------- digits

  function Pow10(n: nat): (p: nat)
    ensures p >= 1
  {
    if n == 0 then 1 else 10 * Pow10(n - 1)
  }

  /** `n` in exactly `width` decimal digits, with leading zeros. */
  function Pad(n: nat, width: nat): (s: string)
    ensures |s| == width && AllDigits(s)
  {
    if width == 0 then "" else Pad(n / 10, width - 1) + [DigitChar(n % 10)]
  }

  lemma {:induction false} ParsePad(n: nat, width: nat)
    requires n < Pow10(width)
    ensures ParseNat(Pad(n, width)) == n
    decreases width
  {
    if width > 0 {
      var s := Pad(n, width);
      assert s[..|s| - 1] == Pad(n / 10, width - 1);
      assert n / 10 < Pow10(width - 1);
      ParsePad(n / 10, width - 1);
    }
  }

  /** Trailing zeros read as a factor of ten each. */
  lemma {:induction false} ParseNatZeros(f: string, k: nat)
    requires AllDigits(f)
    ensures AllDigits(f + Zeros(k)) && ParseNat(f + Zeros(k)) == ParseNat(f) * Pow10(k)
    decreases k
  {
    if k > 0 {
      ParseNatZeros(f, k - 1);
      var shorter := f + Zeros(k - 1);
      var s := f + Zeros(k);
      assert s == shorter + "0";
      DigitsJoin(shorter, "0");
      assert s[..|s| - 1] == shorter;
      TimesTen(ParseNat(f), Pow10(k - 1));
    } else {
      assert f + Zeros(k) == f;
    }
  }

  lemma DigitsJoin(a: string, b: string)
    requires AllDigits(a) && AllDigits(b)
    ensures AllDigits(a + b)
  {
    forall i | 0 <= i < |a + b| ensures IsDigit((a + b)[i]) {
      if i < |a| { assert (a + b)[i] == a[i]; } else { assert (a + b)[i] == b[i - |a|]; }
    }
  }

  lemma TimesTen(v: nat, p: nat)
    ensures v * p * 10 == v * (10 * p)
  {
  }

  function Zeros(k: nat): (s: string)
    ensures |s| == k && AllDigits(s)
    ensures forall i :: 0 <= i < k ==> s[i] == '0'
  {
    if k == 0 then "" else Zeros(k - 1) + "0"
  }

  /** A digit string without its trailing zeros. */
  function TrimZeros(s: string): (r: string)
    requires AllDigits(s)
    ensures |r| <= |s| && AllDigits(r) && s == r + Zeros(|s| - |r|)
    ensures |r| > 0 ==> r[|r| - 1] != '0'
  {
    if |s| > 0 && s[|s| - 1] == '0' then
      var r := TrimZeros(s[..|s| - 1]);
      assert s == s[..|s| - 1] + "0";
      r
    else s
  }

  // ---------------------------------------------------------------- text

  /** The fraction Go writes for `nano` nanoseconds: nothing for none, else
      a '.' and the nine digits without their trailing zeros. */
  function FractionText(nano: nat): (s: string) {
    if nano == 0 then "" else "." + TrimZeros(Pad(nano, 9))
  }

  /** "YYYY-MM-DD". */
  function DateText(s: Stamp): (text: string)
    ensures |text| == 10
  {
    Pad(s.year, 4) + "-" + (Pad(s.month, 2) + "-" + Pad(s.day, 2))
  }

  /** "HH:MM:SS". */
  function ClockText(s: Stamp): (text: string)
    ensures |text| == 8
  {
    Pad(s.hour, 2) + ":" + (Pad(s.minute, 2) + ":" + Pad(s.second, 2))
  }

  function DateTimeText(s: Stamp): (text: string)
    ensures |text| == 19
  {
    DateText(s) + "T" + ClockText(s)
  }

  /** `Time.MarshalJSON`'s text (without the quotes) for an instant in UTC. */
  function Format(t: Instant): (text: string)
    requires Encodable(t)
  {
    var s := StampOf(t);
    DateTimeText(s) + FractionText(s.nano) + "Z"
  }

  /** How many digits `s` starts with. */
  function DigitRun(s: string): (n: nat)
    ensures n <= |s| && AllDigits(s[..n]) && (n < |s| ==> !IsDigit(s[n]))
  {
    if |s| == 0 || !IsDigit(s[0]) then 0
    else
      var n := 1 + DigitRun(s[1..]);
      assert s[..n] == [s[0]] + s[1..][..n - 1];
      n
  }

  /** The optional fraction after the seconds: the nanoseconds it names and
      the text after it. Digits past the ninth are read and ignored. */
  function ReadFraction(rest: string): (r: (int, string))
    ensures 0 <= r.0 < Second && |r.1| <= |rest|
  {
    if |rest| >= 2 && rest[0] == '.' && IsDigit(rest[1]) then
      var n := DigitRun(rest[1..]);
      (Scale(rest[1..][..if n > 9 then 9 else n]), rest[1 + n..])
    else (0, rest)
  }

  /** Up to nine fraction digits as nanoseconds: the missing places are zeros. */
  function Scale(kept: string): (nano: int)
    requires AllDigits(kept) && |kept| <= 9
    ensures 0 <= nano < Second
  {
    NanoBound(kept);
    ParseNat(kept) * Pow10(9 - |kept|)
  }

  lemma NanoBound(kept: string)
    requires AllDigits(kept) && |kept| <= 9
    ensures ParseNat(kept) * Pow10(9 - |kept|) < Second
  {
    var full := kept + Zeros(9 - |kept|);
    ParseNatZeros(kept, 9 - |kept|);
    assert |full| == 9 && AllDigits(full);
    ParseNatBound(full);
    assert Pow10(9) == Second;
    assert ParseNat(kept) * Pow10(9 - |kept|) == ParseNat(full);
  }

  lemma {:induction false} ParseNatBound(s: string)
    requires AllDigits(s)
    ensures ParseNat(s) < Pow10(|s|)
    decreases |s|
  {
    if |s| > 0 {
      ParseNatBound(s[..|s| - 1]);
    }
  }

  /** The zone: "Z", or a sign, two digits of hours up to 23, ':' and two
      digits of minutes up to 59; the offset east of UTC, in seconds. */
  function ReadOffset(tail: string): Option<int> {
    if tail == "Z" then Some(0)
    else if |tail| == 6 && (tail[0] == '+' || tail[0] == '-') && tail[3] == ':'
         && AllDigits(tail[1..3]) && AllDigits(tail[4..6])
         && ParseNat(tail[1..3]) <= 23 && ParseNat(tail[4..6]) <= 59 then
      var magnitude := (ParseNat(tail[1..3]) * 60 + ParseNat(tail[4..6])) * 60;
      Some(if tail[0] == '-' then -magnitude else magnitude)
    else None
  }

  /** The date and time fields at their fixed places, if all are digits in
      range. */
  function ReadDateTime(head: string): (r: Option<Stamp>)
    requires |head| == 19
    ensures r.Some? ==> ValidStamp(r.value) && r.value.nano == 0
  {
    if !(head[4] == '-' && head[7] == '-' && head[10] == 'T' && head[13] == ':' && head[16] == ':') then None
    else if !(AllDigits(head[0..4]) && AllDigits(head[5..7]) && AllDigits(head[8..10])
              && AllDigits(head[11..13]) && AllDigits(head[14..16]) && AllDigits(head[17..19])) then None
    else
      var year, month := ParseNat(head[0..4]), ParseNat(head[5..7]);
      if !(1 <= month <= 12) then None
      else
        var s := Stamp(year, month, ParseNat(head[8..10]), ParseNat(head[11..13]),
                       ParseNat(head[14..16]), ParseNat(head[17..19]), 0);
        if !(1 <= s.day <= DaysInMonth(year, month) && s.hour <= 23 && s.minute <= 59 && s.second <= 59) then None
        else
          YearInFourDigits(head[0..4]);
          Some(s)
  }

  /** `Time.UnmarshalJSON`'s reading of a JSON string's text. */
  function Parse(text: string): (r: Option<Instant>)
  {
    if |text| < 19 then None
    else
      match ReadDateTime(text[..19])
      case None => None
      case Some(s) =>
        var (nano, tail) := ReadFraction(text[19..]);
        match ReadOffset(tail)
        case None => None
        case Some(offset) => Some(StampInstant(s.(nano := nano)) - offset * Second)
  }

  // ---------------------------------------------------- the layout reader

  /** Go's `getnum(s, fixed)`: two leading digits, or, when `fixed` is false,
      one digit not followed by another; with the text after them. */
  function GetNum(s: string, fixed: bool): (r: Option<(nat, string)>)
    ensures r.Some? ==> r.value.0 < 100 && |r.value.1| < |s|
  {
    if |s| == 0 || !IsDigit(s[0]) then None
    else if |s| < 2 || !IsDigit(s[1]) then (if fixed then None else Some((DigitValue(s[0]), s[1..])))
    else Some((DigitValue(s[0]) * 10 + DigitValue(s[1]), s[2..]))
  }

  /** A literal separator `c`, then a number as `GetNum` reads it. */
  function ThenNum(s: string, c: char, fixed: bool): Option<(nat, string)> {
    if |s| > 0 && s[0] == c then GetNum(s[1..], fixed) else None
  }

  /** A fraction the layout has no place for: '.' or ',' and digits, of
      which the first nine count. */
  function ReadLayoutFraction(rest: string): (r: (int, string))
    ensures 0 <= r.0 < Second
  {
    if |rest| >= 2 && rest[0] == ',' && IsDigit(rest[1]) then ReadFraction("." + rest[1..])
    else ReadFraction(rest)
  }

  /** The layout's zone "Z07:00", which must end the text: "Z", or a sign,
      two digits of hours up to 24, ':' and two digits of minutes up to 60
      (the layout reader admits a whole day and a whole hour); the offset
      east of UTC, in seconds. */
  function ReadLayoutZone(tail: string): Option<int> {
    if |tail| > 0 && tail[0] == 'Z' then (if |tail| == 1 then Some(0) else None)
    else if |tail| == 6 && (tail[0] == '+' || tail[0] == '-') && tail[3] == ':'
         && AllDigits(tail[1..3]) && AllDigits(tail[4..6])
         && ParseNat(tail[1..3]) <= 24 && ParseNat(tail[4..6]) <= 60 then
      var magnitude := (ParseNat(tail[1..3]) * 60 + ParseNat(tail[4..6])) * 60;
      Some(if tail[0] == '-' then -magnitude else magnitude)
    else None
  }

  /** The layout's date "2006-01-02": four digits of year, '-', two of
      month, '-', two of day; the fields with the text after them. */
  function LayoutDate(text: string): Option<(nat, nat, nat, string)> {
    if |text| < 4 || !AllDigits(text[..4]) then None
    else
      var month := ThenNum(text[4..], '-', true);
      if month.None? then None
      else
        var day := ThenNum(month.value.1, '-', true);
        if day.None? then None
        else Some((ParseNat(text[..4]), month.value.0, day.value.0, day.value.1))
  }

  /** The layout's time of day "T15:04:05": the hour in one or two digits,
      the minute and second in two. */
  function LayoutTime(text: string): Option<(nat, nat, nat, string)> {
    var hour := ThenNum(text, 'T', false);
    if hour.None? then None
    else
      var minute := ThenNum(hour.value.1, ':', true);
      if minute.None? then None
      else
        var second := ThenNum(minute.value.1, ':', true);
        if second.None? then None
        else Some((hour.value.0, minute.value.0, second.value.0, second.value.1))
  }

  /** The date and time fields of the layout, range-checked (the day against
      its month), and the text after the seconds. */
  function LayoutClock(text: string): (r: Option<(Stamp, string)>)
    ensures r.Some? ==> ValidStamp(r.value.0) && r.value.0.nano == 0
  {
    match LayoutDate(text)
    case None => None
    case Some((year, month, day, rest)) =>
      match LayoutTime(rest)
      case None => None
      case Some((hour, minute, second, after)) =>
        var s := Stamp(year, month, day, hour, minute, second, 0);
        if !(1 <= month <= 12) then None
        else if !(1 <= day <= DaysInMonth(year, month) && hour <= 23 && minute <= 59 && second <= 59) then None
        else
          YearInFourDigits(text[..4]);
          Some((s, after))
  }

  /** `time.Parse(time.RFC3339, text)`: the layout "2006-01-02T15:04:05Z07:00"
      read field by field, then a fraction the layout has no place for, then
      the zone, which must end the text. */
  function ParseLayout(text: string): (r: Option<Instant>) {
    match LayoutClock(text)
    case None => None
    case Some((s, rest)) =>
      var (nano, tail) := ReadLayoutFraction(rest);
      match ReadLayoutZone(tail)
      case None => None
      case Some(offset) => Some(StampInstant(s.(nano := nano)) - offset * Second)
  }

  lemma YearInFourDigits(digits: string)
    requires |digits| == 4 && AllDigits(digits)
    ensures ParseNat(digits) <= 9999
  {
    ParseNatBound(digits);
    assert Pow10(4) == 10000;
  }

  /** What `Time.UnmarshalJSON` makes of a JSON string's text: the strict
      reader's instant, or, when that refuses the text, whatever the layout
      reader makes of it (its stricter checks are switched off). */
  function DecodeTime(text: string): (r: Option<Instant>)
    ensures Parse(text).Some? ==> r == Parse(text)
    ensures Parse(text).None? ==> r == ParseLayout(text)
  {
    match Parse(text)
    case Some(t) => Some(t)
    case None => ParseLayout(text)
  }

  /** Two digits after the separator `c` at position `i` read as the number
      they spell. */
  lemma ThenTwoDigits(text: string, i: nat, c: char, fixed: bool)
    requires i + 3 <= |text| && text[i] == c && IsDigit(text[i + 1]) && IsDigit(text[i + 2])
    ensures AllDigits(text[i + 1..i + 3])
    ensures ThenNum(text[i..], c, fixed) == Some((ParseNat(text[i + 1..i + 3]), text[i + 3..]))
  {
    var two := text[i + 1..i + 3];
    assert text[i..][1..] == text[i + 1..];
    assert text[i + 1..][2..] == text[i + 3..];
    assert two[..1][..0] == [] && two[..1] == [text[i + 1]];
    assert ParseNat(two) == ParseNat(two[..1]) * 10 + DigitValue(text[i + 2]);
  }

  /** The fixed-place date fields read the same way by the layout. */
  lemma LayoutDateAgrees(text: string)
    requires |text| >= 19 && text[4] == '-' && text[7] == '-'
    requires AllDigits(text[0..4]) && AllDigits(text[5..7]) && AllDigits(text[8..10])
    ensures LayoutDate(text) == Some((ParseNat(text[0..4]), ParseNat(text[5..7]), ParseNat(text[8..10]), text[10..]))
  {
    assert text[..4] == text[0..4];
    assert text[5..7][0] == text[5] && text[5..7][1] == text[6];
    assert text[8..10][0] == text[8] && text[8..10][1] == text[9];
    ThenTwoDigits(text, 4, '-', true);
    ThenTwoDigits(text, 7, '-', true);
    assert text[4..][3..] == text[7..];
  }

  /** The fixed-place time fields read the same way by the layout. */
  lemma LayoutTimeAgrees(text: string)
    requires |text| >= 19 && text[10] == 'T' && text[13] == ':' && text[16] == ':'
    requires AllDigits(text[11..13]) && AllDigits(text[14..16]) && AllDigits(text[17..19])
    ensures LayoutTime(text[10..]) == Some((ParseNat(text[11..13]), ParseNat(text[14..16]), ParseNat(text[17..19]), text[19..]))
  {
    assert text[11..13][0] == text[11] && text[11..13][1] == text[12];
    assert text[14..16][0] == text[14] && text[14..16][1] == text[15];
    assert text[17..19][0] == text[17] && text[17..19][1] == text[18];
    ThenTwoDigits(text, 10, 'T', false);
    ThenTwoDigits(text, 13, ':', true);
    ThenTwoDigits(text, 16, ':', true);
    assert text[10..][3..] == text[13..];
    assert text[13..][3..] == text[16..];
  }

  lemma LayoutClockAgrees(text: string)
    requires |text| >= 19 && ReadDateTime(text[..19]).Some?
    ensures LayoutClock(text) == Some((ReadDateTime(text[..19]).value, text[19..]))
  {
    var head := text[..19];
    assert head[0..4] == text[0..4] && head[5..7] == text[5..7] && head[8..10] == text[8..10];
    assert head[11..13] == text[11..13] && head[14..16] == text[14..16] && head[17..19] == text[17..19];
    LayoutDateAgrees(text);
    LayoutTimeAgrees(text);
  }

  /** Wherever the strict reader accepts a text, the layout reader accepts it
      too and names the same instant: the fallback only ever adds texts. */
  lemma LayoutAgreesWithStrict(text: string)
    requires Parse(text).Some?
    ensures ParseLayout(text) == Parse(text)
  {
    LayoutClockAgrees(text);
    var (nano, tail) := ReadFraction(text[19..]);
    assert ReadOffset(tail).Some?;
    assert ReadLayoutFraction(text[19..]) == ReadFraction(text[19..]);
    assert ReadLayoutZone(tail) == ReadOffset(tail);
  }

  /** So what `Time.UnmarshalJSON` accepts is exactly what the layout reader
      accepts. */
  lemma DecodeTimeIsLayout(text: string)
    ensures DecodeTime(text) == ParseLayout(text)
  {
    if Parse(text).Some? {
      LayoutAgreesWithStrict(text);
    }
  }

  /** The fallback reads a one-digit hour as that hour with a leading zero,
      and the strict reader refuses it. */
  lemma OneDigitHourAccepted(h: char, rest: string)
    requires IsDigit(h) && |rest| > 0 && rest[0] == ':'
    ensures LayoutTime(['T', h] + rest) == LayoutTime(['T', '0', h] + rest)
  {
    assert (['T', h] + rest)[1..] == [h] + rest;
    assert ([h] + rest)[1..] == rest;
    assert (['T', '0', h] + rest)[1..] == ['0', h] + rest;
    assert (['0', h] + rest)[2..] == rest;
  }

  lemma StrictRefusesOneDigitHour(text: string)
    requires |text| >= 19 && text[12] == ':'
    ensures Parse(text).None?
  {
    assert text[..19][11..13][1] == ':';
  }

  /** The fallback reads a ',' before the fraction as a '.', and the strict
      reader refuses it. */
  lemma CommaFractionAccepted(digits: string)
    requires |digits| > 0 && IsDigit(digits[0])
    ensures ReadLayoutFraction("," + digits) == ReadFraction("." + digits)
  {
    assert ("," + digits)[1..] == digits;
  }

  lemma StrictRefusesCommaFraction(text: string)
    requires |text| > 19 && text[19] == ','
    ensures Parse(text).None?
  {
    assert text[19..][0] == ',';
  }

  /** The fallback takes offsets up to a whole day and minutes up to a whole
      hour; the strict reader only up to 23:59. */
  lemma WiderOffsetAccepted(hours: nat, minutes: nat)
    requires hours <= 24 && minutes <= 60
    ensures ReadLayoutZone(OffsetText(hours, minutes)) == Some((hours * 60 + minutes) * 60)
    ensures ReadOffset(OffsetText(hours, minutes)).Some? <==> hours <= 23 && minutes <= 59
  {
    var tail := OffsetText(hours, minutes);
    assert tail[1..3] == Pad(hours, 2) && tail[4..6] == Pad(minutes, 2) && tail[3] == ':';
    assert Pow10(2) == 100;
    ParsePad(hours, 2);
    ParsePad(minutes, 2);
  }

  // ---------------------------------------------------------- properties

  /** Every instant Go can write reads back as itself. */
  lemma ParseFormat(t: Instant)
    requires Encodable(t)
    ensures Parse(Format(t)) == Some(t)
  {
    var s := StampOf(t);
    StampOfNamesInstant(t);
    var head := DateTimeText(s);
    var frac := FractionText(s.nano);
    var text := Format(t);
    assert text == head + (frac + "Z");
    Prefix19(head, frac + "Z");
    ReadsDateTime(s);
    ReadsFraction(s.nano);
    assert ReadOffset("Z") == Some(0);
  }

  lemma Prefix19(head: string, rest: string)
    requires |head| == 19
    ensures (head + rest)[..19] == head && (head + rest)[19..] == rest
  {
  }

  /** The date and time fields of a reading read back as themselves. */
  lemma ReadsDateTime(s: Stamp)
    requires ValidStamp(s)
    ensures ReadDateTime(DateTimeText(s)) == Some(s.(nano := 0))
  {
    var h := DateTimeText(s);
    DateTimeFields(s);
    assert Pow10(4) == 10000 && Pow10(2) == 100;
    ParsePad(s.year, 4);
    ParsePad(s.month, 2);
    ParsePad(s.day, 2);
    ParsePad(s.hour, 2);
    ParsePad(s.minute, 2);
    ParsePad(s.second, 2);
  }

  lemma DateTimeFields(s: Stamp)
    ensures var h := DateTimeText(s);
      && h[0..4] == Pad(s.year, 4) && h[5..7] == Pad(s.month, 2) && h[8..10] == Pad(s.day, 2)
      && h[11..13] == Pad(s.hour, 2) && h[14..16] == Pad(s.minute, 2) && h[17..19] == Pad(s.second, 2)
      && h[4] == '-' && h[7] == '-' && h[10] == 'T' && h[13] == ':' && h[16] == ':'
  {
    var h := DateTimeText(s);
    var date, clock := DateText(s), ClockText(s);
    Joined(date, 'T', clock);
    Joined(Pad(s.year, 4), '-', Pad(s.month, 2) + "-" + Pad(s.day, 2));
    Joined(Pad(s.month, 2), '-', Pad(s.day, 2));
    Joined(Pad(s.hour, 2), ':', Pad(s.minute, 2) + ":" + Pad(s.second, 2));
    Joined(Pad(s.minute, 2), ':', Pad(s.second, 2));
    assert h[0..4] == date[0..4];
    assert h[5..7] == date[5..7] && date[5..7] == date[5..][0..2];
    assert h[8..10] == date[8..10] && date[8..10] == date[5..][3..5];
    assert h[11..13] == clock[0..2];
    assert h[14..16] == clock[3..5] && clock[3..5] == clock[3..][0..2];
    assert h[17..19] == clock[6..8] && clock[6..8] == clock[3..][3..5];
  }

  /** The pieces of `a`, a separator and `b`, put side by side. */
  lemma Joined(a: string, sep: char, b: string)
    ensures var s := a + [sep] + b;
      |s| == |a| + 1 + |b| && s[..|a|] == a && s[0..|a|] == a && s[|a|] == sep && s[|a| + 1..] == b
  {
  }

  /** The fraction Go writes reads back as the same nanoseconds, and the
      zone follows it. */
  lemma ReadsFraction(nano: nat)
    requires nano < Second
    ensures ReadFraction(FractionText(nano) + "Z") == (nano, "Z")
  {
    if nano > 0 {
      var f := TrimZeros(Pad(nano, 9));
      assert FractionText(nano) + "Z" == "." + f + "Z";
      ReadsNonZero(nano, f);
    } else {
      assert FractionText(nano) + "Z" == "Z";
    }
  }

  lemma ReadsNonZero(nano: nat, f: string)
    requires 0 < nano < Second && AllDigits(Pad(nano, 9)) && f == TrimZeros(Pad(nano, 9))
    ensures ReadFraction("." + f + "Z") == (nano, "Z")
  {
    TrimmedFraction(nano);
    ReadsDigits("." + f + "Z", f);
  }

  /** A fraction of one to nine digits before the zone reads as those digits
      scaled to nanoseconds. */
  lemma ReadsDigits(rest: string, f: string)
    requires AllDigits(f) && 0 < |f| <= 9 && rest == "." + f + "Z"
    ensures ReadFraction(rest) == (Scale(f), "Z")
  {
    assert rest[0] == '.' && rest[1] == f[0];
    assert rest[1..] == f + "Z";
    FractionRun(f);
    assert rest[1..][..|f|] == f;
    assert rest[1 + |f|..] == "Z";
  }

  /** The nine digits of a non-zero fraction keep at least one digit once
      their trailing zeros go, and read back as the nanoseconds. */
  lemma TrimmedFraction(nano: nat)
    requires 0 < nano < Second
    ensures var f := TrimZeros(Pad(nano, 9));
      0 < |f| <= 9 && Scale(f) == nano
  {
    var padded := Pad(nano, 9);
    var f := TrimZeros(padded);
    var k := 9 - |f|;
    assert Pow10(9) == Second;
    ParsePad(nano, 9);
    assert padded == f + Zeros(k);
    ParseNatZeros(f, k);
    assert nano == ParseNat(f) * Pow10(k);
    assert ParseNat("") == 0;
  }

  lemma {:induction false} FractionRun(f: string)
    requires AllDigits(f)
    ensures DigitRun(f + "Z") == |f|
    decreases |f|
  {
    if |f| > 0 {
      assert (f + "Z")[0] == f[0];
      assert (f + "Z")[1..] == f[1..] + "Z";
      FractionRun(f[1..]);
    } else {
      assert f + "Z" == "Z";
    }
  }

  /** Text with a numeric offset names the instant that far from the same
      reading in UTC: "+hh:mm" is east of UTC, so the instant is earlier. */
  lemma OffsetShifts(head: string, hours: nat, minutes: nat)
    requires |head| == 19 && ReadDateTime(head).Some?
    requires hours <= 23 && minutes <= 59
    ensures Parse(head + OffsetText(hours, minutes))
         == Some(Parse(head + "Z").value - (hours * 60 + minutes) * 60 * Second)
  {
    var base := StampInstant(ReadDateTime(head).value);
    ParsesWithZone(head, OffsetText(hours, minutes));
    ParsesWithZone(head, "Z");
    ReadsOffset(hours, minutes);
  }

  /** A date and time without fraction followed by a zone reads as the
      reading less the zone's offset. */
  lemma ParsesWithZone(head: string, tail: string)
    requires |head| == 19 && ReadDateTime(head).Some?
    requires |tail| > 0 && tail[0] != '.'
    ensures Parse(head + tail) == match ReadOffset(tail)
      case None => None
      case Some(offset) => Some(StampInstant(ReadDateTime(head).value) - offset * Second)
  {
    Prefix19(head, tail);
    assert ReadFraction(tail) == (0, tail);
  }

  function OffsetText(hours: nat, minutes: nat): (s: string)
    requires hours < 100 && minutes < 100
    ensures |s| == 6 && s[0] == '+'
  {
    "+" + Pad(hours, 2) + ":" + Pad(minutes, 2)
  }

  lemma ReadsOffset(hours: nat, minutes: nat)
    requires hours <= 23 && minutes <= 59
    ensures ReadOffset(OffsetText(hours, minutes)) == Some((hours * 60 + minutes) * 60)
  {
    var tail := OffsetText(hours, minutes);
    assert tail[1..3] == Pad(hours, 2) && tail[4..6] == Pad(minutes, 2) && tail[3] == ':';
    assert Pow10(2) == 100;
    ParsePad(hours, 2);
    ParsePad(minutes, 2);
  }
}

=== FILE: text.dfy ===
/** The parts of Go's `strings`, `strconv` and `fmt` packages that the
    modelled code relies on, over Dafny strings (`seq<char>`): removing every
    occurrence of a character (`strings.ReplaceAll(s, c, "")`), splitting on a
    separator (`strings.Split`), trimming white space (`strings.TrimSpace`)
    and printing a number in decimal (`%d`).
 */
module Text {

  import opened Wrappers

  // ---------------------------------------------------------------- digits

  predicate IsDigit(c: char) {
    '0' <= c <= '9'
  }

  predicate AllDigits(s: string) {
    forall i :: 0 <= i < |s| ==> IsDigit(s[i])
  }

  function DigitValue(c: char): (d: nat)
    requires IsDigit(c)
    ensures d < 10
  {
    c as int - '0' as int
  }

  function DigitChar(d: nat): (c: char)
    requires d < 10
    ensures IsDigit(c) && DigitValue(c) == d
  {
    ('0' as int + d) as char
  }

  // ------------------------------------------------------ counting, removal

  function Count(s: string, c: char): nat {
    if |s| == 0 then 0 else (if s[0] == c then 1 else 0) + Count(s[1..], c)
  }

  lemma CountAppend(a: string, b: string, c: char)
    ensures Count(a + b, c) == Count(a, c) + Count(b, c)
  {
    if |a| > 0 {
      assert (a + b)[0] == a[0];
      assert (a + b)[1..] == a[1..] + b;
      CountAppend(a[1..], b, c);
    } else {
      assert a + b == b;
    }
  }

  lemma CountZero(s: string, c: char)
    ensures Count(s, c) == 0 <==> c !in s
  {
    if |s| > 0 {
      assert s == [s[0]] + s[1..];
      CountZero(s[1..], c);
    }
  }

  /** `strings.ReplaceAll(s, [c], "")`: drop every `c`, keep the rest in order. */
  function RemoveAll(s: string, c: char): (r: string)
    ensures c !in r
    ensures |r| == |s| - Count(s, c)
    ensures forall x :: x in r ==> x in s
  {
    if |s| == 0 then ""
    else if s[0] == c then RemoveAll(s[1..], c)
    else [s[0]] + RemoveAll(s[1..], c)
  }

  lemma {:induction false} RemoveAllAppend(a: string, b: string, c: char)
    ensures RemoveAll(a + b, c) == RemoveAll(a, c) + RemoveAll(b, c)
  {
    if |a| == 0 {
      assert a + b == b;
    } else {
      assert (a + b)[0] == a[0];
      assert (a + b)[1..] == a[1..] + b;
      RemoveAllAppend(a[1..], b, c);
    }
  }

  lemma {:induction false} RemoveAllAbsent(s: string, c: char)
    requires c !in s
    ensures RemoveAll(s, c) == s
  {
    if |s| > 0 {
      assert s[1..] == s[1..] && s == [s[0]] + s[1..];
      RemoveAllAbsent(s[1..], c);
    }
  }

  // ------------------------------------------------------------------ bytes

  /** How many bytes UTF-8 spends on a character. */
  function Utf8Width(c: char): (n: nat)
    ensures 1 <= n <= 4
    ensures n == 1 <==> c as int < 0x80
  {
    if c as int < 0x80 then 1
    else if c as int < 0x800 then 2
    else if c as int < 0x1_0000 then 3
    else 4
  }

  /** Go's `len(s)`: the number of bytes of the string's UTF-8 encoding. */
  function Utf8Length(s: string): (n: nat)
    ensures n >= |s|
  {
    if |s| == 0 then 0 else Utf8Width(s[0]) + Utf8Length(s[1..])
  }

  lemma {:induction false} Utf8LengthAppend(a: string, b: string)
    ensures Utf8Length(a + b) == Utf8Length(a) + Utf8Length(b)
  {
    if |a| == 0 {
      assert a + b == b;
    } else {
      assert (a + b)[0] == a[0];
      assert (a + b)[1..] == a[1..] + b;
      Utf8LengthAppend(a[1..], b);
    }
  }

  predicate IsAscii(s: string) {
    forall i :: 0 <= i < |s| ==> s[i] as int < 0x80
  }

  /** Bytes and characters agree in number exactly on ASCII text. */
  lemma {:induction false} AsciiLength(s: string)
    ensures Utf8Length(s) == |s| <==> IsAscii(s)
  {
    if |s| > 0 {
      AsciiLength(s[1..]);
      assert IsAscii(s) <==> s[0] as int < 0x80 && IsAscii(s[1..]) by {
        if IsAscii(s) {
          forall i | 0 <= i < |s[1..]| ensures s[1..][i] as int < 0x80 {
            assert s[1..][i] == s[i + 1];
          }
        }
        if s[0] as int < 0x80 && IsAscii(s[1..]) {
          forall i | 0 <= i < |s| ensures s[i] as int < 0x80 {
            if i > 0 { assert s[i] == s[1..][i - 1]; }
          }
        }
      }
    }
  }

  lemma DigitsAreAscii(s: string)
    requires AllDigits(s)
    ensures Utf8Length(s) == |s|
  {
    AsciiLength(s);
  }

  // -------------------------------------------------------------- splitting

  /** No string occurs twice. */
  predicate NoDuplicates(s: seq<string>) {
    forall i, j :: 0 <= i < j < |s| ==> s[i] != s[j]
  }

  /** `strings.Split(s, [sep])`: the maximal pieces between separators; there
      is always one more piece than there are separators. */
  function SplitOn(s: string, sep: char): (parts: seq<string>)
    ensures |parts| == Count(s, sep) + 1
    ensures forall i :: 0 <= i < |parts| ==> sep !in parts[i]
    decreases |s|
  {
    if |s| == 0 then [""]
    else if s[0] == sep then [""] + SplitOn(s[1..], sep)
    else
      var rest := SplitOn(s[1..], sep);
      [[s[0]] + rest[0]] + rest[1..]
  }

  /** `strings.Join(parts, [sep])`. */
  function Join(parts: seq<string>, sep: char): string
    requires |parts| > 0
  {
    if |parts| == 1 then parts[0] else parts[0] + [sep] + Join(parts[1..], sep)
  }

  /** Splitting loses nothing: joining the pieces back gives the input. */
  lemma {:induction false} JoinSplit(s: string, sep: char)
    ensures Join(SplitOn(s, sep), sep) == s
    decreases |s|
  {
    if |s| == 0 {
    } else if s[0] == sep {
      JoinSplit(s[1..], sep);
      assert s == [sep] + s[1..];
    } else {
      var rest := SplitOn(s[1..], sep);
      JoinSplit(s[1..], sep);
      if |rest| == 1 {
        assert s == [s[0]] + rest[0];
      } else {
        assert SplitOn(s, sep)[1..] == rest[1..];
        assert s == [s[0]] + rest[0] + [sep] + Join(rest[1..], sep);
      }
    }
  }

  /** A string free of the separator is a single piece. */
  lemma {:induction false} SplitOnAbsent(s: string, sep: char)
    requires sep !in s
    ensures SplitOn(s, sep) == [s]
    decreases |s|
  {
    if |s| > 0 {
      assert s[0] in s;
      assert sep !in s[1..];
      SplitOnAbsent(s[1..], sep);
      assert s == [s[0]] + s[1..];
    }
  }

  /** Splitting distributes over a separator between two strings. */
  lemma {:induction false} SplitOnConcat(a: string, b: string, sep: char)
    ensures SplitOn(a + [sep] + b, sep) == SplitOn(a, sep) + SplitOn(b, sep)
    decreases |a|
  {
    var s := a + [sep] + b;
    if |a| == 0 {
      assert s == [sep] + b;
      assert s[1..] == b;
    } else {
      assert s[0] == a[0];
      assert s[1..] == a[1..] + [sep] + b;
      SplitOnConcat(a[1..], b, sep);
    }
  }

  /** Splitting undoes joining when no piece contains the separator. */
  lemma {:induction false} SplitJoin(parts: seq<string>, sep: char)
    requires |parts| > 0
    requires forall i :: 0 <= i < |parts| ==> sep !in parts[i]
    ensures SplitOn(Join(parts, sep), sep) == parts
    decreases |parts|
  {
    SplitOnAbsent(parts[0], sep);
    if |parts| > 1 {
      SplitJoin(parts[1..], sep);
      SplitOnConcat(parts[0], Join(parts[1..], sep), sep);
      assert parts == [parts[0]] + parts[1..];
    }
  }

  // ------------------------------------------------------------ white space

  /** Go's `unicode.IsSpace`: the Latin-1 spaces and the other code points
      with the Unicode White_Space property. */
  predicate IsSpace(c: char) {
    || c == ' ' || c == '\t' || c == '\n' || c == '\r'
    || c == '\U{000B}' || c == '\U{000C}' || c == '\U{0085}' || c == '\U{00A0}'
    || c == '\U{1680}' || ('\U{2000}' <= c <= '\U{200A}')
    || c == '\U{2028}' || c == '\U{2029}' || c == '\U{202F}' || c == '\U{205F}'
    || c == '\U{3000}'
  }

  predicate AllSpace(s: string) {
    forall i :: 0 <= i < |s| ==> IsSpace(s[i])
  }

  function TrimLeftSpace(s: string): (r: string)
    ensures |r| <= |s| && r == s[|s| - |r|..]
    ensures |r| > 0 ==> !IsSpace(r[0])
    ensures AllSpace(s[..|s| - |r|])
    decreases |s|
  {
    if |s| > 0 && IsSpace(s[0]) then TrimLeftSpace(s[1..]) else s
  }

  function TrimRightSpace(s: string): (r: string)
    ensures |r| <= |s| && r == s[..|r|]
    ensures |r| > 0 ==> !IsSpace(r[|r| - 1])
    ensures AllSpace(s[|r|..])
    decreases |s|
  {
    if |s| > 0 && IsSpace(s[|s| - 1]) then TrimRightSpace(s[..|s| - 1]) else s
  }

  /** `strings.TrimSpace`: the input without leading and trailing white space. */
  function TrimSpace(s: string): (r: string)
    ensures |r| > 0 ==> !IsSpace(r[0]) && !IsSpace(r[|r| - 1])
  {
    TrimRightSpace(TrimLeftSpace(s))
  }

  lemma {:induction false} TrimLeftPadded(lead: string, rest: string)
    requires AllSpace(lead)
    requires |rest| > 0 ==> !IsSpace(rest[0])
    ensures TrimLeftSpace(lead + rest) == rest
    decreases |lead|
  {
    if |lead| > 0 {
      assert (lead + rest)[1..] == lead[1..] + rest;
      TrimLeftPadded(lead[1..], rest);
    } else {
      assert lead + rest == rest;
    }
  }

  lemma {:induction false} TrimRightPadded(rest: string, trail: string)
    requires AllSpace(trail)
    requires |rest| > 0 ==> !IsSpace(rest[|rest| - 1])
    ensures TrimRightSpace(rest + trail) == rest
    decreases |trail|
  {
    if |trail| > 0 {
      assert (rest + trail)[..|rest + trail| - 1] == rest + trail[..|trail| - 1];
      TrimRightPadded(rest, trail[..|trail| - 1]);
    } else {
      assert rest + trail == rest;
    }
  }

  /** TrimSpace removes exactly the white-space padding around a text whose
      ends are not white space (this characterises it completely). */
  lemma TrimSpacePadded(lead: string, mid: string, trail: string)
    requires AllSpace(lead) && AllSpace(trail)
    requires |mid| > 0 ==> !IsSpace(mid[0]) && !IsSpace(mid[|mid| - 1])
    ensures TrimSpace(lead + mid + trail) == mid
  {
    if |mid| == 0 {
      assert lead + mid + trail == lead + trail;
      assert AllSpace(lead + trail);
      TrimLeftPadded(lead + trail, "");
      assert lead + trail + "" == lead + trail;
    } else {
      assert lead + mid + trail == lead + (mid + trail);
      TrimLeftPadded(lead, mid + trail);
      TrimRightPadded(mid, trail);
    }
  }

  /** Every input is such a padded text, so trimming twice changes nothing. */
  lemma TrimSpaceIdempotent(s: string)
    ensures TrimSpace(TrimSpace(s)) == TrimSpace(s)
  {
    var r := TrimSpace(s);
    assert r == "" + r + "";
    TrimSpacePadded("", r, "");
  }

  // ---------------------------------------------------------------- numbers

  /** `fmt.Sprintf("%d", n)` for a natural number. */
  function NatToString(n: nat): (r: string)
    ensures |r| > 0 && AllDigits(r)
    decreases n
  {
    if n < 10 then [DigitChar(n)] else NatToString(n / 10) + [DigitChar(n % 10)]
  }

  /** `fmt.Sprintf("%d", i)` for any integer. */
  function IntToString(i: int): (r: string)
    ensures |r| > 0
  {
    if i < 0 then "-" + NatToString(-i) else NatToString(i)
  }

  /** The decimal value of a string of digits (the inverse of NatToString). */
  function ParseNat(s: string): nat
    requires AllDigits(s)
  {
    if |s| == 0 then 0 else ParseNat(s[..|s| - 1]) * 10 + DigitValue(s[|s| - 1])
  }

  /** The decimal value of an optionally signed string of digits. */
  function ParseInt(s: string): Option<int> {
    if |s| > 1 && s[0] == '-' && AllDigits(s[1..]) then
      var magnitude: int := ParseNat(s[1..]);
      Some(-magnitude)
    else if |s| > 0 && AllDigits(s) then
      var value: int := ParseNat(s);
      Some(value)
    else None
  }

  lemma {:induction false} ParseNatToString(n: nat)
    ensures ParseNat(NatToString(n)) == n
    decreases n
  {
    if n >= 10 {
      var s := NatToString(n);
      assert s[..|s| - 1] == NatToString(n / 10);
      ParseNatToString(n / 10);
    }
  }

  lemma ParseIntToString(i: int)
    ensures ParseInt(IntToString(i)) == Some(i)
  {
    var s := IntToString(i);
    if i < 0 {
      var digits := NatToString(-i);
      assert s == "-" + digits;
      assert s[0] == '-' && s[1..] == digits;
      ParseNatToString(-i);
    } else {
      assert IsDigit(s[0]);
      ParseNatToString(i);
    }
  }

  lemma IntToStringHasNoSpace(i: int)
    ensures ' ' !in IntToString(i)
  {
  }

  /** Printing is injective: different numbers print differently. */
  lemma NatToStringInjective(m: nat, n: nat)
    requires NatToString(m) == NatToString(n)
    ensures m == n
  {
    ParseNatToString(m);
    ParseNatToString(n);
  }
}

=== FILE: tx.dfy ===
/** Running a unit of work in one database transaction, after
    internal/shared/tx.go (`WithTx`, `WithTxResult`) and
    internal/events/infra/persistence/postgres_transaction_provider.go
    (`Transact`, `TransactResult`, which hand the work the event, activity
    and check-in repositories bound to the same transaction).

    The database is a value `db`; the unit of work `fn` sees it inside the
    transaction and returns its result, its error and the state it leaves.
    Work that is not committed is never visible: whatever `fn` wrote is
    dropped unless the commit succeeds. The calls the helper makes are
    recorded in order.
 */
module Transactions {

  import opened Wrappers
  import opened EventsStore

  /** The calls the helper makes, in order. */
  datatype Step = Begin | Run | Rollback | Commit

  /** Which transaction-control calls fail, and with what error. */
  datatype TxFaults = TxFaults(begin: Option<string>, rollback: Option<string>, commit: Option<string>)

  const NoTxFaults := TxFaults(None, None, None)

  /** What a transactional run gives back: the work's result value, the
      error (None for nil), the database afterwards and the call trace. */
  datatype Ran<T, D> = Ran(result: T, err: Option<string>, db: D, calls: seq<Step>)

  /** The message for work that failed and whose rollback failed too. */
  function RollbackFailed(err: string, rbErr: string): (m: string)
    ensures |m| == 10 + |err| + 18 + |rbErr|
    ensures m[..10] == "tx error: " && m[10..10 + |err|] == err && m[|m| - |rbErr|..] == rbErr
  {
    "tx error: " + err + ", rollback error: " + rbErr
  }

  /** `WithTxResult` (and `TransactResult`): `zero` is the zero value of
      the result type, returned when the transaction cannot begin. */
  function WithTxResult<T, D>(db: D, zero: T, fn: D -> (T, Option<string>, D), faults: TxFaults): (r: Ran<T, D>)
    ensures faults.begin.Some? ==>
      r == Ran(zero, Some(Wrap("failed to begin transaction", faults.begin.value)), db, [Begin])
    ensures faults.begin.None? ==>
      && r.result == fn(db).0
      && |r.calls| == 3 && r.calls[0] == Begin && r.calls[1] == Run
      && (fn(db).1.Some? ==>
            && r.calls[2] == Rollback && r.db == db
            && r.err == Some(if faults.rollback.Some? then RollbackFailed(fn(db).1.value, faults.rollback.value)
                             else fn(db).1.value))
      && (fn(db).1.None? ==>
            && r.calls[2] == Commit
            && (faults.commit.Some? ==>
                  r.err == Some(Wrap("failed to commit transaction", faults.commit.value)) && r.db == db)
            && (faults.commit.None? ==> r.err == None && r.db == fn(db).2))
  {
    if faults.begin.Some? then Ran(zero, Some(Wrap("failed to begin transaction", faults.begin.value)), db, [Begin])
    else
      var (value, err, changed) := fn(db);
      if err.Some? then
        if faults.rollback.Some? then
          Ran(value, Some(RollbackFailed(err.value, faults.rollback.value)), db, [Begin, Run, Rollback])
        else Ran(value, err, db, [Begin, Run, Rollback])
      else if faults.commit.Some? then
        Ran(value, Some(Wrap("failed to commit transaction", faults.commit.value)), db, [Begin, Run, Commit])
      else Ran(value, None, changed, [Begin, Run, Commit])
  }

  /** `WithTx` (and `Transact`): the same protocol for work that returns
      only an error; the database afterwards comes with it. */
  function WithTx<D>(db: D, fn: D -> (Option<string>, D), faults: TxFaults): (r: (Option<string>, D))
    ensures faults.begin.Some? ==> r == (Some(Wrap("failed to begin transaction", faults.begin.value)), db)
    ensures faults.begin.None? && fn(db).0.Some? ==>
      r == (Some(if faults.rollback.Some? then RollbackFailed(fn(db).0.value, faults.rollback.value)
                 else fn(db).0.value), db)
    ensures faults.begin.None? && fn(db).0.None? ==>
      r == (if faults.commit.Some? then (Some(Wrap("failed to commit transaction", faults.commit.value)), db)
            else (None, fn(db).1))
  {
    if faults.begin.Some? then (Some(Wrap("failed to begin transaction", faults.begin.value)), db)
    else
      var (err, changed) := fn(db);
      if err.Some? then
        if faults.rollback.Some? then (Some(RollbackFailed(err.value, faults.rollback.value)), db)
        else (err, db)
      else if faults.commit.Some? then (Some(Wrap("failed to commit transaction", faults.commit.value)), db)
      else (None, changed)
  }

  /** `Transact`: the unit of work gets the three repositories of the
      events database, all bound to the one transaction, so their writes
      land or vanish together. */
  function Transact(store: Store, fn: Store -> (Option<string>, Store), faults: TxFaults): (r: (Option<string>, Store))
    ensures r.0.None? ==> r.1 == fn(store).1
    ensures r.0.Some? ==> r.1 == store
  {
    WithTx(store, fn, faults)
  }

  // ---------------------------------------------------------- properties

  /** Atomicity: afterwards the database is either untouched or exactly what
      the work left, and the latter precisely when the run reports success,
      which needs the begin, the work and the commit all to succeed. */
  lemma AllOrNothing<T, D>(db: D, zero: T, fn: D -> (T, Option<string>, D), faults: TxFaults)
    ensures var r := WithTxResult(db, zero, fn, faults);
      && (r.err.None? <==> faults.begin.None? && fn(db).1.None? && faults.commit.None?)
      && (r.err.None? ==> r.db == fn(db).2)
      && (r.err.Some? ==> r.db == db)
  {
  }

  /** The work runs at most once, and only inside a transaction that began;
      every transaction that begins ends in exactly one commit or one
      rollback, a commit only after the work succeeded. */
  lemma OneEnding<T, D>(db: D, zero: T, fn: D -> (T, Option<string>, D), faults: TxFaults)
    ensures var calls := WithTxResult(db, zero, fn, faults).calls;
      && (Run in calls <==> faults.begin.None?)
      && (faults.begin.None? ==> |calls| == 3 && (calls[2] == Commit <==> fn(db).1.None?)
                                 && (calls[2] == Rollback <==> fn(db).1.Some?))
      && calls[0] == Begin
      && (forall i :: 1 <= i < |calls| ==> calls[i] != Begin)
  {
  }

  /** When the rollback succeeds, the work's own error reaches the caller
      unchanged, so callers that compare error messages still recognise it. */
  lemma WorkErrorPassesThrough<T, D>(db: D, zero: T, fn: D -> (T, Option<string>, D), faults: TxFaults)
    requires faults.begin.None? && faults.rollback.None? && fn(db).1.Some?
    ensures WithTxResult(db, zero, fn, faults).err == fn(db).1
    ensures WithTxResult(db, zero, fn, faults).result == fn(db).0
  {
  }

  /** `WithTx` is `WithTxResult` with a result that carries nothing. */
  lemma WithTxIsResultless<D>(db: D, fn: D -> (Option<string>, D), faults: TxFaults)
    ensures var g := (d: D) => ((), fn(d).0, fn(d).1);
      var r := WithTxResult(db, (), g, faults);
      WithTx(db, fn, faults) == (r.err, r.db)
  {
  }
}

=== FILE: user_authorization.dfy ===
/** The events side's view of users, after
    internal/events/infra/service/user_authorization_adapter.go: every
    method reads the identity user repository, modelled as a sequence of
    users, and a repository failure is the parameter `fault`.
 */
module UserAuthorization {

  import opened Wrappers
  import opened Identity

  type UserStore = seq<User>

  /** The `UserInfo` record the events side receives. */
  datatype UserInfo = UserInfo(id: string, firstName: string, lastName: string, email: string, isAdmin: bool)

  /** The repository's `FindByID`: the stored user with that ID, or nil. */
  function FindUser(store: UserStore, id: string): (r: Option<User>)
    ensures r.Some? ==> r.value in store && r.value.id == id
    ensures r.None? ==> forall u :: u in store ==> u.id != id
  {
    if |store| == 0 then None
    else if store[0].id == id then Some(store[0])
    else FindUser(store[1..], id)
  }

  /** The repository's `FindByIDs`: the stored users whose ID is asked for,
      in stored order. */
  function FindUsers(store: UserStore, ids: seq<string>): (r: seq<User>)
    ensures forall u :: u in r <==> u in store && u.id in ids
    ensures |r| <= |store|
  {
    if |store| == 0 then []
    else (if store[0].id in ids then [store[0]] else []) + FindUsers(store[1..], ids)
  }

  function ToUserInfo(u: User): (i: UserInfo)
    ensures i.id == u.id && i.firstName == u.firstName && i.lastName == u.lastName
    ensures i.email == u.email && (i.isAdmin <==> u.role == RoleAdmin)
  {
    UserInfo(u.id, u.firstName, u.lastName, u.email, IsAdmin(u))
  }

  /** `GetUserByID`: nil for an unknown user, the user's details otherwise;
      a repository error is passed on unchanged. */
  function GetUserByID(store: UserStore, id: string, fault: Option<string>): (r: Result<Option<UserInfo>>)
    ensures fault.Some? ==> r == Err(fault.value)
    ensures fault.None? ==> r.Ok?
    ensures fault.None? && FindUser(store, id).None? ==> r == Ok(None)
    ensures fault.None? && FindUser(store, id).Some? ==> r == Ok(Some(ToUserInfo(FindUser(store, id).value)))
  {
    if fault.Some? then Err(fault.value)
    else match FindUser(store, id)
      case None => Ok(None)
      case Some(u) => Ok(Some(ToUserInfo(u)))
  }

  /** `IsUserAdmin`: false for an unknown user. */
  function IsUserAdmin(store: UserStore, id: string, fault: Option<string>): (r: Result<bool>)
    ensures fault.Some? ==> r == Err(fault.value)
    ensures fault.None? ==> r.Ok?
    ensures fault.None? && FindUser(store, id).None? ==> r == Ok(false)
    ensures r == Ok(true) ==> exists u :: u in store && u.id == id && IsAdmin(u)
  {
    if fault.Some? then Err(fault.value)
    else match FindUser(store, id)
      case None => Ok(false)
      case Some(u) => Ok(IsAdmin(u))
  }

  /** `GetUserEmail`: the empty string for an unknown user. */
  function GetUserEmail(store: UserStore, id: string, fault: Option<string>): (r: Result<string>)
    ensures fault.Some? ==> r == Err(fault.value)
    ensures fault.None? && FindUser(store, id).None? ==> r == Ok("")
    ensures fault.None? && FindUser(store, id).Some? ==> r == Ok(FindUser(store, id).value.email)
  {
    if fault.Some? then Err(fault.value)
    else match FindUser(store, id)
      case None => Ok("")
      case Some(u) => Ok(u.email)
  }

  function ToUserInfos(users: seq<User>): (r: seq<UserInfo>)
    ensures |r| == |users|
    ensures forall i :: 0 <= i < |users| ==> r[i] == ToUserInfo(users[i])
  {
    if |users| == 0 then [] else [ToUserInfo(users[0])] + ToUserInfos(users[1..])
  }

  /** `GetUserInfoBatch`: one record per user the repository returns, same
      order, nothing filtered. */
  function GetUserInfoBatch(store: UserStore, ids: seq<string>, fault: Option<string>): (r: Result<seq<UserInfo>>)
    ensures fault.Some? ==> r == Err(fault.value)
    ensures fault.None? ==> r.Ok? && |r.value| == |FindUsers(store, ids)|
    ensures fault.None? ==> forall i :: 0 <= i < |r.value| ==> r.value[i] == ToUserInfo(FindUsers(store, ids)[i])
    ensures fault.None? ==> forall i :: 0 <= i < |r.value| ==> r.value[i].id in ids
  {
    if fault.Some? then Err(fault.value) else Ok(ToUserInfos(FindUsers(store, ids)))
  }

  /** The three single-user lookups agree with each other: a user who is
      unknown to one is unknown to all. */
  lemma LookupsAgree(store: UserStore, id: string)
    ensures GetUserByID(store, id, None) == Ok(None) ==> IsUserAdmin(store, id, None) == Ok(false) && GetUserEmail(store, id, None) == Ok("")
    ensures GetUserByID(store, id, None).value.Some? ==>
      var info := GetUserByID(store, id, None).value.value;
      IsUserAdmin(store, id, None) == Ok(info.isAdmin) && GetUserEmail(store, id, None) == Ok(info.email)
  {
  }
}

=== FILE: worker.dfy ===
/** The certificate worker, after internal/events/infra/worker/certificate_worker.go:
    the workload and date phrases, the handling of one job, and one turn of
    the polling loop. PDF rendering, e-mail delivery and the calendar reading
    of an instant are function parameters.
 */
module Worker {

  import opened Wrappers
  import opened Text
  import opened Clock
  import opened CertificateJobs
  import opened JobCodec
  import opened CertificateQueue

  /** The loop waits at most this long for a job before looking again. */
  const PollTimeout: nat := 5 * Second

  const DirectorName := "Dr. João Silva"
  const CoordinatorName := "Dra. Maria Santos"

  // --------------------------------------------------------------- workload

  /** Go's integer division and remainder, which truncate toward zero. */
  function TruncDiv(a: int, b: int): (q: int)
    requires b > 0
    ensures a >= 0 ==> q == a / b
  {
    if a >= 0 then a / b else -((-a) / b)
  }

  function TruncMod(a: int, b: int): (m: int)
    requires b > 0
    ensures a >= 0 ==> m == a % b
  {
    a - b * TruncDiv(a, b)
  }

  /** The words of the phrase for a number of hours and minutes: hours alone
      when there are no minutes (so a zero length reads "0 horas"), minutes
      alone when there are no hours, otherwise both joined by "e"; a unit is
      singular when its count is 1. */
  function WorkloadWords(hours: int, minutes: int): seq<string> {
    if minutes == 0 then
      if hours == 1 then ["1", "hora"] else [IntToString(hours), "horas"]
    else if hours == 0 then
      if minutes == 1 then ["1", "minuto"] else [IntToString(minutes), "minutos"]
    else
      [IntToString(hours), if hours > 1 then "horas" else "hora", "e",
       IntToString(minutes), if minutes > 1 then "minutos" else "minuto"]
  }

  /** The words, separated by single spaces. */
  function WorkloadPhrase(hours: int, minutes: int): string {
    Join(WorkloadWords(hours, minutes), ' ')
  }

  /** The unit word Portuguese gives a count: singular for one, plural for
      every other count (zero included). */
  function HourUnit(n: int): string { if n == 1 then "hora" else "horas" }
  function MinuteUnit(n: int): string { if n == 1 then "minuto" else "minutos" }

  /** A count as `%d` writes a length's part: digits with no sign and no
      leading zero. */
  function ReadCount(s: string): (r: Option<int>)
    ensures r.Some? ==> r.value >= 0 && s == IntToString(r.value)
  {
    if |s| > 0 && AllDigits(s) && NatToString(ParseNat(s)) == s then Some(ParseNat(s)) else None
  }

  /** The grammar of a workload phrase, read back into (hours, minutes):
      "<h> <unit>", "<m> <unit>" for m other than 0, or
      "<h> <unit> e <m> <unit>" for h and m both other than 0, each count
      written as `ReadCount` reads it and each unit agreeing in number with
      its count. Anything else is no phrase. */
  function ParseWorkloadWords(w: seq<string>): Option<(int, int)> {
    if |w| == 2 && ReadCount(w[0]).Some? && w[1] == HourUnit(ReadCount(w[0]).value) then
      Some((ReadCount(w[0]).value, 0))
    else if |w| == 2 && ReadCount(w[0]).Some? && ReadCount(w[0]).value != 0
         && w[1] == MinuteUnit(ReadCount(w[0]).value) then
      Some((0, ReadCount(w[0]).value))
    else if |w| == 5 && w[2] == "e" && ReadCount(w[0]).Some? && ReadCount(w[3]).Some?
         && ReadCount(w[0]).value != 0 && ReadCount(w[3]).value != 0
         && w[1] == HourUnit(ReadCount(w[0]).value) && w[4] == MinuteUnit(ReadCount(w[3]).value) then
      Some((ReadCount(w[0]).value, ReadCount(w[3]).value))
    else None
  }

  function ParseWorkload(s: string): Option<(int, int)> {
    ParseWorkloadWords(SplitOn(s, ' '))
  }

  lemma WorkloadWordsHaveNoSpace(hours: int, minutes: int)
    ensures var w := WorkloadWords(hours, minutes);
      |w| > 0 && forall i :: 0 <= i < |w| ==> ' ' !in w[i]
  {
    IntToStringHasNoSpace(hours);
    IntToStringHasNoSpace(minutes);
  }

  lemma ReadCountPrinted(n: int)
    requires n >= 0
    ensures ReadCount(IntToString(n)) == Some(n)
  {
    ParseNatToString(n);
  }

  lemma WorkloadWordsRoundTrip(hours: int, minutes: int)
    requires hours >= 0 && minutes >= 0
    ensures ParseWorkloadWords(WorkloadWords(hours, minutes)) == Some((hours, minutes))
  {
    ReadCountPrinted(hours);
    ReadCountPrinted(minutes);
    ReadCountPrinted(1);
    assert IntToString(1) == "1";
  }

  /** The words the grammar accepts are exactly the words printed for what
      it reads. */
  lemma ParseWorkloadWordsExact(w: seq<string>)
    requires ParseWorkloadWords(w).Some?
    ensures var (h, m) := ParseWorkloadWords(w).value; h >= 0 && m >= 0 && w == WorkloadWords(h, m)
  {
    assert IntToString(1) == "1";
  }

  /** The parser reads only printed phrases: a text it accepts is the phrase
      for the counts it reads, so no other spelling of a count (a sign, a
      leading zero) passes. */
  lemma ParseWorkloadExact(s: string)
    ensures ParseWorkload(s).Some? ==>
      var (h, m) := ParseWorkload(s).value; h >= 0 && m >= 0 && s == WorkloadPhrase(h, m)
  {
    if ParseWorkload(s).Some? {
      JoinSplit(s, ' ');
      ParseWorkloadWordsExact(SplitOn(s, ' '));
    }
  }

  /** Every phrase for counts a non-negative length gives is grammatical and
      names its hours and minutes unambiguously: the unit words agree in
      number with their counts, and a zero count of minutes (or of hours,
      when there are minutes) is not written. */
  lemma WorkloadPhraseRoundTrip(hours: int, minutes: int)
    ensures hours >= 0 && minutes >= 0 ==>
      ParseWorkload(WorkloadPhrase(hours, minutes)) == Some((hours, minutes))
  {
    if hours >= 0 && minutes >= 0 {
      WorkloadWordsHaveNoSpace(hours, minutes);
      SplitJoin(WorkloadWords(hours, minutes), ' ');
      WorkloadWordsRoundTrip(hours, minutes);
    }
  }

  /** The unit rule, word by word: "hora" exactly for one hour, "horas" for
      any other number of hours that is written, "minuto" exactly for one
      minute, "minutos" for more, and hours are written unless the length
      is a non-zero number of minutes under an hour. */
  lemma WorkloadUnitRule(hours: nat, minutes: nat)
    ensures var w := WorkloadWords(hours, minutes);
      && ("hora" in w <==> hours == 1)
      && ("horas" in w <==> hours != 1 && (hours > 0 || minutes == 0))
      && ("minuto" in w <==> minutes == 1)
      && ("minutos" in w <==> minutes > 1)
      && ("e" in w <==> hours > 0 && minutes > 0)
  {
    NumberIsNoWord(hours);
    NumberIsNoWord(minutes);
  }

  /** A printed count is never one of the phrase's words. */
  lemma NumberIsNoWord(n: nat)
    ensures var s := IntToString(n);
      s != "hora" && s != "horas" && s != "minuto" && s != "minutos" && s != "e"
  {
    var s := IntToString(n);
    assert IsDigit(s[0]);
  }

  /** For a non-negative length, whole hours and the whole minutes left over
      bracket it to within a minute. */
  lemma HoursAndMinutes(d: int)
    ensures d >= 0 ==>
      var h := d / Hour;
      var m := (d / Minute) % 60;
      0 <= m < 60 && h * Hour + m * Minute <= d < h * Hour + (m + 1) * Minute
  {
    if d < 0 { return; }
    var tm := d / Minute;
    var h := tm / 60;
    var m := tm % 60;
    assert d == tm * Minute + d % Minute;
    assert tm == h * 60 + m;
    assert d == h * Hour + m * Minute + d % Minute;
    assert 0 <= m * Minute + d % Minute < Hour;
    assert h == d / Hour;
  }

  /** The hours and minutes `calculateWorkload` reads off a length, in exact
      integer arithmetic. Go converts through float64 (`Duration.Hours`,
      `Duration.Minutes`), which gives the same parts below 4096 hours. */
  function WorkloadParts(d: Duration): (hm: (int, int))
    ensures d >= 0 ==> hm == (d / Hour, (d / Minute) % 60)
  {
    (TruncDiv(d, Hour), TruncMod(TruncDiv(d, Minute), 60))
  }

  /** `calculateWorkload`: for an activity that does not end before it
      starts, the phrase names the whole hours and the remaining whole
      minutes of its length, rounded down to the minute. */
  function CalculateWorkload(a: ActivityInfo): (r: string)
    ensures var d := Sub(a.endTime, a.startTime);
      d >= 0 ==>
        && ParseWorkload(r).Some?
        && var (h, m) := ParseWorkload(r).value;
           0 <= m < 60 && h * Hour + m * Minute <= d < h * Hour + (m + 1) * Minute
  {
    var d := Sub(a.endTime, a.startTime);
    var hm := WorkloadParts(d);
    WorkloadPhraseRoundTrip(hm.0, hm.1);
    HoursAndMinutes(d);
    WorkloadPhrase(hm.0, hm.1)
  }

  /** Two readings that bracket the same length to within a minute are the
      same reading. */
  lemma BracketUnique(d: int, h: int, m: int, h': int, m': int)
    requires 0 <= m < 60 && h * Hour + m * Minute <= d < h * Hour + (m + 1) * Minute
    requires 0 <= m' < 60 && h' * Hour + m' * Minute <= d < h' * Hour + (m' + 1) * Minute
    ensures h == h' && m == m'
  {
    var t, t' := h * 60 + m, h' * 60 + m';
    assert h * Hour + m * Minute == t * Minute;
    assert h' * Hour + m' * Minute == t' * Minute;
    WholeMinutes(d, t);
    WholeMinutes(d, t');
  }

  /** The number of whole minutes in a length is its floor quotient. */
  lemma WholeMinutes(d: int, t: int)
    requires t * Minute <= d < (t + 1) * Minute
    ensures t == d / Minute
  {
    var q, r := d / Minute, d % Minute;
    assert d == q * Minute + r;
    assert (t - q) * Minute <= r < Minute;
    assert -Minute < (t - q) * Minute <= r;
  }

  /** The phrase is determined by its meaning: for an activity that does not
      end before it starts, the only grammatical phrase whose reading
      brackets the length to within a minute is the one `calculateWorkload`
      writes. */
  lemma WorkloadDetermined(a: ActivityInfo, s: string)
    requires var d := Sub(a.endTime, a.startTime);
      && d >= 0 && ParseWorkload(s).Some?
      && var (h, m) := ParseWorkload(s).value;
         0 <= m < 60 && h * Hour + m * Minute <= d < h * Hour + (m + 1) * Minute
    ensures s == CalculateWorkload(a)
  {
    var d := Sub(a.endTime, a.startTime);
    var r := CalculateWorkload(a);
    var (h, m) := ParseWorkload(s).value;
    var (h', m') := ParseWorkload(r).value;
    BracketUnique(d, h, m, h', m');
    ParseWorkloadExact(s);
    ParseWorkloadExact(r);
  }

  /** The phrase `calculateWorkload` builds is the one for the parts of the
      activity's length. */
  lemma CalculateWorkloadParts(a: ActivityInfo)
    ensures var hm := WorkloadParts(Sub(a.endTime, a.startTime));
      CalculateWorkload(a) == WorkloadPhrase(hm.0, hm.1)
  {
  }

  /** An illustration of the phrase rule on one length: zero reads "0 horas". */
  lemma ZeroWorkload(start: Instant)
    ensures CalculateWorkload(ActivityInfo("", "", start, start, start)) == "0 horas"
  {
    var a := ActivityInfo("", "", start, start, start);
    CalculateWorkloadParts(a);
    assert Sub(a.endTime, a.startTime) == 0;
    assert WorkloadParts(0) == (0, 0);
    ZeroPhrase();
  }

  lemma ZeroPhrase()
    ensures WorkloadPhrase(0, 0) == "0 horas"
  {
    assert IntToString(0) == [DigitChar(0)] == "0";
    assert WorkloadWords(0, 0) == ["0"] + ["horas"];
    JoinFront("0", ["horas"]);
  }

  /** An illustration on one length: ninety minutes read "1 hora e 30 minutos". */
  lemma MixedWorkload(start: Instant)
    ensures CalculateWorkload(ActivityInfo("", "", start, start, start + 90 * Minute)) == "1 hora e 30 minutos"
  {
    var a := ActivityInfo("", "", start, start, start + 90 * Minute);
    CalculateWorkloadParts(a);
    assert Sub(a.endTime, a.startTime) == 5_400_000_000_000;
    MixedParts();
    MixedPhrase();
  }

  lemma MixedParts()
    ensures WorkloadParts(5_400_000_000_000) == (1, 30)
  {
    assert Hour == 3_600_000_000_000 && Minute == 60_000_000_000;
    assert 5_400_000_000_000 / 3_600_000_000_000 == 1;
    assert 5_400_000_000_000 / 60_000_000_000 == 90;
  }

  /** Joining a word onto a non-empty phrase puts one space between them. */
  lemma JoinFront(first: string, rest: seq<string>)
    requires |rest| > 0
    ensures Join([first] + rest, ' ') == first + " " + Join(rest, ' ')
  {
    assert ([first] + rest)[1..] == rest;
  }

  lemma Thirty()
    ensures IntToString(30) == "30"
  {
    assert NatToString(3) == "3";
    assert NatToString(30) == NatToString(3) + [DigitChar(0)];
  }

  lemma MixedPhrase()
    ensures WorkloadPhrase(1, 30) == "1 hora e 30 minutos"
  {
    assert IntToString(1) == "1";
    Thirty();
    assert WorkloadWords(1, 30) == ["1"] + (["hora"] + (["e"] + (["30"] + ["minutos"])));
    JoinFront("30", ["minutos"]);
    JoinFront("e", ["30"] + ["minutos"]);
    JoinFront("hora", ["e"] + (["30"] + ["minutos"]));
    JoinFront("1", ["hora"] + (["e"] + (["30"] + ["minutos"])));
  }

  /** An illustration on one length: two hours and 59 seconds read "2 horas". */
  lemma SecondsDropped(start: Instant)
    ensures CalculateWorkload(ActivityInfo("", "", start, start, start + 2 * Hour + 59 * Second)) == "2 horas"
  {
    var a := ActivityInfo("", "", start, start, start + 2 * Hour + 59 * Second);
    CalculateWorkloadParts(a);
    assert Sub(a.endTime, a.startTime) == 7_259_000_000_000;
    SecondsParts();
    TwoHoursPhrase();
  }

  lemma TwoHoursPhrase()
    ensures WorkloadPhrase(2, 0) == "2 horas"
  {
    assert IntToString(2) == "2";
    assert WorkloadWords(2, 0) == ["2"] + ["horas"];
    JoinFront("2", ["horas"]);
  }

  lemma SecondsParts()
    ensures WorkloadParts(7_259_000_000_000) == (2, 0)
  {
    assert Hour == 3_600_000_000_000 && Minute == 60_000_000_000;
    assert 7_259_000_000_000 / 3_600_000_000_000 == 2;
    assert 7_259_000_000_000 / 60_000_000_000 == 120;
  }

  // ------------------------------------------------------------------- date

  function MonthName(month: int): (name: string)
    requires 1 <= month <= 12
    ensures |name| > 0 && ' ' !in name
  {
    ["janeiro", "fevereiro", "março", "abril", "maio", "junho",
     "julho", "agosto", "setembro", "outubro", "novembro", "dezembro"][month - 1]
  }

  function MonthNumber(name: string): (r: Option<int>)
    ensures r.Some? ==> 1 <= r.value <= 12 && MonthName(r.value) == name
  {
    if name == "janeiro" then Some(1)
    else if name == "fevereiro" then Some(2)
    else if name == "março" then Some(3)
    else if name == "abril" then Some(4)
    else if name == "maio" then Some(5)
    else if name == "junho" then Some(6)
    else if name == "julho" then Some(7)
    else if name == "agosto" then Some(8)
    else if name == "setembro" then Some(9)
    else if name == "outubro" then Some(10)
    else if name == "novembro" then Some(11)
    else if name == "dezembro" then Some(12)
    else None
  }

  lemma MonthNumberName(month: int)
    requires 1 <= month <= 12
    ensures MonthNumber(MonthName(month)) == Some(month)
  {
  }

  /** `formatDate`: "<day> de <month name> de <year>". */
  function FormatDate(d: Date): string {
    Join([IntToString(d.day), "de", MonthName(d.month), "de", IntToString(d.year)], ' ')
  }

  function ParseDate(s: string): Option<CivilDate> {
    var w := SplitOn(s, ' ');
    if |w| == 5 && w[1] == "de" && w[3] == "de"
       && ParseInt(w[0]).Some? && MonthNumber(w[2]).Some? && ParseInt(w[4]).Some? then
      Some(CivilDate(ParseInt(w[4]).value, MonthNumber(w[2]).value, ParseInt(w[0]).value))
    else None
  }

  /** The date phrase loses nothing: it reads back to the same date. */
  lemma FormatDateRoundTrip(d: Date)
    ensures ParseDate(FormatDate(d)) == Some(d)
  {
    IntToStringHasNoSpace(d.day);
    IntToStringHasNoSpace(d.year);
    ParseIntToString(d.day);
    ParseIntToString(d.year);
    MonthNumberName(d.month);
    SplitJoin([IntToString(d.day), "de", MonthName(d.month), "de", IntToString(d.year)], ' ');
  }

  // ------------------------------------------------------------ one job

  datatype CertificateData = CertificateData(
    recipientName: string,
    eventName: string,
    eventDate: string,
    workload: string,
    directorName: string,
    coordinatorName: string,
    certificateDate: string)

  datatype Attachment = Attachment(filename: string, content: seq<bv8>, contentType: string)

  /** The e-mail sent; its HTML body is not modelled. */
  datatype Email = Email(to: string, subject: string, attachments: seq<Attachment>)

  /** What handling one job did: the data rendered, the e-mails handed to the
      mail service (none or one), and whether that one was accepted. */
  datatype JobReport = JobReport(job: CertificateJob, data: CertificateData, attempts: seq<Email>, delivered: bool)

  /** `processJob`: `calendar` reads an instant as a date, `generate` renders
      the PDF and `send` delivers an e-mail; each may fail. */
  function ProcessJob(job: CertificateJob, now: Instant, calendar: Instant -> Date,
                      generate: CertificateData -> Result<seq<bv8>>, send: Email -> Outcome): (r: JobReport)
    ensures r.job == job
    ensures r.data.recipientName == job.userInfo.userName && r.data.eventName == job.eventInfo.eventName
    ensures r.data.eventDate == FormatDate(calendar(job.activityInfo.activityDate))
    ensures r.data.certificateDate == FormatDate(calendar(now))
    ensures r.data.workload == CalculateWorkload(job.activityInfo)
    ensures r.data.directorName == DirectorName && r.data.coordinatorName == CoordinatorName
    ensures generate(r.data).Err? <==> r.attempts == []
    ensures |r.attempts| <= 1
    ensures |r.attempts| == 1 ==>
      r.attempts[0] == Email(job.userInfo.userEmail, "Certificado - " + job.eventInfo.eventName,
                             [Attachment("certificado-" + job.jobId + ".pdf", generate(r.data).value, "application/pdf")])
    ensures r.delivered <==> |r.attempts| == 1 && send(r.attempts[0]) == Pass
  {
    var data := CertificateData(
      job.userInfo.userName,
      job.eventInfo.eventName,
      FormatDate(calendar(job.activityInfo.activityDate)),
      CalculateWorkload(job.activityInfo),
      DirectorName,
      CoordinatorName,
      FormatDate(calendar(now)));
    match generate(data)
    case Err(_) => JobReport(job, data, [], false)
    case Ok(pdf) =>
      var email := Email(job.userInfo.userEmail, "Certificado - " + job.eventInfo.eventName,
                         [Attachment("certificado-" + job.jobId + ".pdf", pdf, "application/pdf")]);
      JobReport(job, data, [email], send(email) == Pass)
  }

  // ------------------------------------------------------------ the loop

  datatype Step = Stopped | Continued(rest: Queue, handled: Option<JobReport>)

  /** One turn of `Start`: `cancelled` is whether the context was done when
      the turn began, `cancelledAfter` whether it is done when a dequeue
      error is examined. */
  function WorkerStep(q: Queue, cancelled: bool, link: Link, cancelledAfter: bool, now: Instant,
                      calendar: Instant -> Date, generate: CertificateData -> Result<seq<bv8>>,
                      send: Email -> Outcome): (r: Step)
    ensures cancelled ==> r == Stopped
    ensures !cancelled && !cancelledAfter ==> r.Continued?
    ensures !cancelled && link.Healthy? && |q| == 0 ==> r == Continued(q, None)
    ensures r.Continued? ==> r.rest == q || (|q| > 0 && r.rest == q[..|q| - 1])
    ensures r.Continued? && r.handled.Some? ==>
      && link.Healthy? && |q| > 0 && r.rest == q[..|q| - 1]
      && Decode(q[|q| - 1]).Ok? && r.handled.value.job == Decode(q[|q| - 1]).value
    ensures !cancelled && link.Healthy? && |q| > 0 && Decode(q[|q| - 1]).Ok? ==>
      r.Continued? && r.handled.Some? && r.rest == q[..|q| - 1]
  {
    if cancelled then Stopped
    else
      match DequeueWithTimeout(q, PollTimeout, link)
      case Blocks => assert false; Stopped
      case Reply(Err(_), rest) => if cancelledAfter then Stopped else Continued(rest, None)
      case Reply(Ok(None), rest) => Continued(rest, None)
      case Reply(Ok(Some(job)), rest) => Continued(rest, Some(ProcessJob(job, now, calendar, generate, send)))
  }

  /** Turns of the loop on a healthy, never-cancelled connection until the
      list is empty, collecting what each turn handled. */
  function Drain(q: Queue, now: Instant, calendar: Instant -> Date,
                 generate: CertificateData -> Result<seq<bv8>>, send: Email -> Outcome): (r: seq<JobReport>)
    ensures |r| <= |q|
    decreases |q|
  {
    if |q| == 0 then []
    else
      match WorkerStep(q, false, Healthy, false, now, calendar, generate, send)
      case Stopped => assert false; []
      case Continued(rest, handled) =>
        (if handled.Some? then [handled.value] else []) + Drain(rest, now, calendar, generate, send)
  }

  /** A turn on a well-formed last payload handles exactly that job. */
  lemma DrainStep(q: Queue, now: Instant, calendar: Instant -> Date,
                  generate: CertificateData -> Result<seq<bv8>>, send: Email -> Outcome)
    requires |q| > 0 && Decode(q[|q| - 1]).Ok?
    ensures var r := Drain(q, now, calendar, generate, send);
      |r| > 0 && r[0].job == Decode(q[|q| - 1]).value
      && r[1..] == Drain(q[..|q| - 1], now, calendar, generate, send)
  {
  }

  /** When every payload is well formed, draining handles each exactly once,
      in delivery order. */
  lemma {:induction false} DrainFollowsDeliveryOrder(q: Queue, now: Instant, calendar: Instant -> Date,
                                                     generate: CertificateData -> Result<seq<bv8>>, send: Email -> Outcome)
    requires forall i :: 0 <= i < |q| ==> Decode(q[i]).Ok?
    ensures var r := Drain(q, now, calendar, generate, send);
      |r| == |q| && forall i :: 0 <= i < |q| ==> Decode(DeliveryOrder(q)[i]) == Ok(r[i].job)
    decreases |q|
  {
    if |q| > 0 {
      var last := q[|q| - 1];
      var rest := q[..|q| - 1];
      var r := Drain(q, now, calendar, generate, send);
      var r' := Drain(rest, now, calendar, generate, send);
      assert Decode(last).Ok?;
      DrainStep(q, now, calendar, generate, send);
      DrainFollowsDeliveryOrder(rest, now, calendar, generate, send);
      LastDeliveredFirst(q);
      OrderShifts(DeliveryOrder(q), DeliveryOrder(rest), r, r');
    }
  }

  /** The last element of the list is delivered first, then the rest in
      their own delivery order. */
  lemma LastDeliveredFirst(q: Queue)
    requires |q| > 0
    ensures DeliveryOrder(q)[0] == q[|q| - 1]
    ensures DeliveryOrder(q)[1..] == DeliveryOrder(q[..|q| - 1])
  {
    var rest := q[..|q| - 1];
    assert q == rest + [q[|q| - 1]];
    ReverseAppend(rest, [q[|q| - 1]]);
  }

  /** One report in front of the reports of the rest, one payload in front
      of the rest's delivery order: the pairing carries over. */
  lemma OrderShifts(order: seq<Json>, restOrder: seq<Json>, r: seq<JobReport>, r': seq<JobReport>)
    requires |order| == |restOrder| + 1 && order[1..] == restOrder
    requires |r| > 0 && r[1..] == r' && |r'| == |restOrder|
    requires Decode(order[0]) == Ok(r[0].job)
    requires forall i :: 0 <= i < |restOrder| ==> Decode(restOrder[i]) == Ok(r'[i].job)
    ensures |r| == |order| && forall i :: 0 <= i < |order| ==> Decode(order[i]) == Ok(r[i].job)
  {
    forall i | 0 <= i < |order|
      ensures Decode(order[i]) == Ok(r[i].job)
    {
      if i > 0 {
        assert order[i] == restOrder[i - 1];
        assert r[i] == r'[i - 1];
      }
    }
  }

  /** Each payload of a successful batch decodes to its job, in batch order. */
  lemma BatchPayloads(jobs: seq<CertificateJob>)
    requires |jobs| > 0 && forall i :: 0 <= i < |jobs| ==> JobEncodable(jobs[i])
    ensures var q := EnqueueBatch([], jobs, ExecOk).1;
      && |q| == |jobs|
      && (forall i :: 0 <= i < |jobs| ==> Decode(DeliveryOrder(q)[i]) == Ok(jobs[i]))
      && (forall i :: 0 <= i < |q| ==> Decode(q[i]).Ok?)
  {
    var q := EnqueueBatch([], jobs, ExecOk).1;
    var ps := EncodeAll(jobs).value;
    assert DeliveryOrder(q) == ps;
    EncodedPayloadsDecode(jobs);
    AllDecodeReversed(q, jobs);
  }

  /** Every encoded payload decodes back to its job. */
  lemma EncodedPayloadsDecode(jobs: seq<CertificateJob>)
    requires EncodeAll(jobs).Ok?
    ensures forall i :: 0 <= i < |jobs| ==> Decode(EncodeAll(jobs).value[i]) == Ok(jobs[i])
  {
    forall i | 0 <= i < |jobs|
      ensures Decode(EncodeAll(jobs).value[i]) == Ok(jobs[i])
    {
      RoundTrip(jobs[i]);
    }
  }

  /** If the delivery order decodes element by element, so does the list. */
  lemma AllDecodeReversed(q: Queue, jobs: seq<CertificateJob>)
    requires |DeliveryOrder(q)| == |jobs|
    requires forall i :: 0 <= i < |jobs| ==> Decode(DeliveryOrder(q)[i]) == Ok(jobs[i])
    ensures forall i :: 0 <= i < |q| ==> Decode(q[i]).Ok?
  {
    forall i | 0 <= i < |q|
      ensures Decode(q[i]).Ok?
    {
      assert q[i] == DeliveryOrder(q)[|q| - 1 - i];
    }
  }

  /** End to end: a batch of jobs enqueued together on an empty list is
      handled job by job in the order of the batch. */
  lemma BatchHandledInOrder(jobs: seq<CertificateJob>, now: Instant, calendar: Instant -> Date,
                            generate: CertificateData -> Result<seq<bv8>>, send: Email -> Outcome)
    requires |jobs| > 0 && forall i :: 0 <= i < |jobs| ==> JobEncodable(jobs[i])
    ensures var r := Drain(EnqueueBatch([], jobs, ExecOk).1, now, calendar, generate, send);
      |r| == |jobs| && forall i :: 0 <= i < |jobs| ==> r[i].job == jobs[i]
  {
    var q := EnqueueBatch([], jobs, ExecOk).1;
    BatchPayloads(jobs);
    DrainFollowsDeliveryOrder(q, now, calendar, generate, send);
  }
}

=== FILE: wrappers.dfy ===
/** Failure-carrying values shared by every module.

    Go reports failure as an `error` whose only observable part, for the
    callers modelled here, is its message (`err.Error()`); the HTTP handlers
    switch on it. So an error is modelled as its message string, and
    `fmt.Errorf("context: %w", err)` as `Wrap("context", err)`.
 */
module Wrappers {

  datatype Option<+T> = None | Some(value: T)

  datatype Result<+T> = Ok(value: T) | Err(msg: string)

  /** An operation that returns only an `error`. */
  datatype Outcome = Pass | Fail(msg: string)

  /** A call that either returns or panics (a Go run-time panic). */
  datatype Call<+T> = Returned(value: T) | Panicked(reason: string)

  /** `fmt.Errorf(context + ": %w", err)`. */
  function Wrap(context: string, err: string): (r: string)
    ensures |r| == |context| + 2 + |err|
    ensures r[..|context|] == context && r[|context| + 2..] == err
  {
    context + ": " + err
  }

  /** A wrapped message starts with its context, so it is never equal to a
      message whose first character differs from the context's. */
  lemma WrapDiffers(context: string, err: string, other: string)
    requires |context| > 0 && |other| > 0 && other[0] != context[0]
    ensures Wrap(context, err) != other
  {
    assert Wrap(context, err)[0] == context[0];
  }
}
